=== FILE: README.md ===
# Moralis multi-chain indexer, modelled in Dafny

This project models the indexing engine of a small service that, on a timer
or once, pulls four kinds of on-chain data from the Moralis provider
(transactions, token balances, NFTs and the native balance) for every
configured address of two chain families: Solana and EVM chains. It covers
the following:

- **Config** (`config.dfy`) reads the configuration from the process
  environment. It models the `||` defaults, the comma-separated address
  lists (`split(',').filter(Boolean)`), the `!== 'false'` switches,
  `parseInt(…, 10)` for the interval, and the exception thrown when the
  API key is missing.
- **MoralisClient** (`moralis_client.dfy`) models the process-wide
  "initialised" flag and its lazy `initializeMoralis`. It also models the
  two API accessors, which throw before initialisation, and
  `handleApiError`, which picks exactly one of three log lines.
- **Selectors** (`selectors.dfy`) models `getChain`, `getChainSymbol` and
  `getNetwork`. Each lower-cases the configured selector, looks it up in a
  table and falls back to a default.
- **Pipeline** (`pipeline.dfy`) is the part the two indexers share:
  - one failure-isolated operation: the `try` with initialise, API
    accessor, provider call and normalisation, then the `catch` that
    reports and returns the fallback;
  - the four operations of one address, run in order;
  - the `indexAll` loop over the configured addresses, with its
    per-address `catch`.

  A run leaves a trace of events: the entry into each operation, the
  awaited handshakes, the provider calls (with the "Indexing …" log line
  before them, where the operation has one), error reports, and the
  family-level lines of `indexAll` and `runOnce`.
- **PerAddress** (`per_address.dfy`) holds the per-address work both
  indexers share: the four operations of an address with their provider
  calls, normalisers and fallbacks, in the order the per-address `try`
  awaits them. Each family supplies its record types and normalisers.
- **EvmIndexer** and **SolanaIndexer** (`evm_indexer.dfy`,
  `solana_indexer.dfy`) model each family's normalisers, which turn
  provider records into typed records with the source's `||` defaults.
  They also model its four operations and its `indexAll`.
- **IndexerService** (`indexer_service.dfy`) models:
  - `runOnce`: each enabled family's `indexAll`, with a log line for each
    disabled one;
  - `start`/`stop` with the repeating timer's handle;
  - the signal handlers;
  - `main`, which runs once with `--once` and starts continuous indexing
    otherwise.

The provider, the SDK handshake and the environment are inputs. For each
address position `i`, an oracle `nat -> Calls` says two things for each of
the four operations. First, how `Moralis.start` settles, should that
operation have to await it. Second, how the provider replies: a payload, or
a rejection with an error value. Thrown values are modelled as a datatype
with four cases:

- `Nullish`;
- an Error-like object with optional response data and a message;
- the TypeError from reading a field of `null`;
- a value one of whose properties read by `handleApiError` (`response`,
  `response.data` or `message`) throws when read.

The last case is the only way an exception can escape an operation's
`catch`, so it is what makes the per-address `catch` of `indexAll`
reachable.

Whether a handshake succeeds is the environment's choice for each
operation. Several statements are made for three classes of environment
(`Pipeline.Handshakes`): every handshake succeeds, every handshake fails,
or any mix. Each operation awaits the handshake before it calls the
provider, so an operation whose handshake fails is entered but makes no
call.

## Model

| member | source | states |
|---|---|---|
| Config.Load | src/config/index.ts:24-46 | Loading fails exactly when `MORALIS_API_KEY` is unset or empty, with the source's message. On success the key is the variable's text, and each family is enabled exactly when its switch is not the text "false". A set, non-empty `SOLANA_NETWORK` or `EVM_CHAIN` is kept as written, and otherwise "mainnet" or "eth" applies. The address lists are the parsed variables. The interval is `parseInt` of a set, non-empty `INDEX_INTERVAL_MS`, and 60000 otherwise. |
| Config.LoadDefaults | src/config/index.ts:24-41 | With only the API key set, the configuration is network "mainnet", chain "eth", no addresses, both families enabled and an interval of 60000 ms. |
| Config.EmptyValuesDefault | src/config/index.ts:29-39 | An empty `SOLANA_NETWORK`, `EVM_CHAIN` or `INDEX_INTERVAL_MS` is treated like an unset one: the default "mainnet", "eth" or 60000 applies. |
| Config.LoadReadsAddresses | src/config/index.ts:30-35 | Address lists written comma-separated into `SOLANA_ADDRESSES` and `EVM_ADDRESSES` are read back exactly. |
| Config.ParseAddresses | src/config/index.ts:30 | An unset variable gives no addresses. Every address read is non-empty and holds no comma. |
| Config.AddressesRoundTrip | src/config/index.ts:30-35 | Any list of non-empty, comma-free addresses survives being joined with commas and parsed again. |
| Config.AddressesKeepSpaces | src/config/index.ts:30 | Address pieces keep their white space, and empty pieces are dropped wherever they occur: ", a," reads as the single address " a". |
| Config.JoinSplit | src/config/index.ts:30 | Splitting on a separator and joining with it gives the original text back. |
| Config.SplitJoin | src/config/index.ts:30 | Joining separator-free pieces and splitting again gives the pieces back. |
| Config.NonEmptyMembers | src/config/index.ts:30 | `.filter(Boolean)` keeps a string if and only if it is present and non-empty. |
| Config.NonEmptyKeepsAll | src/config/index.ts:30 | A list without empty strings passes `.filter(Boolean)` unchanged. |
| Config.NonEmptyAppend | src/config/index.ts:30 | `.filter(Boolean)` of two lists laid end to end is the filter of the first, then the filter of the second. |
| Config.ParseJoined | src/config/index.ts:30 | Comma-free pieces joined with commas, empty pieces included, are read back as exactly their non-empty pieces, in order. |
| Config.Split | src/config/index.ts:30 | `split` never returns an empty list, and no piece contains the separator. |
| Config.OnlyExactFalseDisables | src/config/index.ts:31-36 | An unset switch and the texts "FALSE", "0" and "" all leave indexing on; only "false" turns it off. |
| Config.Enabled | src/config/index.ts:31-36 | The `!== 'false'` switch; `Config.OnlyExactFalseDisables` and `Config.Load` state what it accepts. |
| Config.ParseIntDecimal | src/config/index.ts:39 | `parseInt` reads back the decimal text of any natural number, also when any non-digit text, white space included, follows it. |
| Config.ParseInt | src/config/index.ts:39 | `parseInt(…, 10)`; `Config.ParseIntDecimal`, `Config.ParseIntWithoutDigits`, `Config.TrimStart` and `Config.DigitCount` state what it reads. |
| Config.ParseIntWithoutDigits | src/config/index.ts:39 | Text without a digit, including the empty text, parses to NaN. |
| Config.DefaultIntervalValue | src/config/index.ts:39 | The default interval text "60000" parses to 60000. |
| Config.TrimStart | src/config/index.ts:39 | The result is a suffix of the input. Everything dropped is white space, and the result does not start with white space. |
| Config.DigitCount | src/config/index.ts:39 | The count covers exactly the leading run of digits, and the character after it is not a digit. |
| MoralisClient.InitializeMoralis | src/utils/moralisClient.ts:9-17 | An initialised session is left alone and nothing is awaited. Otherwise the handshake is awaited once, and the flag ends set exactly when it succeeded. A failed handshake propagates its error and leaves the flag clear. At most one handshake ever succeeds. |
| MoralisClient.InitializeAllStartsUntilSuccess | src/utils/moralisClient.ts:9-17 | From a fresh session, repeated initialisations call `Moralis.start` up to and including the first success, and never after it. The flag ends set if and only if some attempt succeeded. |
| MoralisClient.InitializedStaysPut | src/utils/moralisClient.ts:10 | Once the flag is set, further initialisations change nothing. |
| MoralisClient.GetSolApi | src/utils/moralisClient.ts:22-27 | Throws an Error with a non-empty message if and only if the flag is clear; otherwise returns the Solana API. |
| MoralisClient.GetEvmApi | src/utils/moralisClient.ts:32-37 | Throws an Error with a non-empty message if and only if the flag is clear; otherwise returns the EVM API. |
| MoralisClient.HandleApiError | src/utils/moralisClient.ts:40-48 | Logs exactly one line: the response data when present and non-empty, otherwise the message when non-empty, otherwise the error itself. Each case holds in both directions. Reporting throws only when reading one of the error's properties `response`, `response.data` or `message` throws. |
| Selectors.GetChain | src/indexers/evmIndexer.ts:48-60 | A selector whose lower-cased form is in the chain table resolves to that entry. Every other selector resolves to Ethereum. |
| Selectors.GetChainSymbol | src/indexers/evmIndexer.ts:273-283 | A selector whose lower-cased form is in the symbol table prints that entry. Every other selector prints upper-cased. |
| Selectors.GetNetwork | src/indexers/solanaIndexer.ts:40-47 | A selector whose lower-cased form is in the network table resolves to that entry. Every other selector resolves to mainnet. |
| Selectors.GetChainCharacterised | src/indexers/evmIndexer.ts:48-60 | Exactly which selectors yield each chain, ignoring ASCII case: "eth" and "ethereum" yield Ethereum, as does every unknown selector. "avax" and "avalanche" yield Avalanche. Each other chain has its own single key. |
| Selectors.GetChainFallback | src/indexers/evmIndexer.ts:59 | A selector outside the table resolves to Ethereum. |
| Selectors.AliasesAgree | src/indexers/evmIndexer.ts:49-58 | The long and short aliases resolve to the same chain, and upper case does not matter. |
| Selectors.CaseInsensitive | src/indexers/evmIndexer.ts:59 | Selectors equal up to ASCII case give the same chain and network. They also give the same symbol when that symbol comes from the table. |
| Selectors.SymbolOfLongAliases | src/indexers/evmIndexer.ts:273-283 | The symbol table has no long aliases: "ethereum" and "avalanche" print upper-cased, while "eth" prints "ETH". |
| Selectors.GetNetworkCharacterised | src/indexers/solanaIndexer.ts:40-47 | "devnet" and "testnet" select their networks, ignoring ASCII case. "mainnet" and every unknown selector select mainnet. |
| Selectors.GetChainAsWritten | src/indexers/evmIndexer.ts:48-60 | The object-literal lookup as written agrees with the own-key lookup unless the lower-cased selector names a member of `Object.prototype`. |
| Selectors.GetChainSymbolAsWritten | src/indexers/evmIndexer.ts:273-283 | The as-written symbol lookup agrees with the own-key lookup except on `Object.prototype` member names. |
| Selectors.GetNetworkAsWritten | src/indexers/solanaIndexer.ts:40-47 | The as-written network lookup agrees with the own-key lookup except on `Object.prototype` member names. |
| Selectors.GetChainAsWrittenMissesFallback | src/indexers/evmIndexer.ts:59 | "Constructor" is not a chain key, yet as written it yields the inherited `constructor` function instead of Ethereum. |
| Selectors.GetChainSymbolAsWrittenMissesFallback | src/indexers/evmIndexer.ts:282 | As written, "constructor" yields the inherited function instead of the upper-cased "CONSTRUCTOR". |
| Selectors.GetNetworkAsWrittenMissesFallback | src/indexers/solanaIndexer.ts:46 | As written, "constructor" is handed to the provider instead of the mainnet default. |
| Js.LiteralGet | src/indexers/evmIndexer.ts:59 | Reading an object literal finds an own key exactly when the table has it. Otherwise it finds an inherited member exactly when the key is a prototype member's name. |
| Js.LowerIdempotent | src/indexers/evmIndexer.ts:59 | Lower-casing twice is lower-casing once. |
| Pipeline.NormaliseAll | src/indexers/evmIndexer.ts:81-96 | A payload that is not an array yields no records. An array with a null element throws reading its first field. Otherwise there is one mapped record per element, in order. |
| Pipeline.RunOp | src/indexers/evmIndexer.ts:65-104 | An operation is entered once, and that entry is its first event. It calls the provider once if and only if the flag is set after the handshake (already set, or the handshake succeeded); that call comes after the awaited handshake. It leaves only operation events, and the session after it is the one initialisation left. |
| Pipeline.RunOpOutcome | src/indexers/evmIndexer.ts:65-104 | An operation returns the normalised payload when nothing in the `try` throws. When something throws, it returns the fallback after reporting the error under the operation's context. An exception escapes if and only if reporting it threw. |
| Pipeline.RunOpTame | src/indexers/solanaIndexer.ts:52-89 | An operation whose errors can all be reported never lets an exception escape. A rejected provider call yields the fallback. |
| Pipeline.Catch | src/indexers/evmIndexer.ts:100-103 | The `catch` block lets an exception escape if and only if reading one of the error's properties that `handleApiError` reads throws. Otherwise it appends exactly one report line and returns the fallback. |
| Pipeline.RunStagesShaped | src/indexers/evmIndexer.ts:242-263 | The per-address `try` enters a non-empty prefix of the remaining operations in their documented order, all of them when it completes. It calls the provider for the entered operations from the first whose handshake left the flag set: for all of them once the flag is set or every handshake succeeds, and for none when every handshake fails on a fresh session. The session stays valid. |
| Pipeline.RunStagesKeep | src/indexers/evmIndexer.ts:242-263 | When every operation completes and preserves a property of what has been gathered, the whole per-address `try` completes with that property. |
| Pipeline.RunStages | src/indexers/evmIndexer.ts:242-263 | The per-address `try`, run operation by operation until one throws; `Pipeline.RunStagesShaped` and `Pipeline.RunStagesKeep` state what it does. |
| Pipeline.TryBody | src/indexers/evmIndexer.ts:66-98 | The `try` block of an operation; `Pipeline.RunOpOutcome` states what it throws against the independent `Pipeline.Raised`. |
| Pipeline.Sweep | src/indexers/evmIndexer.ts:241-267 | The loop produces exactly one run per configured address, in list order. |
| Pipeline.IndexAll | src/indexers/evmIndexer.ts:233-268 | An empty list only logs that there is nothing to index. Otherwise `indexAll` announces the count, and what follows is the concatenation of one address run per address, in order. |
| Pipeline.IndexAllShaped | src/indexers/solanaIndexer.ts:196-231 | Every configured address is processed in list order, whatever happened to the earlier ones. Each address first enters its transactions operation, enters a prefix of the four operations in order, and calls the provider for a suffix of those it entered. An address whose `try` threw ends with the per-address `catch` line. |
| Pipeline.IndexAllCalls | src/indexers/solanaIndexer.ts:196-231 | Once the session is initialised, or when every handshake succeeds, each address calls the provider for every operation it entered. When every handshake fails on a fresh session, no provider is called and the flag stays clear. An initialised session stays initialised. |
| Pipeline.IndexAllCompletes | src/indexers/solanaIndexer.ts:204-230 | When no per-address `try` throws, every address completes. |
| Pipeline.IndexAllInvocations | src/indexers/evmIndexer.ts:241-253 | When every address completes, `indexAll` enters exactly four operations per address, address by address, in list order. Once the session is initialised, or when every handshake succeeds, it makes exactly the matching 4·N provider calls. |
| Pipeline.IndexAllFamilyEvents | src/indexers/solanaIndexer.ts:196-231 | Everything a family's `indexAll` leaves belongs to that family. Its operation entries and provider calls are against the family's network, and its log lines name the family. Every report carries the context of one of the family's four operations ('SolanaIndexer.…' or 'EVMIndexer.…'). The one exception is a handshake: `Moralis.start` is shared by both families, so it is not tied to either. |
| Pipeline.ContextNamesOperation | src/indexers/solanaIndexer.ts:86 | A report's context string names one family and one operation: two equal contexts come from the same indexer and the same operation, and no Solana context equals an EVM one. |
| Pipeline.IndexAllInvokesFirst | src/indexers/evmIndexer.ts:241-244 | A non-empty address list always enters the first address's transactions operation. It also makes that call once the session is initialised or when every handshake succeeds. |
| PerAddress.StagesShaped | src/indexers/evmIndexer.ts:244-253 | Stage `j` of an address runs operation `j`: transactions, token balances, NFTs, then the native balance, each against the family's target. This holds for every session and every family. |
| PerAddress.RunShapedFor | src/indexers/solanaIndexer.ts:205-226 | An address's pipeline enters a prefix of the four operations in order, all four when it completes. It calls the provider from the first handshake that left the flag set. |
| PerAddress.TameCompletes | src/indexers/solanaIndexer.ts:205-226 | When no error has a throwing property, the pipeline of an address completes, and each operation whose call was rejected leaves its fallback. |
| PerAddress.DeliveredTransactions | src/indexers/evmIndexer.ts:66-98 | Once the handshake is behind it, a transactions call whose payload normalises stores the normalised records. The later operations of a tame environment keep them. |
| PerAddress.TameInvocations | src/indexers/evmIndexer.ts:241-253 | In a tame environment `indexAll` enters the four operations of every address, in order. Once the session is initialised, or when every handshake succeeds, it makes the 4·N matching calls. When every handshake fails on a fresh session, it makes none. |
| EvmIndexer.NormaliseTransaction | src/indexers/evmIndexer.ts:83-94 | Each field keeps the provider's value when truthy and takes its default otherwise ('' / '0' / 'unknown'). The contract address is the provider's when truthy and undefined otherwise. |
| EvmIndexer.TransactionImage | src/indexers/evmIndexer.ts:83-94 | The transactions normalisation produces exactly the well-formed transactions: those whose defaulted fields are non-empty and whose contract address, when present, is non-empty. It is the identity on them. |
| EvmIndexer.NormaliseTransactions | src/indexers/evmIndexer.ts:79-96 | A non-array payload gives no transactions, and a null element throws reading `hash`. Otherwise there is one well-formed transaction per element. |
| EvmIndexer.NormaliseTokenBalance | src/indexers/evmIndexer.ts:126-133 | Each field keeps the provider's value when truthy and takes the default 'Unknown', 'UNKNOWN', '0' or 18 otherwise. The USD balance is the provider's text when truthy and undefined otherwise. |
| EvmIndexer.ZeroDecimalsBecomeEighteen | src/indexers/evmIndexer.ts:130 | A provider decimals of 0 is falsy and is reported as 18. |
| EvmIndexer.TokenBalanceImage | src/indexers/evmIndexer.ts:126-133 | The token-balance normalisation produces exactly the well-formed balances and is the identity on them. |
| EvmIndexer.NormaliseTokenBalances | src/indexers/evmIndexer.ts:122-135 | A non-array payload gives no balances, and a null element throws reading `tokenAddress`. Otherwise there is one well-formed balance per element. |
| EvmIndexer.NormaliseNft | src/indexers/evmIndexer.ts:165-172 | Text fields keep the provider's value when truthy and default to ''. The token URI and the metadata are the provider's values when truthy and undefined otherwise. |
| EvmIndexer.NftImage | src/indexers/evmIndexer.ts:165-172 | The NFT normalisation produces exactly the well-formed NFTs and is the identity on them. |
| EvmIndexer.NormaliseNfts | src/indexers/evmIndexer.ts:161-174 | A non-array payload gives no NFTs, and a null element throws reading `tokenAddress`. Otherwise there is one well-formed NFT per element. |
| EvmIndexer.NormaliseNative | src/indexers/evmIndexer.ts:197-198 | Null data throws reading `balance`. A missing balance or falsy ether amount gives "0"; otherwise the ether amount is returned. The result is never empty. |
| EvmIndexer.IndexAllContract | src/indexers/evmIndexer.ts:233-268 | `indexAll` with no addresses only logs. Otherwise every configured address is processed in list order and first enters its transactions operation on the resolved chain, whatever happened before. Once the session is initialised, or when every handshake succeeds, each operation entered calls the provider, the first address's transactions call included. When every handshake fails on a fresh session, no provider is called and the flag stays clear. Only this family's events appear, and the session stays valid. |
| EvmIndexer.IndexAll | src/indexers/evmIndexer.ts:233-268 | `indexAll` over this family's four operations; `EvmIndexer.IndexAllContract` and `EvmIndexer.TameIndexAllInvocations` state what it does. |
| EvmIndexer.NormalisersTame | src/indexers/evmIndexer.ts:242-263 | This family's normalisers throw only the TypeError of a null element, which `handleApiError` reports. |
| EvmIndexer.TameAddressCompletes | src/indexers/evmIndexer.ts:242-263 | Unless reporting an error itself throws, an address always completes. Each rejected call contributes its fallback (no records, or "0"), and the symbol printed is the chain's symbol. |
| EvmIndexer.DeliveredTransactions | src/indexers/evmIndexer.ts:82-95 | Once the handshake is behind it (the session was initialised, or this call's handshake succeeds), an array payload without nulls yields one normalised transaction per element, in order. The later operations keep them. |
| EvmIndexer.TameIndexAllInvocations | src/indexers/evmIndexer.ts:233-268 | In a tame environment, `indexAll` over N addresses enters exactly 4·N operations: the four in order, address by address, against the resolved chain. Once the session is initialised, or when every handshake succeeds, it makes exactly those 4·N calls. When every handshake fails on a fresh session, it makes none. |
| SolanaIndexer.NormaliseTransaction | src/indexers/solanaIndexer.ts:70-79 | Each field keeps the provider's value when truthy and takes its default ('' / 0 / '0' / 'unknown'). |
| SolanaIndexer.TransactionImage | src/indexers/solanaIndexer.ts:70-79 | The transactions normalisation produces exactly the well-formed transactions and is the identity on them. |
| SolanaIndexer.NormaliseTransactions | src/indexers/solanaIndexer.ts:66-81 | A non-array payload gives no transactions, and a null element throws reading `signature`. Otherwise there is one well-formed transaction per element. |
| SolanaIndexer.NormaliseTokenAccount | src/indexers/solanaIndexer.ts:111-121 | Each field keeps the provider's value when truthy and takes the default 'Unknown', 'UNKNOWN', '0' or 0 otherwise. The USD balance is the provider's text when truthy and undefined otherwise. |
| SolanaIndexer.MissingDecimalsBecomeZero | src/indexers/solanaIndexer.ts:116 | Missing decimals are reported as 0, unlike the EVM indexer's 18. |
| SolanaIndexer.TokenBalanceImage | src/indexers/solanaIndexer.ts:111-121 | The token-account normalisation produces exactly the well-formed accounts and is the identity on them. |
| SolanaIndexer.NormaliseTokenAccounts | src/indexers/solanaIndexer.ts:107-123 | A non-array payload gives no accounts, and a null element throws reading `address`. Otherwise there is one well-formed account per element. |
| SolanaIndexer.NormaliseNft | src/indexers/solanaIndexer.ts:153-160 | Text fields default to ''. Falsy metadata becomes an empty object, so it is always present. |
| SolanaIndexer.NftImage | src/indexers/solanaIndexer.ts:153-160 | The NFT normalisation produces exactly the NFTs with truthy metadata and is the identity on them. |
| SolanaIndexer.NormaliseNfts | src/indexers/solanaIndexer.ts:149-162 | A non-array payload gives no NFTs, and a null element throws reading `address`. Otherwise there is one well-formed NFT per element. |
| SolanaIndexer.NormaliseBalance | src/indexers/solanaIndexer.ts:185-186 | Null data throws reading `lamports`. A falsy lamports value gives "0"; otherwise its text is returned. |
| SolanaIndexer.IndexAllContract | src/indexers/solanaIndexer.ts:196-231 | `indexAll` with no addresses only logs. Otherwise every configured address is processed in list order and first enters its transactions operation on the resolved network, whatever happened before. Once the session is initialised, or when every handshake succeeds, each operation entered calls the provider, the first address's transactions call included. When every handshake fails on a fresh session, no provider is called and the flag stays clear. Only this family's events appear, and the session stays valid. |
| SolanaIndexer.IndexAll | src/indexers/solanaIndexer.ts:196-231 | `indexAll` over this family's four operations; `SolanaIndexer.IndexAllContract` and `SolanaIndexer.TameIndexAllInvocations` state what it does. |
| SolanaIndexer.NormalisersTame | src/indexers/solanaIndexer.ts:205-226 | This family's normalisers throw only the TypeError of a null element, which `handleApiError` reports. |
| SolanaIndexer.TameAddressCompletes | src/indexers/solanaIndexer.ts:205-226 | Unless reporting an error itself throws, an address always completes, and each rejected call contributes its fallback. |
| SolanaIndexer.DeliveredTransactions | src/indexers/solanaIndexer.ts:69-80 | Once the handshake is behind it (the session was initialised, or this call's handshake succeeds), an array payload without nulls yields one normalised transaction per element, in order. The later operations keep them. |
| SolanaIndexer.TameIndexAllInvocations | src/indexers/solanaIndexer.ts:196-231 | In a tame environment, `indexAll` over N addresses enters exactly 4·N operations: the four in order, address by address, against the resolved network. Once the session is initialised, or when every handshake succeeds, it makes exactly those 4·N calls. When every handshake fails on a fresh session, it makes none. |
| IndexerService.SolanaPassContract | src/index.ts:25-29 | The Solana part of a pass never begins or ends the pass and reaches only its own provider. It enters operations if and only if the family is enabled and has an address, and calls the provider only then. Once the session is initialised, or when every handshake succeeds, it calls exactly then. When every handshake fails on a fresh session, it calls nothing and leaves the flag clear. A disabled family leaves no entries, no calls and the session unchanged. |
| IndexerService.EvmPassContract | src/index.ts:31-35 | The EVM part of a pass never begins or ends the pass and reaches only its own provider. It enters operations if and only if the family is enabled and has an address, and calls the provider only then. Once the session is initialised, or when every handshake succeeds, it calls exactly then. When every handshake fails on a fresh session, it calls nothing and leaves the flag clear. A disabled family leaves no entries, no calls and the session unchanged. |
| IndexerService.RunOnce | src/index.ts:18-42 | A pass begins with its opening line and ends with its closing line, neither of which appears anywhere else. The session stays valid. |
| IndexerService.FamilyInvokedIffEnabled | src/index.ts:25-37 | A pass enters a family's operations if and only if that family is enabled and has at least one address, and calls its provider only then. Once the session is initialised, or when every handshake succeeds, it calls exactly then. When every handshake fails on a fresh session, no provider is called and the flag stays clear. |
| IndexerService.CombineReaches | src/index.ts:37 | A pass enters (or calls) a family's operations exactly when one of the two family parts does. |
| IndexerService.RunOnceMarks | src/index.ts:23-37 | A pass's entries, and its calls, are Solana's followed by EVM's; a disabled family contributes none. |
| IndexerService.EvmOnlyPassInvocations | src/index.ts:25-37 | With Solana disabled, EVM enabled and a tame environment, a pass enters four operations per EVM address, in address order. Once the session is initialised, or when every handshake succeeds, it makes exactly those calls; when every handshake fails on a fresh session, it makes none. |
| IndexerService.Pass | src/index.ts:18-42 | A pass leaves the timer state alone and strictly extends the log. |
| IndexerService.Start | src/index.ts:47-57 | `start` arms a new timer and stores its handle. Timers armed before stay armed. |
| IndexerService.Stop | src/index.ts:62-68 | `stop` clears the stored handle and disarms that timer only. It is a no-op when no handle is stored, and it touches neither the log nor the session. |
| IndexerService.Fire | src/index.ts:54-56 | A timer coming due runs a pass, which strictly extends the log, if and only if it is still armed. The timers stay as they are. |
| IndexerService.StartFromNew | src/index.ts:47-57 | `start` on a new service runs one pass, whose trace becomes the log, then arms and stores the first timer handle. |
| IndexerService.StartKeepsValid | src/index.ts:47-57 | `start` keeps the service invariant: the stored handle is armed, and every armed handle was handed out. |
| IndexerService.StopKeepsValid | src/index.ts:62-68 | `stop` keeps the service invariant. |
| IndexerService.FireKeepsValid | src/index.ts:54-56 | A timer coming due keeps the service invariant. |
| IndexerService.StopIdempotent | src/index.ts:62-68 | `stop` twice is `stop` once. |
| IndexerService.DisarmedTimerIsQuiet | src/index.ts:54-56 | A timer that is no longer armed runs no pass. |
| IndexerService.StartThenStopIsQuiet | src/index.ts:47-68 | After `start` then `stop` on a new service no timer is armed, and no timers coming due run a further pass. |
| IndexerService.QuietWhenNothingArmed | src/index.ts:54-56 | With nothing armed, any sequence of timers coming due changes nothing. |
| IndexerService.StartTwiceLeaksFirstTimer | src/index.ts:47-68 | A second `start` overwrites the stored handle. `stop` then disarms only the second timer, and the first keeps running passes. |
| IndexerService.Main | src/index.ts:72-104 | The program crashes if and only if `MORALIS_API_KEY` is unset or empty, with the missing-key message. The crash comes from loading the configuration module (config/index.ts:44-46), before `main` runs. Otherwise `main` runs. |
| IndexerService.MainModes | src/index.ts:89-95 | With the API key set: with `--once`, exactly one pass runs and no timer is armed. Without it, one pass runs and one repeating timer is armed and stored. |
| IndexerService.Shutdown | src/index.ts:76-86 | A signal stops the service and exits with status 0. |
| IndexerService.ShutdownAfterStartDisarms | src/index.ts:76-95 | With the API key set, the entry point keeps running; a signal afterwards leaves no timer armed and exits with status 0. |

## Left out

- Console output: the log lines that are modelled are events that carry
  the values they print, not formatted text. The `'='.repeat(60)` banners
  are folded into the pass's opening and closing events. These lines have
  no event:
  - the "Found N …" line of each operation (evmIndexer.ts:98, 137, 176;
    solanaIndexer.ts:83, 125, 164);
  - the per-address "Completed indexing for …" block
    (evmIndexer.ts:255-259; solanaIndexer.ts:218-222). The data it prints
    is each address run's summary (`Pipeline.IndexAll`'s `runs`), but
    `IndexerService.RunOnce` keeps only the events, so the block is not
    in the service's log;
  - "Starting continuous indexing" (index.ts:48) and "Indexing stopped"
    (index.ts:66).
- `EVMIndexer.getTokenPrice` (evmIndexer.ts:208-228) is left out because
  nothing in the indexing flow calls it.
- Floating point: `parseFloat` of `balanceUsd`, `amount`, `fee` and
  `lamports`, and the division by `1e9`, are not modelled. The records keep
  the text `parseFloat` would read, so the model states which text is read
  but not the number obtained.
- `Js.TruthyNum`: NaN is not modelled; a numeric field is falsy only when
  missing or zero.
- `Js.Lower` and `Js.Upper` map ASCII letters only. Unicode case mapping
  is left out.
- Concurrency:
  - `Promise.all` in `runOnce` is modelled sequentially, Solana first and
    then EVM. The interleaving of the two families' log lines is therefore
    not modelled.
  - `initializeMoralis` checks the flag before it awaits the handshake and
    sets it only afterwards. Two callers that overlap, such as the two
    families of one pass, can therefore both start the handshake. The model
    follows this flag-then-await structure but, being sequential, cannot
    exhibit the double handshake.
- Time:
  - `setInterval`'s delay, including its clamping of NaN or non-positive
    intervals, is not modelled.
  - Overlapping passes when a pass outlasts the interval are not modelled.
  - Timers are fired explicitly by handle (`IndexerService.Fire`).
- `dotenv` loading, `process.env` itself and `process.argv` are inputs
  (`Config.Env`, `argv`). `process.exit` is modelled as the status returned
  by `IndexerService.Shutdown`.
- The configuration module throws while it loads (config/index.ts:44-46),
  which is before `main` runs, so `main().catch` never sees that error.
  The model records it as `IndexerService.Outcome.Crashed`. The fatal-error
  handler of `main` (index.ts:99-104) is not modelled. With the indexers'
  catches, no exception escapes `main` itself, so it is unreachable.
- The Moralis SDK and the provider are oracles. Which payload a call
  returns, and whether it rejects, are inputs. The SDK's own validation of
  addresses and chains is not part of this model.
- `Selectors.CaseInsensitive`: the symbol's agreement is stated only when
  the symbol comes from the table. Otherwise it is the upper-cased
  selector itself, and two selectors that differ in case can upper-case
  differently only outside ASCII.
- Pipeline.IndexAllInvocations: the exact entries and calls are given only
  when no exception escapes an address. When one does,
  `Pipeline.IndexAllShaped` states only that each address enters a
  non-empty, in-order prefix of the four operations and calls the provider
  for a suffix of those.
- The mixed handshake: a fresh session whose handshakes fail for a while and
  then succeed calls the provider from the first success on, and which
  operation that is depends on the oracle. The members below state exact
  calls only once the session is initialised, when every handshake
  succeeds, or (no calls at all) when every handshake fails. For the mixed
  case they state at most that calls happen only where entries do;
  `Pipeline.IndexAllShaped` states the per-address shape.
- IndexerService.FamilyInvokedIffEnabled: mixed handshakes, as above.
- IndexerService.SolanaPassContract: mixed handshakes, as above.
- IndexerService.EvmPassContract: mixed handshakes, as above.
- IndexerService.EvmOnlyPassInvocations: mixed handshakes, as above.
- Pipeline.IndexAllInvokesFirst: mixed handshakes, as above.
- EvmIndexer.IndexAllContract: mixed handshakes, as above.
- SolanaIndexer.IndexAllContract: mixed handshakes, as above.
- EvmIndexer.TameIndexAllInvocations: mixed handshakes, as above.
- SolanaIndexer.TameIndexAllInvocations: mixed handshakes, as above.

## Findings

| source | as written | input that shows it | evidently intended | confidence | as-written member | corrected member |
|---|---|---|---|---|---|---|
| src/indexers/evmIndexer.ts:59 | the lower-cased chain is looked up in an object literal, which also sees `Object.prototype`, and only a falsy result falls back to Ethereum | `EVM_CHAIN=constructor` (or `__proto__`): the lookup yields the inherited `Object` function, which is truthy, so the Ethereum fallback is skipped and the provider receives a non-chain | an unknown selector, whatever its spelling, resolves to Ethereum | not executed | Selectors.GetChainAsWrittenMissesFallback | Selectors.GetChain |
| src/indexers/evmIndexer.ts:282 | the lower-cased chain is looked up in an object literal; only a falsy result falls back to the upper-cased selector | `EVM_CHAIN=constructor`: the summary prints the `Object` function's source text instead of "CONSTRUCTOR" | a selector not in the table prints upper-cased | not executed | Selectors.GetChainSymbolAsWrittenMissesFallback | Selectors.GetChainSymbol |
| src/indexers/solanaIndexer.ts:46 | the lower-cased network is looked up in an object literal; only a falsy result falls back to mainnet | `SOLANA_NETWORK=constructor`: the provider receives the `Object` function instead of mainnet | an unknown selector resolves to mainnet | not executed | Selectors.GetNetworkAsWrittenMissesFallback | Selectors.GetNetwork |

`Selectors.GetChain`, `Selectors.GetChainSymbol` and `Selectors.GetNetwork`
are the corrected own-key lookups: their contracts state the fallback for
every selector outside the table, and both indexers use them.

=== FILE: config.dfy ===
/**
 * The configuration read once from the process environment: the API key
 * (required), each family's network or chain, comma-separated address list
 * and on/off switch, and the interval between passes.
 */
module Config {
  import opened Wrappers
  import opened Js

  /** The process environment: variables that are set, with their text. */
  type Env = map<string, string>

  /** `process.env[name]`: `undefined` when the variable is unset. */
  function Get(env: Env, name: string): (r: Option<string>)
    ensures r.Some? <==> name in env
    ensures r.Some? ==> r.value == env[name]
  {
    if name in env then Some(env[name]) else None
  }

  const ApiKeyVar := "MORALIS_API_KEY"
  const SolanaNetworkVar := "SOLANA_NETWORK"
  const SolanaAddressesVar := "SOLANA_ADDRESSES"
  const SolanaEnabledVar := "ENABLE_SOLANA_INDEXING"
  const EvmChainVar := "EVM_CHAIN"
  const EvmAddressesVar := "EVM_ADDRESSES"
  const EvmEnabledVar := "ENABLE_EVM_INDEXING"
  const IntervalVar := "INDEX_INTERVAL_MS"

  const DefaultNetwork := "mainnet"
  const DefaultChain := "eth"
  const DefaultInterval := "60000"
  const MissingApiKeyMessage := "MORALIS_API_KEY is required. Please set it in your .env file."

  // ---------------------------------------------------------------------
  // Address lists

  /** `s.split(sep)`: the pieces between separators, empty ones included; never an empty list. */
  function Split(s: string, sep: char): (parts: seq<string>)
    ensures |parts| >= 1
    ensures forall i :: 0 <= i < |parts| ==> sep !in parts[i]
    decreases |s|
  {
    if s == [] then [""]
    else
      var rest := Split(s[1..], sep);
      if s[0] == sep then [""] + rest else [[s[0]] + rest[0]] + rest[1..]
  }

  /** `parts.join(sep)`. */
  function Join(parts: seq<string>, sep: char): string
    decreases |parts|
  {
    if parts == [] then ""
    else if |parts| == 1 then parts[0]
    else parts[0] + [sep] + Join(parts[1..], sep)
  }

  /** `.filter(Boolean)` on strings: the non-empty ones, in order. */
  function NonEmpty(parts: seq<string>): (r: seq<string>)
    ensures forall i :: 0 <= i < |r| ==> r[i] != "" && r[i] in parts
    ensures |r| <= |parts|
  {
    if parts == [] then []
    else if parts[0] == "" then NonEmpty(parts[1..])
    else [parts[0]] + NonEmpty(parts[1..])
  }

  /**
   * `process.env.X?.split(',').filter(Boolean) || []`: an unset variable
   * gives no addresses; a set one gives its non-empty comma-separated
   * pieces, untrimmed. The `|| []` never applies to a set variable, since
   * an array, even an empty one, is truthy.
   */
  function ParseAddresses(v: Option<string>): (r: seq<string>)
    ensures v.None? ==> r == []
    ensures forall i :: 0 <= i < |r| ==> r[i] != "" && ',' !in r[i]
  {
    match v
    case None => []
    case Some(s) => NonEmpty(Split(s, ','))
  }

  /** Splitting and joining back with the same separator gives the text again. */
  lemma {:induction false} JoinSplit(s: string, sep: char)
    ensures Join(Split(s, sep), sep) == s
    decreases |s|
  {
    if s != [] {
      var rest := Split(s[1..], sep);
      JoinSplit(s[1..], sep);
      if s[0] == sep {
        assert Split(s, sep) == [""] + rest;
        assert ([""] + rest)[1..] == rest;
      } else {
        var parts := Split(s, sep);
        assert parts == [[s[0]] + rest[0]] + rest[1..];
        if |rest| == 1 {
          assert parts == [[s[0]] + rest[0]];
        } else {
          assert parts[1..] == rest[1..];
          assert Join(rest, sep) == rest[0] + [sep] + Join(rest[1..], sep);
        }
      }
    }
  }

  /** A piece free of the separator splits to itself. */
  lemma {:induction false} SplitPiece(p: string, sep: char)
    requires sep !in p
    ensures Split(p, sep) == [p]
    decreases |p|
  {
    if p != [] {
      SplitPiece(p[1..], sep);
      assert [p[0]] + p[1..] == p;
    }
  }

  /** A piece free of the separator, then the separator, then more: the piece comes first. */
  lemma {:induction false} SplitAfterPiece(p: string, sep: char, more: string)
    requires sep !in p
    ensures Split(p + [sep] + more, sep) == [p] + Split(more, sep)
    decreases |p|
  {
    if p == [] {
      assert p + [sep] + more == [sep] + more;
      assert ([sep] + more)[1..] == more;
    } else {
      SplitAfterPiece(p[1..], sep, more);
      var s := p + [sep] + more;
      assert s[1..] == p[1..] + [sep] + more;
      assert [p[0]] + p[1..] == p;
    }
  }

  /** Joining separator-free pieces and splitting again gives the pieces back. */
  lemma {:induction false} SplitJoin(parts: seq<string>, sep: char)
    requires |parts| >= 1
    requires forall i :: 0 <= i < |parts| ==> sep !in parts[i]
    ensures Split(Join(parts, sep), sep) == parts
    decreases |parts|
  {
    if |parts| == 1 {
      SplitPiece(parts[0], sep);
    } else {
      SplitJoin(parts[1..], sep);
      SplitAfterPiece(parts[0], sep, Join(parts[1..], sep));
      assert [parts[0]] + parts[1..] == parts;
    }
  }

  /** `NonEmpty` drops exactly the empty strings: a string is kept if and only if it is non-empty and present. */
  lemma {:induction false} NonEmptyMembers(parts: seq<string>, x: string)
    ensures x in NonEmpty(parts) <==> x in parts && x != ""
    decreases |parts|
  {
    if parts != [] {
      NonEmptyMembers(parts[1..], x);
      assert parts == [parts[0]] + parts[1..];
    }
  }

  /** A list without empty strings passes the filter unchanged. */
  lemma {:induction false} NonEmptyKeepsAll(parts: seq<string>)
    requires forall i :: 0 <= i < |parts| ==> parts[i] != ""
    ensures NonEmpty(parts) == parts
    decreases |parts|
  {
    if parts != [] {
      NonEmptyKeepsAll(parts[1..]);
    }
  }

  /** The filter distributes over concatenation: it keeps each list's non-empty strings, in order. */
  lemma {:induction false} NonEmptyAppend(a: seq<string>, b: seq<string>)
    ensures NonEmpty(a + b) == NonEmpty(a) + NonEmpty(b)
    decreases |a|
  {
    if a == [] {
      assert a + b == b;
    } else {
      NonEmptyAppend(a[1..], b);
      assert (a + b)[1..] == a[1..] + b;
    }
  }

  /**
   * Comma-free pieces joined with commas are read back as their non-empty
   * pieces, in order: empty pieces vanish wherever they occur.
   */
  lemma ParseJoined(pieces: seq<string>)
    requires forall i :: 0 <= i < |pieces| ==> ',' !in pieces[i]
    ensures ParseAddresses(Some(Join(pieces, ','))) == NonEmpty(pieces)
  {
    if pieces == [] {
      assert Split("", ',') == [""];
    } else {
      SplitJoin(pieces, ',');
    }
  }

  /**
   * A list of non-empty addresses without commas, written comma-separated
   * into the variable, is read back exactly; the empty list is written as
   * the empty string.
   */
  lemma AddressesRoundTrip(addresses: seq<string>)
    requires forall i :: 0 <= i < |addresses| ==> addresses[i] != "" && ',' !in addresses[i]
    ensures ParseAddresses(Some(Join(addresses, ','))) == addresses
  {
    ParseJoined(addresses);
    NonEmptyKeepsAll(addresses);
  }

  /** Pieces are not trimmed, and empty pieces are dropped wherever they occur. */
  lemma AddressesKeepSpaces()
    ensures ParseAddresses(Some(", a,")) == [" a"]
  {
    assert Split(", a,", ',') == ["", " a", ""] by {
      SplitAfterPiece(" a", ',', "");
      assert " a" + [','] + "" == " a,";
      SplitAfterPiece("", ',', " a,");
      assert "" + [','] + " a," == ", a,";
    }
  }

  // ---------------------------------------------------------------------
  // Switches

  /** `process.env.X !== 'false'`: only the exact text "false" turns indexing off. */
  predicate Enabled(v: Option<string>) {
    v != Some("false")
  }

  /** Unset, "FALSE", "0" and "" all leave indexing on; "false" alone turns it off. */
  lemma OnlyExactFalseDisables()
    ensures Enabled(None) && Enabled(Some("FALSE")) && Enabled(Some("0")) && Enabled(Some(""))
    ensures !Enabled(Some("false"))
  {
  }

  // ---------------------------------------------------------------------
  // The interval: `parseInt(text, 10)`

  /** The white space and line terminators that `parseInt` skips before the number. */
  predicate IsSpace(c: char) {
    || c == ' ' || c == '\t' || c == '\n' || c == '\r' || c == '\U{B}' || c == '\U{C}'
    || c == '\U{A0}' || c == '\U{1680}' || ('\U{2000}' <= c <= '\U{200A}')
    || c == '\U{2028}' || c == '\U{2029}' || c == '\U{202F}' || c == '\U{205F}'
    || c == '\U{3000}' || c == '\U{FEFF}'
  }

  predicate IsDigit(c: char) {
    '0' <= c <= '9'
  }

  function DigitValue(c: char): (d: nat)
    requires IsDigit(c)
    ensures d < 10
  {
    (c - '0') as nat
  }

  function DigitChar(d: nat): (c: char)
    requires d < 10
    ensures IsDigit(c) && DigitValue(c) == d
  {
    ('0' as int + d) as char
  }

  /** The text after the leading white space. */
  function TrimStart(s: string): (t: string)
    ensures |t| <= |s| && t == s[|s| - |t|..]
    ensures t != [] ==> !IsSpace(t[0])
    ensures forall i :: 0 <= i < |s| - |t| ==> IsSpace(s[i])
  {
    if s != [] && IsSpace(s[0]) then TrimStart(s[1..]) else s
  }

  /** The number of leading decimal digits. */
  function DigitCount(s: string): (n: nat)
    ensures n <= |s|
    ensures forall i :: 0 <= i < n ==> IsDigit(s[i])
    ensures n < |s| ==> !IsDigit(s[n])
  {
    if s != [] && IsDigit(s[0]) then 1 + DigitCount(s[1..]) else 0
  }

  /** The value of a string of decimal digits, most significant first. */
  function DecimalValue(ds: string): nat
    requires forall i :: 0 <= i < |ds| ==> IsDigit(ds[i])
  {
    if ds == [] then 0 else 10 * DecimalValue(ds[..|ds| - 1]) + DigitValue(ds[|ds| - 1])
  }

  /** The shortest decimal text of a natural number. */
  function Decimal(n: nat): (ds: string)
    ensures |ds| >= 1
    ensures forall i :: 0 <= i < |ds| ==> IsDigit(ds[i])
  {
    if n < 10 then [DigitChar(n)] else Decimal(n / 10) + [DigitChar(n % 10)]
  }

  /** A sign, if there is one, and the text after it. */
  function Sign(t: string): (r: (bool, string))
    ensures r.1 == t || (t != [] && r.1 == t[1..])
  {
    if t != [] && (t[0] == '-' || t[0] == '+') then (t[0] == '-', t[1..]) else (false, t)
  }

  /** The value of the leading digits, `None` (NaN) when there are none. */
  function LeadingNumber(body: string): (r: Option<nat>)
    ensures r.None? <==> DigitCount(body) == 0
  {
    var n := DigitCount(body);
    if n == 0 then None else Some(DecimalValue(body[..n]))
  }

  /**
   * `parseInt(s, 10)`: skip leading white space, take an optional sign,
   * then the longest run of decimal digits; `None` (NaN) when there is no
   * digit. Whatever follows the digits is ignored.
   */
  function ParseInt(s: string): Option<int> {
    var (negative, body) := Sign(TrimStart(s));
    match LeadingNumber(body)
    case None => None
    case Some(v) => if negative then Some(-(v as int)) else Some(v)
  }

  lemma DigitIsNoSpace(c: char)
    requires IsDigit(c)
    ensures !IsSpace(c)
  {
  }

  lemma {:induction false} DecimalValueOfDecimal(n: nat)
    ensures DecimalValue(Decimal(n)) == n
  {
    var ds := Decimal(n);
    if n >= 10 {
      DecimalValueOfDecimal(n / 10);
      assert ds[..|ds| - 1] == Decimal(n / 10);
    }
  }

  lemma {:induction false} DigitCountOfDigits(ds: string, rest: string)
    requires forall i :: 0 <= i < |ds| ==> IsDigit(ds[i])
    requires rest == [] || !IsDigit(rest[0])
    ensures DigitCount(ds + rest) == |ds|
    decreases |ds|
  {
    if ds != [] {
      DigitCountOfDigits(ds[1..], rest);
      assert (ds + rest)[1..] == ds[1..] + rest;
    }
  }

  /**
   * `parseInt` reads back the decimal text of any natural number, also
   * when non-digit text such as a unit follows it.
   */
  lemma ParseIntDecimal(n: nat, rest: string)
    requires rest == [] || !IsDigit(rest[0])
    ensures ParseInt(Decimal(n) + rest) == Some(n)
  {
    var ds := Decimal(n);
    var s := ds + rest;
    DigitIsNoSpace(s[0]);
    assert TrimStart(s) == s;
    assert Sign(s) == (false, s);
    DigitCountOfDigits(ds, rest);
    DecimalValueOfDecimal(n);
    assert s[..|ds|] == ds;
    assert LeadingNumber(s) == Some(n);
  }

  /** Text without any digit is NaN, and so is the empty string. */
  lemma ParseIntWithoutDigits(s: string)
    requires forall i :: 0 <= i < |s| ==> !IsDigit(s[i])
    ensures ParseInt(s) == None
  {
    var t := TrimStart(s);
    assert forall i :: 0 <= i < |t| ==> t[i] == s[|s| - |t| + i];
  }

  // ---------------------------------------------------------------------
  // The configuration object

  datatype Settings = Settings(
    apiKey: string,
    solanaNetwork: string, solanaAddresses: seq<string>, solanaEnabled: bool,
    evmChain: string, evmAddresses: seq<string>, evmEnabled: bool,
    intervalMs: Option<int>)

  /**
   * Loading the configuration module: every field is read with its
   * default, and loading throws when the API key is unset or empty.
   */
  function Load(env: Env): (r: Result<Settings, string>)
    ensures r.Failure? <==> !Truthy(Get(env, ApiKeyVar))
    ensures r.Failure? ==> r.error == MissingApiKeyMessage
    ensures r.Success? ==> r.value.apiKey == env[ApiKeyVar] && r.value.apiKey != ""
    ensures r.Success? ==> Enabled(Get(env, SolanaEnabledVar)) == r.value.solanaEnabled
    ensures r.Success? ==> Enabled(Get(env, EvmEnabledVar)) == r.value.evmEnabled
    ensures r.Success? ==> Keeps(Get(env, SolanaNetworkVar), DefaultNetwork, r.value.solanaNetwork)
    ensures r.Success? ==> Keeps(Get(env, EvmChainVar), DefaultChain, r.value.evmChain)
    ensures r.Success? ==> r.value.solanaAddresses == ParseAddresses(Get(env, SolanaAddressesVar))
    ensures r.Success? ==> r.value.evmAddresses == ParseAddresses(Get(env, EvmAddressesVar))
    ensures r.Success? && Truthy(Get(env, IntervalVar)) ==> r.value.intervalMs == ParseInt(env[IntervalVar])
    ensures r.Success? && !Truthy(Get(env, IntervalVar)) ==> r.value.intervalMs == Some(60000)
  {
    DefaultIntervalValue();
    var settings := Settings(
      Or(Get(env, ApiKeyVar), ""),
      Or(Get(env, SolanaNetworkVar), DefaultNetwork),
      ParseAddresses(Get(env, SolanaAddressesVar)),
      Enabled(Get(env, SolanaEnabledVar)),
      Or(Get(env, EvmChainVar), DefaultChain),
      ParseAddresses(Get(env, EvmAddressesVar)),
      Enabled(Get(env, EvmEnabledVar)),
      ParseInt(Or(Get(env, IntervalVar), DefaultInterval)));
    if settings.apiKey == "" then Failure(MissingApiKeyMessage) else Success(settings)
  }

  /** The default interval text reads as 60000. */
  lemma DefaultIntervalValue()
    ensures ParseInt(DefaultInterval) == Some(60000)
  {
    assert Decimal(60000) == "60000" by {
      assert Decimal(6) == "6";
      assert Decimal(60) == "60";
      assert Decimal(600) == "600";
      assert Decimal(6000) == "6000";
    }
    ParseIntDecimal(60000, "");
    assert Decimal(60000) + "" == "60000";
  }

  /**
   * With only the API key set, the configuration is: network "mainnet",
   * chain "eth", no addresses, both families enabled, a 60000 ms interval.
   */
  lemma LoadDefaults(key: string)
    requires key != ""
    ensures Load(map[ApiKeyVar := key]) ==
      Success(Settings(key, "mainnet", [], true, "eth", [], true, Some(60000)))
  {
    var env := map[ApiKeyVar := key];
    assert env.Keys == {ApiKeyVar};
    assert Get(env, SolanaNetworkVar) == None && Get(env, SolanaAddressesVar) == None;
    assert Get(env, SolanaEnabledVar) == None && Get(env, EvmChainVar) == None;
    assert Get(env, EvmAddressesVar) == None && Get(env, EvmEnabledVar) == None;
    assert Get(env, IntervalVar) == None;
    DefaultIntervalValue();
  }

  /** Address lists written comma-separated into the two variables are read back exactly. */
  lemma LoadReadsAddresses(env: Env, solana: seq<string>, evm: seq<string>)
    requires Truthy(Get(env, ApiKeyVar))
    requires forall i :: 0 <= i < |solana| ==> solana[i] != "" && ',' !in solana[i]
    requires forall i :: 0 <= i < |evm| ==> evm[i] != "" && ',' !in evm[i]
    requires Get(env, SolanaAddressesVar) == Some(Join(solana, ','))
    requires Get(env, EvmAddressesVar) == Some(Join(evm, ','))
    ensures Load(env).Success?
    ensures Load(env).value.solanaAddresses == solana
    ensures Load(env).value.evmAddresses == evm
  {
    AddressesRoundTrip(solana);
    AddressesRoundTrip(evm);
  }

  /** An empty network, chain or interval variable is the same as an unset one. */
  lemma EmptyValuesDefault(env: Env)
    requires Truthy(Get(env, ApiKeyVar))
    requires Get(env, SolanaNetworkVar) in {None, Some("")}
    requires Get(env, EvmChainVar) in {None, Some("")}
    requires Get(env, IntervalVar) in {None, Some("")}
    ensures Load(env).Success?
    ensures Load(env).value.solanaNetwork == DefaultNetwork
    ensures Load(env).value.evmChain == DefaultChain
    ensures Load(env).value.intervalMs == Some(60000)
  {
    assert Or(Get(env, IntervalVar), DefaultInterval) == DefaultInterval;
    DefaultIntervalValue();
  }
}

=== FILE: evm_indexer.dfy ===
/**
 * The EVM indexer: the normalisation of each provider payload into typed
 * records with `||` defaults, the four failure-isolated operations for one
 * address, and `indexAll` over the configured addresses.
 */
module EvmIndexer {
  import opened Wrappers
  import opened Js
  import opened MoralisClient
  import opened Pipeline
  import opened Selectors
  import PerAddress

  // ---------------------------------------------------------------------
  // Transactions

  /** A wallet transaction as the provider returns it; every field may be missing. */
  datatype RawTransaction = RawTransaction(
    hash: Option<string>, blockNumber: Option<string>, blockTimestamp: Option<string>,
    fromAddress: Option<string>, toAddress: Option<string>, value: Option<string>,
    gas: Option<string>, gasPrice: Option<string>, receiptStatus: Option<string>,
    contractAddress: Option<string>)

  datatype Transaction = Transaction(
    hash: string, blockNumber: string, blockTimestamp: string, from: string, to: string,
    value: string, gas: string, gasPrice: string, status: string, contractAddress: Option<string>)

  /** The fields with a non-empty default are never empty; an empty contract address is absent. */
  predicate WellFormedTransaction(t: Transaction) {
    && t.value != "" && t.gas != "" && t.gasPrice != "" && t.status != ""
    && (t.contractAddress.Some? ==> t.contractAddress.value != "")
  }

  function NormaliseTransaction(raw: RawTransaction): (t: Transaction)
    ensures WellFormedTransaction(t)
    ensures Keeps(raw.hash, "", t.hash) && Keeps(raw.blockNumber, "", t.blockNumber)
    ensures Keeps(raw.blockTimestamp, "", t.blockTimestamp)
    ensures Keeps(raw.fromAddress, "", t.from) && Keeps(raw.toAddress, "", t.to)
    ensures Keeps(raw.value, "0", t.value) && Keeps(raw.gas, "0", t.gas)
    ensures Keeps(raw.gasPrice, "0", t.gasPrice) && Keeps(raw.receiptStatus, "unknown", t.status)
    ensures t.contractAddress.Some? <==> Truthy(raw.contractAddress)
    ensures Truthy(raw.contractAddress) ==> t.contractAddress == raw.contractAddress
  {
    Transaction(
      Or(raw.hash, ""), Or(raw.blockNumber, ""), Or(raw.blockTimestamp, ""),
      Or(raw.fromAddress, ""), Or(raw.toAddress, ""), Or(raw.value, "0"),
      Or(raw.gas, "0"), Or(raw.gasPrice, "0"), Or(raw.receiptStatus, "unknown"),
      OrUndefined(raw.contractAddress))
  }

  /** A typed transaction written back as a provider record with every field present. */
  function TransactionToRaw(t: Transaction): RawTransaction {
    RawTransaction(
      Some(t.hash), Some(t.blockNumber), Some(t.blockTimestamp), Some(t.from), Some(t.to),
      Some(t.value), Some(t.gas), Some(t.gasPrice), Some(t.status), t.contractAddress)
  }

  /** Normalisation produces exactly the well-formed transactions, and is the identity on them. */
  lemma TransactionImage(t: Transaction)
    ensures WellFormedTransaction(t) ==> NormaliseTransaction(TransactionToRaw(t)) == t
    ensures WellFormedTransaction(t) <==> exists raw :: NormaliseTransaction(raw) == t
  {
    if WellFormedTransaction(t) {
      assert NormaliseTransaction(TransactionToRaw(t)) == t;
    }
  }

  /** `indexTransactions`' mapping of the payload. */
  function NormaliseTransactions(p: Payload<RawTransaction>): (r: Result<seq<Transaction>, Thrown>)
    ensures p.NotArray? ==> r == Success([])
    ensures r.Failure? ==> r.error == ReadOfNullish("hash")
    ensures r.Success? && p.Records? ==> |r.value| == |p.items|
    ensures r.Success? ==> forall i :: 0 <= i < |r.value| ==> WellFormedTransaction(r.value[i])
  {
    NormaliseAll(p, NormaliseTransaction, "hash")
  }

  // ---------------------------------------------------------------------
  // Token balances

  datatype RawTokenBalance = RawTokenBalance(
    tokenAddress: Option<string>, name: Option<string>, symbol: Option<string>,
    decimals: Option<int>, balance: Option<string>, balanceUsd: Option<string>)

  /** `balanceUsd` is the text `parseFloat` would read, kept only when truthy. */
  datatype TokenBalance = TokenBalance(
    tokenAddress: string, name: string, symbol: string, decimals: int, balance: string,
    balanceUsd: Option<string>)

  predicate WellFormedTokenBalance(b: TokenBalance) {
    && b.name != "" && b.symbol != "" && b.balance != "" && b.decimals != 0
    && (b.balanceUsd.Some? ==> b.balanceUsd.value != "")
  }

  function NormaliseTokenBalance(raw: RawTokenBalance): (b: TokenBalance)
    ensures WellFormedTokenBalance(b)
    ensures Keeps(raw.tokenAddress, "", b.tokenAddress)
    ensures Keeps(raw.name, "Unknown", b.name) && Keeps(raw.symbol, "UNKNOWN", b.symbol)
    ensures Keeps(raw.balance, "0", b.balance)
    ensures TruthyNum(raw.decimals) ==> b.decimals == raw.decimals.value
    ensures !TruthyNum(raw.decimals) ==> b.decimals == 18
    ensures b.balanceUsd.Some? <==> Truthy(raw.balanceUsd)
    ensures Truthy(raw.balanceUsd) ==> b.balanceUsd == raw.balanceUsd
  {
    TokenBalance(
      Or(raw.tokenAddress, ""), Or(raw.name, "Unknown"), Or(raw.symbol, "UNKNOWN"),
      OrNum(raw.decimals, 18), Or(raw.balance, "0"), OrUndefined(raw.balanceUsd))
  }

  function TokenBalanceToRaw(b: TokenBalance): RawTokenBalance {
    RawTokenBalance(Some(b.tokenAddress), Some(b.name), Some(b.symbol), Some(b.decimals),
                    Some(b.balance), b.balanceUsd)
  }

  /** A provider decimals of 0 is falsy: the balance is reported with 18 decimals. */
  lemma ZeroDecimalsBecomeEighteen(raw: RawTokenBalance)
    requires raw.decimals == Some(0)
    ensures NormaliseTokenBalance(raw).decimals == 18
  {
  }

  lemma TokenBalanceImage(b: TokenBalance)
    ensures WellFormedTokenBalance(b) ==> NormaliseTokenBalance(TokenBalanceToRaw(b)) == b
    ensures WellFormedTokenBalance(b) <==> exists raw :: NormaliseTokenBalance(raw) == b
  {
    if WellFormedTokenBalance(b) {
      assert NormaliseTokenBalance(TokenBalanceToRaw(b)) == b;
    }
  }

  function NormaliseTokenBalances(p: Payload<RawTokenBalance>): (r: Result<seq<TokenBalance>, Thrown>)
    ensures p.NotArray? ==> r == Success([])
    ensures r.Failure? ==> r.error == ReadOfNullish("tokenAddress")
    ensures r.Success? && p.Records? ==> |r.value| == |p.items|
    ensures r.Success? ==> forall i :: 0 <= i < |r.value| ==> WellFormedTokenBalance(r.value[i])
  {
    NormaliseAll(p, NormaliseTokenBalance, "tokenAddress")
  }

  // ---------------------------------------------------------------------
  // NFTs

  datatype RawNft = RawNft(
    tokenAddress: Option<string>, tokenId: Option<string>, name: Option<string>,
    symbol: Option<string>, tokenUri: Option<string>, metadata: Option<Opaque>)

  datatype Nft = Nft(
    tokenAddress: string, tokenId: string, name: string, symbol: string,
    tokenUri: Option<string>, metadata: Option<Opaque>)

  /** A falsy token URI or metadata is left undefined rather than defaulted. */
  predicate WellFormedNft(n: Nft) {
    && (n.tokenUri.Some? ==> n.tokenUri.value != "")
    && TruthyOpaque(n.metadata) == n.metadata.Some?
  }

  function NormaliseNft(raw: RawNft): (n: Nft)
    ensures WellFormedNft(n)
    ensures Keeps(raw.tokenAddress, "", n.tokenAddress) && Keeps(raw.tokenId, "", n.tokenId)
    ensures Keeps(raw.name, "", n.name) && Keeps(raw.symbol, "", n.symbol)
    ensures n.tokenUri.Some? <==> Truthy(raw.tokenUri)
    ensures Truthy(raw.tokenUri) ==> n.tokenUri == raw.tokenUri
    ensures n.metadata.Some? <==> TruthyOpaque(raw.metadata)
    ensures TruthyOpaque(raw.metadata) ==> n.metadata == raw.metadata
  {
    Nft(Or(raw.tokenAddress, ""), Or(raw.tokenId, ""), Or(raw.name, ""), Or(raw.symbol, ""),
        OrUndefined(raw.tokenUri), OpaqueOrUndefined(raw.metadata))
  }

  function NftToRaw(n: Nft): RawNft {
    RawNft(Some(n.tokenAddress), Some(n.tokenId), Some(n.name), Some(n.symbol), n.tokenUri, n.metadata)
  }

  lemma NftImage(n: Nft)
    ensures WellFormedNft(n) ==> NormaliseNft(NftToRaw(n)) == n
    ensures WellFormedNft(n) <==> exists raw :: NormaliseNft(raw) == n
  {
    if WellFormedNft(n) {
      assert NormaliseNft(NftToRaw(n)) == n;
    }
  }

  function NormaliseNfts(p: Payload<RawNft>): (r: Result<seq<Nft>, Thrown>)
    ensures p.NotArray? ==> r == Success([])
    ensures r.Failure? ==> r.error == ReadOfNullish("tokenAddress")
    ensures r.Success? && p.Records? ==> |r.value| == |p.items|
    ensures r.Success? ==> forall i :: 0 <= i < |r.value| ==> WellFormedNft(r.value[i])
  {
    NormaliseAll(p, NormaliseNft, "tokenAddress")
  }

  // ---------------------------------------------------------------------
  // Native balance

  datatype BalanceJson = BalanceJson(ether: Option<string>)

  /** The native-balance payload: `null`, or an object with an optional `balance`. */
  datatype NativeJson = NullData | NativeData(balance: Option<BalanceJson>)

  /** `data.balance?.ether || '0'`: reading `balance` of null data throws. */
  function NormaliseNative(data: NativeJson): (r: Result<string, Thrown>)
    ensures data.NullData? <==> r.Failure?
    ensures r.Failure? ==> r.error == ReadOfNullish("balance")
    ensures r.Success? ==> r.value != ""
    ensures data.NativeData? && (data.balance.None? || !Truthy(data.balance.value.ether)) ==>
      r == Success("0")
    ensures data.NativeData? && data.balance.Some? && Truthy(data.balance.value.ether) ==>
      r == Success(data.balance.value.ether.value)
  {
    match data
    case NullData => Failure(ReadOfNullish("balance"))
    case NativeData(None) => Success("0")
    case NativeData(Some(b)) => Success(Or(b.ether, "0"))
  }

  // ---------------------------------------------------------------------
  // One address

  /** The environment's behaviour for the four operations of one address. */
  type Calls = PerAddress.Calls<RawTransaction, RawTokenBalance, RawNft, NativeJson>

  type Gathered = PerAddress.Gathered<Transaction, TokenBalance, Nft>

  /** This family's normalisers; none of them throws anything but a read of a missing element. */
  const Norm: PerAddress.Normalisers<RawTransaction, RawTokenBalance, RawNft, NativeJson, Transaction, TokenBalance, Nft> :=
    PerAddress.Normalisers(NormaliseTransactions, NormaliseTokenBalances, NormaliseNfts, NormaliseNative)

  /** What the per-address log line reports; the symbol is printed after the native balance. */
  datatype Summary = Summary(
    transactions: seq<Transaction>, tokenBalances: seq<TokenBalance>, nfts: seq<Nft>,
    nativeBalance: string, symbol: string)

  /** The indexer's configuration, fixed at construction. */
  datatype Indexer = Indexer(addresses: seq<string>, chain: string)

  function TargetOf(ix: Indexer): Target {
    EvmTarget(GetChain(ix.chain))
  }

  /** The per-address log line's values. */
  function Report(ix: Indexer, g: Gathered): Summary {
    Summary(g.transactions, g.tokenBalances, g.nfts, g.nativeBalance, GetChainSymbol(ix.chain))
  }

  function Summarise(ix: Indexer): Gathered -> Summary {
    (g: Gathered) => Report(ix, g)
  }

  /**
   * The body of the per-address `try` in `indexAll`: the four operations in
   * order, stopping at the first exception that escapes an operation.
   */
  function IndexAddress(ix: Indexer, s: Session, address: string, calls: Calls): StepRun<Summary> {
    PerAddress.Run(s, address, TargetOf(ix), calls, Norm, Summarise(ix))
  }

  /** `indexAll`: the shared sweep with this family's per-address pipeline; `oracle(i)` drives address `i`. */
  function IndexAll(ix: Indexer, s: Session, oracle: nat -> Calls): PassRun<Summary> {
    Pipeline.IndexAll(Evm, s, ix.addresses, PerAddress.Step(TargetOf(ix), Norm, Summarise(ix), oracle))
  }

  // ---------------------------------------------------------------------
  // Properties of the per-address pipeline and of `indexAll`

  /**
   * `indexAll`: with no addresses it only logs; otherwise every configured
   * address is processed in list order, each by a pipeline that enters the
   * transactions operation on the resolved chain first, whatever happened to
   * the addresses before it. Once the session is initialised, or when every
   * handshake succeeds, each operation entered calls the provider; when
   * every handshake fails on a fresh session, the provider is never called
   * and the flag stays clear. The session stays valid.
   */
  lemma IndexAllContract(ix: Indexer, s: Session, oracle: nat -> Calls, h: Handshakes)
    requires forall i :: PerAddress.StartsAre(oracle(i), h)
    ensures var r := IndexAll(ix, s, oracle);
      && (ix.addresses == [] ==> r.events == [NothingToIndex(Evm)])
      && |r.runs| == |ix.addresses|
      && (forall i :: 0 <= i < |ix.addresses| ==>
            && r.runs[i].address == ix.addresses[i]
            && RunShaped(r.runs[i], TargetOf(ix), Evm)
            && Entries(r.runs[i].events)[0] == Entered(Transactions, ix.addresses[i], EvmTarget(GetChain(ix.chain))))
      && (Valid(s) ==> Valid(r.session))
      && (forall e :: e in r.events ==> FamilyEvent(e, Evm))
      && (ix.addresses != [] ==> Entered(Transactions, ix.addresses[0], TargetOf(ix)) in r.events)
      && (ix.addresses != [] && (s.initialized || h.AllSucceed?) ==>
            Invoked(Transactions, ix.addresses[0], TargetOf(ix)) in r.events)
      && (s.initialized || h.AllSucceed? ==> AllCalled(r.runs))
      && (s.initialized ==> r.session.initialized)
      && (!s.initialized && h.AllFail? ==> Invocations(r.events) == [] && !r.session.initialized)
  {
    var step := PerAddress.Step(TargetOf(ix), Norm, Summarise(ix), oracle);
    PerAddress.StepIsShaped(TargetOf(ix), Norm, Summarise(ix), oracle, h);
    Pipeline.IndexAllShaped(Evm, s, ix.addresses, step, TargetOf(ix), h);
    Pipeline.IndexAllFamilyEvents(Evm, s, ix.addresses, step, TargetOf(ix), h);
    Pipeline.IndexAllCalls(Evm, s, ix.addresses, step, TargetOf(ix), h);
    if ix.addresses != [] {
      Pipeline.IndexAllInvokesFirst(Evm, s, ix.addresses, step, TargetOf(ix), h);
    }
  }

  /** This family's normalisers only throw on a missing element, which `handleApiError` can report. */
  lemma NormalisersTame(calls: Calls)
    requires PerAddress.TameCalls(calls)
    ensures PerAddress.Tame(calls, Norm)
  {
  }

  /**
   * Unless reporting an error itself throws, the pipeline for an address
   * always completes, and each operation whose provider call was rejected
   * contributes its default: no records, or a balance of "0".
   */
  lemma TameAddressCompletes(ix: Indexer, s: Session, address: string, calls: Calls)
    requires PerAddress.TameCalls(calls)
    ensures var r := IndexAddress(ix, s, address, calls);
      && r.outcome.Success?
      && (calls.transactions.reply.Rejected? ==> r.outcome.value.transactions == [])
      && (calls.tokenBalances.reply.Rejected? ==> r.outcome.value.tokenBalances == [])
      && (calls.nfts.reply.Rejected? ==> r.outcome.value.nfts == [])
      && (calls.native.reply.Rejected? ==> r.outcome.value.nativeBalance == "0")
      && r.outcome.value.symbol == GetChainSymbol(ix.chain)
  {
    NormalisersTame(calls);
    PerAddress.TameCompletes(s, address, TargetOf(ix), calls, Norm);
  }

  /**
   * Once the handshake is behind it, a transactions call whose payload is
   * an array without null elements yields one normalised record per
   * element, and the later operations leave them as they are.
   */
  lemma DeliveredTransactions(ix: Indexer, s: Session, address: string, calls: Calls, items: seq<RawTransaction>)
    requires s.initialized || calls.transactions.start.Started?
    requires PerAddress.TameCalls(calls)
    requires calls.transactions.reply == Ok(Records(seq(|items|, i requires 0 <= i < |items| => Some(items[i]))))
    ensures var r := IndexAddress(ix, s, address, calls);
      && r.outcome.Success?
      && |r.outcome.value.transactions| == |items|
      && forall i :: 0 <= i < |items| ==> r.outcome.value.transactions[i] == NormaliseTransaction(items[i])
  {
    NormalisersTame(calls);
    PerAddress.DeliveredTransactions(s, address, TargetOf(ix), calls, Norm);
  }

  /**
   * In a tame environment `indexAll` over N addresses enters the four
   * operations, in order, address by address in list order, all against the
   * resolved chain. Once the session is initialised, or when every
   * handshake succeeds, it makes exactly those 4 * N provider calls; when
   * every handshake fails on a fresh session it makes none.
   */
  lemma TameIndexAllInvocations(ix: Indexer, s: Session, oracle: nat -> Calls, h: Handshakes)
    requires forall i :: PerAddress.TameCalls(oracle(i)) && PerAddress.StartsAre(oracle(i), h)
    ensures var r := IndexAll(ix, s, oracle);
      && Entries(r.events) == Expected(ix.addresses, TargetOf(ix), Entering)
      && |Entries(r.events)| == 4 * |ix.addresses|
      && (s.initialized || h.AllSucceed? ==> Invocations(r.events) == Expected(ix.addresses, TargetOf(ix), Calling))
      && (!s.initialized && h.AllFail? ==> Invocations(r.events) == [])
  {
    forall i
      ensures PerAddress.Tame(oracle(i), Norm)
    {
      NormalisersTame(oracle(i));
    }
    PerAddress.TameInvocations(Evm, s, ix.addresses, TargetOf(ix), Norm, Summarise(ix), oracle, h);
  }
}

=== FILE: indexer_service.dfy ===
/**
 * The service: one pass over both families, the repeating timer around it,
 * and the entry point that chooses between a single pass and continuous
 * indexing.
 */
module IndexerService {
  import opened Wrappers
  import opened MoralisClient
  import opened Pipeline
  import opened Js
  import Config
  import EvmIndexer
  import SolanaIndexer
  import PerAddress

  /** The provider's behaviour during one pass: the calls for each configured address of each family. */
  datatype PassEnv = PassEnv(solana: nat -> SolanaIndexer.Calls, evm: nat -> EvmIndexer.Calls)

  /** The Solana indexer as its constructor builds it from the configuration. */
  function SolanaOf(cfg: Config.Settings): SolanaIndexer.Indexer {
    SolanaIndexer.Indexer(cfg.solanaAddresses, cfg.solanaNetwork)
  }

  /** The EVM indexer as its constructor builds it from the configuration. */
  function EvmOf(cfg: Config.Settings): EvmIndexer.Indexer {
    EvmIndexer.Indexer(cfg.evmAddresses, cfg.evmChain)
  }

  /** The events of one family in a pass, and the session after it. */
  datatype FamilyPass = FamilyPass(events: seq<Event>, session: Session)

  function SolanaPass(cfg: Config.Settings, s: Session, env: PassEnv): FamilyPass {
    if cfg.solanaEnabled then
      var r := SolanaIndexer.IndexAll(SolanaOf(cfg), s, env.solana);
      FamilyPass(r.events, r.session)
    else FamilyPass([FamilyDisabled(Solana)], s)
  }

  function EvmPass(cfg: Config.Settings, s: Session, env: PassEnv): FamilyPass {
    if cfg.evmEnabled then
      var r := EvmIndexer.IndexAll(EvmOf(cfg), s, env.evm);
      FamilyPass(r.events, r.session)
    else FamilyPass([FamilyDisabled(Evm)], s)
  }

  /**
   * `runOnce`: announce the pass, run each enabled family's `indexAll`
   * (Solana first, then EVM), log each disabled family, and announce the
   * end once both have settled. The opening and closing lines appear
   * nowhere else, and the session stays valid.
   */
  function RunOnce(cfg: Config.Settings, s: Session, env: PassEnv): (r: FamilyPass)
    ensures |r.events| >= 2 && r.events[0] == PassBegun && r.events[|r.events| - 1] == PassCompleted
    ensures Inner(r.events[1..|r.events| - 1])
    ensures Valid(s) ==> Valid(r.session)
  {
    var sol := SolanaPass(cfg, s, env);
    SolanaPassContract(cfg, s, env, Mixed);
    EvmPassContract(cfg, sol.session, env, Mixed);
    CombineFrame(sol, EvmPass(cfg, sol.session, env));
    Combine(sol, EvmPass(cfg, sol.session, env))
  }

  /** A pass's trace around the two families' traces. */
  function Combine(sol: FamilyPass, evm: FamilyPass): FamilyPass {
    FamilyPass([PassBegun] + sol.events + evm.events + [PassCompleted], evm.session)
  }

  /** The events of `indexAll` neither begin nor end a pass. */
  predicate Inner(events: seq<Event>) {
    forall e :: e in events ==> e != PassBegun && e != PassCompleted
  }

  /** Whether a trace enters an operation (`Entering`) or calls the provider (`Calling`) against a network of `family`. */
  predicate Reaches(events: seq<Event>, family: Family, m: Marker) {
    exists e :: e in events && IsMark(e, m) && FamilyOf(e.target) == family
  }

  /** How the handshakes of a pass's operations settle, as far as `h` says. */
  ghost predicate Handshaking(env: PassEnv, h: Handshakes) {
    forall i :: PerAddress.StartsAre(env.solana(i), h) && PerAddress.StartsAre(env.evm(i), h)
  }

  /** The other chain family. */
  function Other(family: Family): Family {
    match family
    case Solana => Evm
    case Evm => Solana
  }

  /** A trace of one family's `indexAll` stays inside the pass and reaches only that family's provider. */
  lemma FamilyTrace(events: seq<Event>, family: Family)
    requires forall e :: e in events ==> FamilyEvent(e, family)
    ensures Inner(events)
    ensures forall m :: !Reaches(events, Other(family), m)
  {
  }

  /** A single log line enters and calls nothing. */
  lemma QuietTrace(events: seq<Event>)
    requires |events| == 1 && (events[0].FamilyDisabled? || events[0].NothingToIndex?)
    ensures Inner(events)
    ensures forall family, m :: !Reaches(events, family, m)
    ensures forall m :: Marks(events, m) == []
  {
  }

  /**
   * A family's part of a pass never begins or ends the pass and reaches only
   * that family's provider. It enters the operations exactly when the family
   * is enabled and has an address, and calls the provider only then. Once
   * the session is initialised, or when every handshake succeeds, it calls
   * the provider exactly then; when every handshake fails on a fresh
   * session, it calls nothing and the flag stays clear. A disabled family
   * leaves the session alone, and the session stays valid.
   */
  lemma SolanaPassContract(cfg: Config.Settings, s: Session, env: PassEnv, h: Handshakes)
    requires Handshaking(env, h)
    ensures var p := SolanaPass(cfg, s, env);
      var on := cfg.solanaEnabled && cfg.solanaAddresses != [];
      && Inner(p.events)
      && (Reaches(p.events, Solana, Entering) <==> on)
      && (Reaches(p.events, Solana, Calling) ==> on)
      && (s.initialized || h.AllSucceed? ==> (Reaches(p.events, Solana, Calling) <==> on))
      && (!s.initialized && h.AllFail? ==> Invocations(p.events) == [] && !p.session.initialized)
      && (s.initialized ==> p.session.initialized)
      && !Reaches(p.events, Evm, Entering) && !Reaches(p.events, Evm, Calling)
      && (!cfg.solanaEnabled ==> Entries(p.events) == [] && Invocations(p.events) == [] && p.session == s)
      && (Valid(s) ==> Valid(p.session))
  {
    if cfg.solanaEnabled {
      SolanaIndexedSession(cfg, s, env, h);
      SolanaIndexedTrace(cfg, s, env, h);
    } else {
      SolanaDisabled(cfg, s, env);
    }
  }

  /** The EVM counterpart of `SolanaPassContract`. */
  lemma EvmPassContract(cfg: Config.Settings, s: Session, env: PassEnv, h: Handshakes)
    requires Handshaking(env, h)
    ensures var p := EvmPass(cfg, s, env);
      var on := cfg.evmEnabled && cfg.evmAddresses != [];
      && Inner(p.events)
      && (Reaches(p.events, Evm, Entering) <==> on)
      && (Reaches(p.events, Evm, Calling) ==> on)
      && (s.initialized || h.AllSucceed? ==> (Reaches(p.events, Evm, Calling) <==> on))
      && (!s.initialized && h.AllFail? ==> Invocations(p.events) == [] && !p.session.initialized)
      && (s.initialized ==> p.session.initialized)
      && !Reaches(p.events, Solana, Entering) && !Reaches(p.events, Solana, Calling)
      && (!cfg.evmEnabled ==> Entries(p.events) == [] && Invocations(p.events) == [] && p.session == s)
      && (Valid(s) ==> Valid(p.session))
  {
    if cfg.evmEnabled {
      EvmIndexedSession(cfg, s, env, h);
      EvmIndexedTrace(cfg, s, env, h);
    } else {
      EvmDisabled(cfg, s, env);
    }
  }

  /** The disabled case of `SolanaPassContract`: one log line, and the session untouched. */
  lemma SolanaDisabled(cfg: Config.Settings, s: Session, env: PassEnv)
    requires !cfg.solanaEnabled
    ensures var p := SolanaPass(cfg, s, env);
      && Inner(p.events)
      && (forall family, m :: !Reaches(p.events, family, m))
      && Entries(p.events) == [] && Invocations(p.events) == [] && p.session == s
  {
    assert SolanaPass(cfg, s, env) == FamilyPass([FamilyDisabled(Solana)], s);
    QuietTrace([FamilyDisabled(Solana)]);
  }

  /** The enabled case of `SolanaPassContract`, for the session: what `indexAll` does to the flag and validity. */
  lemma SolanaIndexedSession(cfg: Config.Settings, s: Session, env: PassEnv, h: Handshakes)
    requires Handshaking(env, h) && cfg.solanaEnabled
    ensures var r := SolanaPass(cfg, s, env);
      && (!s.initialized && h.AllFail? ==> Invocations(r.events) == [] && !r.session.initialized)
      && (s.initialized ==> r.session.initialized)
      && (Valid(s) ==> Valid(r.session))
  {
    var ix := SolanaOf(cfg);
    var r := SolanaIndexer.IndexAll(ix, s, env.solana);
    assert SolanaPass(cfg, s, env) == FamilyPass(r.events, r.session);
    SolanaIndexer.IndexAllContract(ix, s, env.solana, h);
  }

  /** The facts about the family's `indexAll` that `IndexedPass` reads. */
  lemma SolanaIndexedShape(cfg: Config.Settings, s: Session, env: PassEnv, h: Handshakes)
    requires Handshaking(env, h)
    ensures var ix := SolanaOf(cfg);
      var r := SolanaIndexer.IndexAll(ix, s, env.solana);
      var target := SolanaIndexer.TargetOf(ix);
      && (ix.addresses == [] ==> r.events == [NothingToIndex(Solana)])
      && (forall e :: e in r.events ==> FamilyEvent(e, Solana))
      && (ix.addresses != [] ==> Entered(Transactions, ix.addresses[0], target) in r.events)
      && (ix.addresses != [] && (s.initialized || h.AllSucceed?) ==> Invoked(Transactions, ix.addresses[0], target) in r.events)
  {
    SolanaIndexer.IndexAllContract(SolanaOf(cfg), s, env.solana, h);
  }

  /** The enabled case of `SolanaPassContract`, for the trace: where it enters and calls. */
  lemma SolanaIndexedTrace(cfg: Config.Settings, s: Session, env: PassEnv, h: Handshakes)
    requires Handshaking(env, h) && cfg.solanaEnabled
    ensures var r := SolanaPass(cfg, s, env);
      && Inner(r.events)
      && !Reaches(r.events, Evm, Entering) && !Reaches(r.events, Evm, Calling)
      && (Reaches(r.events, Solana, Entering) <==> cfg.solanaAddresses != [])
      && (Reaches(r.events, Solana, Calling) ==> cfg.solanaAddresses != [])
      && (s.initialized || h.AllSucceed? ==> (Reaches(r.events, Solana, Calling) <==> cfg.solanaAddresses != []))
  {
    var ix := SolanaOf(cfg);
    var r := SolanaIndexer.IndexAll(ix, s, env.solana);
    assert SolanaPass(cfg, s, env) == FamilyPass(r.events, r.session);
    SolanaIndexedShape(cfg, s, env, h);
    IndexedPass(r, Solana, s, ix.addresses, SolanaIndexer.TargetOf(ix), h);
  }

  /** The disabled case of `EvmPassContract`: one log line, and the session untouched. */
  lemma EvmDisabled(cfg: Config.Settings, s: Session, env: PassEnv)
    requires !cfg.evmEnabled
    ensures var p := EvmPass(cfg, s, env);
      && Inner(p.events)
      && (forall family, m :: !Reaches(p.events, family, m))
      && Entries(p.events) == [] && Invocations(p.events) == [] && p.session == s
  {
    assert EvmPass(cfg, s, env) == FamilyPass([FamilyDisabled(Evm)], s);
    QuietTrace([FamilyDisabled(Evm)]);
  }

  /** The enabled case of `EvmPassContract`, for the session: what `indexAll` does to the flag and validity. */
  lemma EvmIndexedSession(cfg: Config.Settings, s: Session, env: PassEnv, h: Handshakes)
    requires Handshaking(env, h) && cfg.evmEnabled
    ensures var r := EvmPass(cfg, s, env);
      && (!s.initialized && h.AllFail? ==> Invocations(r.events) == [] && !r.session.initialized)
      && (s.initialized ==> r.session.initialized)
      && (Valid(s) ==> Valid(r.session))
  {
    var ix := EvmOf(cfg);
    var r := EvmIndexer.IndexAll(ix, s, env.evm);
    assert EvmPass(cfg, s, env) == FamilyPass(r.events, r.session);
    EvmIndexer.IndexAllContract(ix, s, env.evm, h);
  }

  /** The facts about the family's `indexAll` that `IndexedPass` reads. */
  lemma EvmIndexedShape(cfg: Config.Settings, s: Session, env: PassEnv, h: Handshakes)
    requires Handshaking(env, h)
    ensures var ix := EvmOf(cfg);
      var r := EvmIndexer.IndexAll(ix, s, env.evm);
      var target := EvmIndexer.TargetOf(ix);
      && (ix.addresses == [] ==> r.events == [NothingToIndex(Evm)])
      && (forall e :: e in r.events ==> FamilyEvent(e, Evm))
      && (ix.addresses != [] ==> Entered(Transactions, ix.addresses[0], target) in r.events)
      && (ix.addresses != [] && (s.initialized || h.AllSucceed?) ==> Invoked(Transactions, ix.addresses[0], target) in r.events)
  {
    EvmIndexer.IndexAllContract(EvmOf(cfg), s, env.evm, h);
  }

  /** The enabled case of `EvmPassContract`, for the trace: where it enters and calls. */
  lemma EvmIndexedTrace(cfg: Config.Settings, s: Session, env: PassEnv, h: Handshakes)
    requires Handshaking(env, h) && cfg.evmEnabled
    ensures var r := EvmPass(cfg, s, env);
      && Inner(r.events)
      && !Reaches(r.events, Solana, Entering) && !Reaches(r.events, Solana, Calling)
      && (Reaches(r.events, Evm, Entering) <==> cfg.evmAddresses != [])
      && (Reaches(r.events, Evm, Calling) ==> cfg.evmAddresses != [])
      && (s.initialized || h.AllSucceed? ==> (Reaches(r.events, Evm, Calling) <==> cfg.evmAddresses != []))
  {
    var ix := EvmOf(cfg);
    var r := EvmIndexer.IndexAll(ix, s, env.evm);
    assert EvmPass(cfg, s, env) == FamilyPass(r.events, r.session);
    EvmIndexedShape(cfg, s, env, h);
    IndexedPass(r, Evm, s, ix.addresses, EvmIndexer.TargetOf(ix), h);
  }

  /** What a family's `indexAll` promises about its trace, read as that family's part of a pass. */
  lemma IndexedPass<Rep>(r: PassRun<Rep>, family: Family, s: Session, addresses: seq<string>, target: Target,
                         h: Handshakes)
    requires FamilyOf(target) == family
    requires addresses == [] ==> r.events == [NothingToIndex(family)]
    requires forall e :: e in r.events ==> FamilyEvent(e, family)
    requires addresses != [] ==> Entered(Transactions, addresses[0], target) in r.events
    requires addresses != [] && (s.initialized || h.AllSucceed?) ==> Invoked(Transactions, addresses[0], target) in r.events
    ensures Inner(r.events)
    ensures forall m :: !Reaches(r.events, Other(family), m)
    ensures Reaches(r.events, family, Entering) <==> addresses != []
    ensures Reaches(r.events, family, Calling) ==> addresses != []
    ensures s.initialized || h.AllSucceed? ==> (Reaches(r.events, family, Calling) <==> addresses != [])
  {
    FamilyTrace(r.events, family);
    if addresses != [] {
      var e := Entered(Transactions, addresses[0], target);
      assert e in r.events && IsMark(e, Entering) && FamilyOf(e.target) == family;
      if s.initialized || h.AllSucceed? {
        var c := Invoked(Transactions, addresses[0], target);
        assert c in r.events && IsMark(c, Calling) && FamilyOf(c.target) == family;
      }
    } else {
      QuietTrace([NothingToIndex(family)]);
    }
  }

  lemma CombineFrame(sol: FamilyPass, evm: FamilyPass)
    requires Inner(sol.events) && Inner(evm.events)
    ensures var r := Combine(sol, evm);
      && |r.events| >= 2
      && r.events[0] == PassBegun && r.events[|r.events| - 1] == PassCompleted
      && Inner(r.events[1..|r.events| - 1])
  {
    var r := Combine(sol, evm);
    assert r.events[1..|r.events| - 1] == sol.events + evm.events;
  }

  /** A pass reaches a family's provider exactly when one of the two family parts does. */
  lemma CombineReaches(sol: FamilyPass, evm: FamilyPass, family: Family, m: Marker)
    ensures Reaches(Combine(sol, evm).events, family, m) <==> Reaches(sol.events, family, m) || Reaches(evm.events, family, m)
  {
    var events := Combine(sol, evm).events;
    if Reaches(events, family, m) {
      var e :| e in events && IsMark(e, m) && FamilyOf(e.target) == family;
      assert e in sol.events || e in evm.events;
    }
    if Reaches(sol.events, family, m) {
      var e :| e in sol.events && IsMark(e, m) && FamilyOf(e.target) == family;
      assert e in events;
    }
    if Reaches(evm.events, family, m) {
      var e :| e in evm.events && IsMark(e, m) && FamilyOf(e.target) == family;
      assert e in events;
    }
  }

  /**
   * A pass enters a family's operations if and only if that family is
   * enabled and has at least one configured address, and calls its provider
   * only then: a disabled family's provider is never called. Once the
   * session is initialised, or when every handshake succeeds, the calls
   * follow the entries exactly; when every handshake fails on a fresh
   * session, no provider is called and the flag stays clear.
   */
  lemma FamilyInvokedIffEnabled(cfg: Config.Settings, s: Session, env: PassEnv, h: Handshakes)
    requires Handshaking(env, h)
    ensures var r := RunOnce(cfg, s, env);
      var solOn := cfg.solanaEnabled && cfg.solanaAddresses != [];
      var evmOn := cfg.evmEnabled && cfg.evmAddresses != [];
      && (Reaches(r.events, Solana, Entering) <==> solOn)
      && (Reaches(r.events, Evm, Entering) <==> evmOn)
      && (Reaches(r.events, Solana, Calling) ==> solOn)
      && (Reaches(r.events, Evm, Calling) ==> evmOn)
      && (s.initialized || h.AllSucceed? ==>
            (Reaches(r.events, Solana, Calling) <==> solOn) && (Reaches(r.events, Evm, Calling) <==> evmOn))
      && (!s.initialized && h.AllFail? ==> Invocations(r.events) == [] && !r.session.initialized)
  {
    var sol := SolanaPass(cfg, s, env);
    var evm := EvmPass(cfg, sol.session, env);
    SolanaPassContract(cfg, s, env, h);
    EvmPassContract(cfg, sol.session, env, h);
    CombineReaches(sol, evm, Solana, Entering);
    CombineReaches(sol, evm, Evm, Entering);
    CombineReaches(sol, evm, Solana, Calling);
    CombineReaches(sol, evm, Evm, Calling);
    CombineMarks(sol, evm, Calling);
  }

  lemma CombineMarks(sol: FamilyPass, evm: FamilyPass, m: Marker)
    ensures Marks(Combine(sol, evm).events, m) == Marks(sol.events, m) + Marks(evm.events, m)
  {
    var a := [PassBegun] + sol.events;
    var b := a + evm.events;
    assert Combine(sol, evm).events == b + [PassCompleted];
    assert Marks(b + [PassCompleted], m) == Marks(b, m) by {
      MarksAppend(b, [PassCompleted], m);
      assert Marks([PassCompleted], m) == [];
    }
    assert Marks(b, m) == Marks(a, m) + Marks(evm.events, m) by {
      MarksAppend(a, evm.events, m);
    }
    assert Marks(a, m) == Marks(sol.events, m) by {
      MarksAppend([PassBegun], sol.events, m);
      assert Marks([PassBegun], m) == [];
    }
  }

  /** The entries and the calls of a pass: Solana's, then EVM's; a disabled family contributes none. */
  lemma RunOnceMarks(cfg: Config.Settings, s: Session, env: PassEnv, m: Marker)
    ensures var sol := SolanaPass(cfg, s, env);
      Marks(RunOnce(cfg, s, env).events, m) == Marks(sol.events, m) + Marks(EvmPass(cfg, sol.session, env).events, m)
    ensures !cfg.solanaEnabled ==> Marks(SolanaPass(cfg, s, env).events, m) == []
  {
    var sol := SolanaPass(cfg, s, env);
    CombineMarks(sol, EvmPass(cfg, sol.session, env), m);
    if !cfg.solanaEnabled {
      assert Marks([FamilyDisabled(Solana)], m) == [];
    }
  }

  /**
   * With Solana disabled, EVM enabled, and no reported error with a
   * property that throws when read, a pass enters the four operations of
   * each configured EVM address, in address order. Once the session is
   * initialised, or when every handshake succeeds, it makes exactly those
   * calls, eight for two addresses; when every handshake fails on a fresh
   * session it makes none.
   */
  lemma EvmOnlyPassInvocations(cfg: Config.Settings, s: Session, env: PassEnv, h: Handshakes)
    requires !cfg.solanaEnabled && cfg.evmEnabled
    requires forall i :: PerAddress.TameCalls(env.evm(i)) && PerAddress.StartsAre(env.evm(i), h)
    ensures var r := RunOnce(cfg, s, env);
      var target := EvmIndexer.TargetOf(EvmOf(cfg));
      && Entries(r.events) == Expected(cfg.evmAddresses, target, Entering)
      && |Entries(r.events)| == 4 * |cfg.evmAddresses|
      && (s.initialized || h.AllSucceed? ==> Invocations(r.events) == Expected(cfg.evmAddresses, target, Calling))
      && (!s.initialized && h.AllFail? ==> Invocations(r.events) == [])
  {
    RunOnceMarks(cfg, s, env, Entering);
    RunOnceMarks(cfg, s, env, Calling);
    EvmIndexer.TameIndexAllInvocations(EvmOf(cfg), s, env.evm, h);
  }

  // ---------------------------------------------------------------------
  // Continuous indexing

  /**
   * The service between passes: the stored interval handle (`intervalId`),
   * the handles of timers still armed, the next handle the runtime hands
   * out, the SDK session, and everything the passes so far have left.
   */
  datatype Service = Service(intervalId: Option<nat>, armed: set<nat>, nextHandle: nat, session: Session, log: seq<Event>)

  function NewService(s: Session): Service {
    Service(None, {}, 0, s, [])
  }

  /** The stored handle is armed, every armed handle was handed out, and the session is valid. */
  predicate ServiceValid(svc: Service) {
    && (svc.intervalId.Some? ==> svc.intervalId.value in svc.armed)
    && (forall h :: h in svc.armed ==> h < svc.nextHandle)
    && Valid(svc.session)
  }

  /** One pass, appended to the log. */
  function Pass(svc: Service, cfg: Config.Settings, env: PassEnv): (r: Service)
    ensures r.intervalId == svc.intervalId && r.armed == svc.armed && r.nextHandle == svc.nextHandle
    ensures |r.log| > |svc.log| && r.log[..|svc.log|] == svc.log
  {
    var p := RunOnce(cfg, svc.session, env);
    svc.(session := p.session, log := svc.log + p.events)
  }

  /**
   * `start`: run a pass at once, then arm a repeating timer and store its
   * handle, overwriting any handle stored before without clearing it.
   */
  function Start(svc: Service, cfg: Config.Settings, env: PassEnv): (r: Service)
    ensures r.intervalId == Some(svc.nextHandle)
    ensures r.armed == svc.armed + {svc.nextHandle}
  {
    var p := Pass(svc, cfg, env);
    p.(intervalId := Some(p.nextHandle), armed := p.armed + {p.nextHandle}, nextHandle := p.nextHandle + 1)
  }

  /** `stop`: clear the stored timer and forget its handle; nothing happens when none is stored. */
  function Stop(svc: Service): (r: Service)
    ensures r.intervalId == None
    ensures svc.intervalId.None? ==> r == svc
    ensures svc.intervalId.Some? ==> r.armed == svc.armed - {svc.intervalId.value}
    ensures r.log == svc.log && r.session == svc.session && r.nextHandle == svc.nextHandle
  {
    match svc.intervalId
    case None => svc
    case Some(h) => svc.(intervalId := None, armed := svc.armed - {h})
  }

  /** Timer `h` coming due: a pass runs if and only if the timer is still armed, and the timers stay as they are. */
  function Fire(svc: Service, h: nat, cfg: Config.Settings, env: PassEnv): (r: Service)
    ensures r.intervalId == svc.intervalId && r.armed == svc.armed && r.nextHandle == svc.nextHandle
    ensures |r.log| >= |svc.log| && r.log[..|svc.log|] == svc.log
    ensures |r.log| > |svc.log| <==> h in svc.armed
  {
    if h in svc.armed then Pass(svc, cfg, env) else svc
  }

  lemma StartKeepsValid(svc: Service, cfg: Config.Settings, env: PassEnv)
    requires ServiceValid(svc)
    ensures ServiceValid(Start(svc, cfg, env))
  {
  }

  lemma StopKeepsValid(svc: Service)
    requires ServiceValid(svc)
    ensures ServiceValid(Stop(svc))
  {
  }

  lemma FireKeepsValid(svc: Service, h: nat, cfg: Config.Settings, env: PassEnv)
    requires ServiceValid(svc)
    ensures ServiceValid(Fire(svc, h, cfg, env))
  {
  }

  /** `stop` twice is `stop` once. */
  lemma StopIdempotent(svc: Service)
    ensures Stop(Stop(svc)) == Stop(svc)
  {
  }

  /** A timer that is not armed runs nothing. */
  lemma DisarmedTimerIsQuiet(svc: Service, h: nat, cfg: Config.Settings, env: PassEnv)
    requires h !in svc.armed
    ensures Fire(svc, h, cfg, env) == svc
  {
  }

  /** Any number of timers coming due, in order. */
  function FireAll(svc: Service, handles: seq<nat>, cfg: Config.Settings, env: seq<PassEnv>): Service
    requires |env| == |handles|
    decreases |handles|
  {
    if handles == [] then svc else FireAll(Fire(svc, handles[0], cfg, env[0]), handles[1..], cfg, env[1..])
  }

  /**
   * Starting a new service and stopping it leaves no timer armed: whatever
   * timers come due afterwards, no further pass runs.
   */
  lemma {:induction false} StartThenStopIsQuiet(s: Session, cfg: Config.Settings, first: PassEnv,
                                                handles: seq<nat>, later: seq<PassEnv>)
    requires |later| == |handles|
    ensures var stopped := Stop(Start(NewService(s), cfg, first));
      && stopped.armed == {}
      && FireAll(stopped, handles, cfg, later) == stopped
  {
    var stopped := Stop(Start(NewService(s), cfg, first));
    QuietWhenNothingArmed(stopped, handles, cfg, later);
  }

  lemma {:induction false} QuietWhenNothingArmed(svc: Service, handles: seq<nat>, cfg: Config.Settings, env: seq<PassEnv>)
    requires |env| == |handles| && svc.armed == {}
    ensures FireAll(svc, handles, cfg, env) == svc
    decreases |handles|
  {
    if handles != [] {
      QuietWhenNothingArmed(svc, handles[1..], cfg, env[1..]);
    }
  }

  /**
   * `start` called twice keeps only the second handle: `stop` then clears
   * the second timer while the first stays armed and keeps running passes.
   */
  lemma StartTwiceLeaksFirstTimer(s: Session, cfg: Config.Settings, e1: PassEnv, e2: PassEnv, e3: PassEnv)
    ensures var stopped := Stop(Start(Start(NewService(s), cfg, e1), cfg, e2));
      && stopped.armed == {0}
      && |Fire(stopped, 0, cfg, e3).log| > |stopped.log|
  {
  }

  // ---------------------------------------------------------------------
  // The entry point

  /** How `main` leaves things: the configuration refused to load, or the service after `main` returned. */
  datatype Outcome = Crashed(message: string) | Running(service: Service)

  /**
   * Loading the configuration (which throws on a missing API key), then
   * `main`: with `--once` among the arguments a single awaited pass and no
   * timer; otherwise `start`.
   */
  function Main(env: Config.Env, argv: seq<string>, s: Session, passEnv: PassEnv): (r: Outcome)
    ensures r.Crashed? <==> !Truthy(Config.Get(env, Config.ApiKeyVar))
    ensures r.Crashed? ==> r.message == Config.MissingApiKeyMessage
  {
    match Config.Load(env)
    case Failure(message) => Crashed(message)
    case Success(cfg) =>
      var svc := NewService(s);
      if "--once" in argv then Running(Pass(svc, cfg, passEnv)) else Running(Start(svc, cfg, passEnv))
  }

  /**
   * With `--once`, exactly one pass runs and no timer is armed; without it,
   * one pass runs and one repeating timer is armed and stored.
   */
  lemma MainModes(env: Config.Env, argv: seq<string>, s: Session, passEnv: PassEnv)
    requires Truthy(Config.Get(env, Config.ApiKeyVar))
    ensures var r := Main(env, argv, s, passEnv);
      var pass := RunOnce(Config.Load(env).value, s, passEnv);
      && r.Running?
      && r.service.log == pass.events
      && r.service.session == pass.session
      && ("--once" in argv ==> r.service.armed == {} && r.service.intervalId.None?)
      && ("--once" !in argv ==> r.service.armed == {0} && r.service.intervalId == Some(0))
  {
    var cfg := Config.Load(env).value;
    OnceFromNew(s, cfg, passEnv);
    StartFromNew(s, cfg, passEnv);
    assert Main(env, argv, s, passEnv) ==
      if "--once" in argv then Running(Pass(NewService(s), cfg, passEnv)) else Running(Start(NewService(s), cfg, passEnv));
  }

  /** A single pass on a new service: its trace is the log, and no timer is armed. */
  lemma OnceFromNew(s: Session, cfg: Config.Settings, passEnv: PassEnv)
    ensures var r := Pass(NewService(s), cfg, passEnv);
      && r.log == RunOnce(cfg, s, passEnv).events && r.session == RunOnce(cfg, s, passEnv).session
      && r.armed == {} && r.intervalId.None?
  {
    assert Pass(NewService(s), cfg, passEnv).log == [] + RunOnce(cfg, s, passEnv).events;
  }

  /** `start` on a new service: one pass, then the first handle armed and stored. */
  lemma StartFromNew(s: Session, cfg: Config.Settings, passEnv: PassEnv)
    ensures var r := Start(NewService(s), cfg, passEnv);
      && r.log == RunOnce(cfg, s, passEnv).events && r.session == RunOnce(cfg, s, passEnv).session
      && r.armed == {0} && r.intervalId == Some(0)
  {
    OnceFromNew(s, cfg, passEnv);
  }

  /** A signal: `stop`, then exit with status 0. */
  function Shutdown(svc: Service): (r: (Service, int))
    ensures r.1 == 0 && r.0 == Stop(svc)
  {
    (Stop(svc), 0)
  }

  /** After the entry point started the service, a signal leaves no timer armed. */
  lemma ShutdownAfterStartDisarms(env: Config.Env, argv: seq<string>, s: Session, passEnv: PassEnv)
    requires Truthy(Config.Get(env, Config.ApiKeyVar))
    ensures Main(env, argv, s, passEnv).Running?
    ensures Shutdown(Main(env, argv, s, passEnv).service).0.armed == {}
    ensures Shutdown(Main(env, argv, s, passEnv).service).1 == 0
  {
    MainModes(env, argv, s, passEnv);
  }
}

=== FILE: js.dfy ===
/**
 * The small part of JavaScript's value semantics the indexers rely on:
 * truthiness and the `||` default operator, ASCII case mapping, and
 * property lookup on an object literal (which also sees `Object.prototype`).
 */
module Js {
  import opened Wrappers

  /** A string-valued field: `None` is `undefined`/`null`; it is falsy when absent or empty. */
  predicate Truthy(v: Option<string>) {
    v.Some? && v.value != ""
  }

  /** A number-valued field: falsy when absent or zero (NaN is not modelled). */
  predicate TruthyNum(v: Option<int>) {
    v.Some? && v.value != 0
  }

  /** `v || fallback` on a string field. */
  function Or(v: Option<string>, fallback: string): (r: string)
    ensures Truthy(v) ==> r == v.value
    ensures !Truthy(v) ==> r == fallback
    ensures fallback != "" ==> r != ""
  {
    if Truthy(v) then v.value else fallback
  }

  /** A field that keeps the provider's value when truthy and takes the default otherwise. */
  predicate Keeps(v: Option<string>, default: string, r: string) {
    (Truthy(v) ==> r == v.value) && (!Truthy(v) ==> r == default)
  }

  /** `v || fallback` on a number field. */
  function OrNum(v: Option<int>, fallback: int): (r: int)
    ensures TruthyNum(v) ==> r == v.value
    ensures !TruthyNum(v) ==> r == fallback
    ensures fallback != 0 ==> r != 0
  {
    if TruthyNum(v) then v.value else fallback
  }

  /** `v || undefined` on a string field: an empty string becomes absent. */
  function OrUndefined(v: Option<string>): (r: Option<string>)
    ensures r.Some? <==> Truthy(v)
    ensures r.Some? ==> r == v
  {
    if Truthy(v) then v else None
  }

  /**
   * An opaque provider-defined value such as NFT metadata: an object (always
   * truthy, even when it has no entries) or a string (falsy when empty).
   */
  datatype Opaque = Object(entries: map<string, string>) | Text(text: string)

  predicate TruthyOpaque(v: Option<Opaque>) {
    v.Some? && !(v.value.Text? && v.value.text == "")
  }

  const EmptyObject: Opaque := Object(map[])

  /** `v || fallback` on an opaque field. */
  function OrOpaque(v: Option<Opaque>, fallback: Opaque): (r: Opaque)
    ensures TruthyOpaque(v) ==> r == v.value
    ensures !TruthyOpaque(v) ==> r == fallback
  {
    if TruthyOpaque(v) then v.value else fallback
  }

  /** `v || undefined` on an opaque field. */
  function OpaqueOrUndefined(v: Option<Opaque>): (r: Option<Opaque>)
    ensures r.Some? <==> TruthyOpaque(v)
    ensures r.Some? ==> r == v
  {
    if TruthyOpaque(v) then v else None
  }

  function LowerChar(c: char): char {
    if 'A' <= c <= 'Z' then (c as int + 32) as char else c
  }

  function UpperChar(c: char): char {
    if 'a' <= c <= 'z' then (c as int - 32) as char else c
  }

  /** `s.toLowerCase()` on ASCII letters; every other character is kept. */
  function Lower(s: string): (r: string)
    ensures |r| == |s|
    ensures forall i :: 0 <= i < |s| ==> r[i] == LowerChar(s[i])
  {
    seq(|s|, i requires 0 <= i < |s| => LowerChar(s[i]))
  }

  /** `s.toUpperCase()` on ASCII letters; every other character is kept. */
  function Upper(s: string): (r: string)
    ensures |r| == |s|
    ensures forall i :: 0 <= i < |s| ==> r[i] == UpperChar(s[i])
  {
    seq(|s|, i requires 0 <= i < |s| => UpperChar(s[i]))
  }

  lemma LowerIdempotent(s: string)
    ensures Lower(Lower(s)) == Lower(s)
  {
  }

  /**
   * The members of `Object.prototype` whose names a lower-cased key can
   * spell: every other member (`toString`, `hasOwnProperty`, ...) has an
   * upper-case letter in its name. Both values are truthy (a function and
   * an object).
   */
  const PrototypeKeys: set<string> := {"constructor", "__proto__"}

  /** What reading `table[key]` yields when `table` is an object literal. */
  datatype Property<+V> = Own(value: V) | Inherited(name: string) | Missing

  function LiteralGet<V>(table: map<string, V>, key: string): (r: Property<V>)
    ensures r.Own? <==> key in table
    ensures r.Own? ==> r.value == table[key]
    ensures r.Inherited? <==> key !in table && key in PrototypeKeys
    ensures r.Inherited? ==> r.name == key
  {
    if key in table then Own(table[key])
    else if key in PrototypeKeys then Inherited(key)
    else Missing
  }
}

=== FILE: moralis_client.dfy ===
/**
 * The SDK session: the process-wide "initialised" flag with its lazy
 * initialisation, the two API accessors that refuse to work before it,
 * and the error reporter every operation's catch block calls.
 */
module MoralisClient {
  import opened Wrappers

  /**
   * What an operation can throw. `ErrorObject` is an Error-like value
   * (`responseData` is `error.response.data`, falsy when absent or empty;
   * an empty `message` is falsy). `ReadOfNullish` is the TypeError raised
   * by reading `property` of `null`/`undefined`; its message is never empty.
   * `Hostile` is a value one of whose properties that `handleApiError`
   * reads (`response`, `response.data` or `message`) throws `raises` when read.
   */
  datatype Thrown =
    | Nullish
    | ErrorObject(responseData: Option<string>, message: string)
    | ReadOfNullish(property: string)
    | Hostile(raises: Thrown)

  const NotInitializedMessage := "Moralis not initialized. Call initializeMoralis() first."

  /**
   * The session flag, plus two counters an observer of the SDK would see:
   * how many times `Moralis.start` was awaited and how many of those succeeded.
   */
  datatype Session = Session(initialized: bool, startCalls: nat, handshakes: nat)

  const Fresh := Session(false, 0, 0)

  /** At most one handshake ever succeeds, and the flag records whether it did. */
  predicate Valid(s: Session) {
    && s.handshakes <= 1
    && s.handshakes <= s.startCalls
    && (s.initialized <==> s.handshakes == 1)
  }

  /** How the awaited `Moralis.start` call settles when it is made. */
  datatype StartOutcome = Started | StartFailed(error: Thrown)

  datatype InitRun = InitRun(session: Session, attempted: bool, failure: Option<Thrown>)

  /**
   * `initializeMoralis`: when the flag is clear, await the handshake and set
   * the flag only once it has succeeded; a failed handshake propagates its
   * error and leaves the flag clear, so the next call tries again.
   */
  function InitializeMoralis(s: Session, start: StartOutcome): (r: InitRun)
    ensures s.initialized ==> r == InitRun(s, false, None)
    ensures !s.initialized ==> r.attempted && r.session.startCalls == s.startCalls + 1
    ensures r.session.initialized <==> s.initialized || start.Started?
    ensures r.failure.Some? <==> !s.initialized && start.StartFailed?
    ensures r.failure.Some? ==> r.failure.value == start.error
    ensures Valid(s) ==> Valid(r.session)
  {
    if s.initialized then InitRun(s, false, None)
    else match start
      case Started => InitRun(Session(true, s.startCalls + 1, s.handshakes + 1), true, None)
      case StartFailed(e) => InitRun(Session(false, s.startCalls + 1, s.handshakes), true, Some(e))
  }

  /** Which API surface an accessor returns. */
  datatype Family = Solana | Evm

  /** Stand-in for the SDK's API object of a family. */
  datatype ApiHandle = SolApi | EvmApi

  /** `getSolApi`: throws when, and only when, the flag is clear. */
  function GetSolApi(s: Session): (r: Result<ApiHandle, Thrown>)
    ensures r.Failure? <==> !s.initialized
    ensures r.Success? ==> r.value == SolApi
    ensures r.Failure? ==> r.error.ErrorObject? && r.error.message != ""
  {
    if !s.initialized then Failure(ErrorObject(None, NotInitializedMessage)) else Success(SolApi)
  }

  /** `getEvmApi`: throws when, and only when, the flag is clear. */
  function GetEvmApi(s: Session): (r: Result<ApiHandle, Thrown>)
    ensures r.Failure? <==> !s.initialized
    ensures r.Success? ==> r.value == EvmApi
    ensures r.Failure? ==> r.error.ErrorObject? && r.error.message != ""
  {
    if !s.initialized then Failure(ErrorObject(None, NotInitializedMessage)) else Success(EvmApi)
  }

  function GetApi(s: Session, family: Family): Result<ApiHandle, Thrown> {
    match family
    case Solana => GetSolApi(s)
    case Evm => GetEvmApi(s)
  }

  /** The engine's wording of the TypeError for reading `property` of `null`. */
  function ReadErrorMessage(property: string): string {
    "Cannot read properties of null (reading '" + property + "')"
  }

  /** The three lines `handleApiError` can log. */
  datatype Report = ApiError(data: string) | Message(text: string) | Unknown

  predicate HasResponseData(e: Thrown) {
    e.ErrorObject? && e.responseData.Some? && e.responseData.value != ""
  }

  predicate HasMessage(e: Thrown) {
    (e.ErrorObject? && e.message != "") || e.ReadOfNullish?
  }

  /**
   * `handleApiError`: logs exactly one line, preferring the response data,
   * then the message, then the error itself. It never rethrows; an exception
   * leaves it only when reading one of those properties throws.
   */
  function HandleApiError(e: Thrown): (r: Result<Report, Thrown>)
    ensures r.Failure? <==> e.Hostile?
    ensures r.Failure? ==> r.error == e.raises
    ensures r == Success(Unknown) <==> !e.Hostile? && !HasResponseData(e) && !HasMessage(e)
    ensures r.Success? && r.value.ApiError? <==> HasResponseData(e)
    ensures r.Success? && r.value.Message? <==> !HasResponseData(e) && HasMessage(e)
  {
    match e
    case Hostile(raises) => Failure(raises)
    case Nullish => Success(Unknown)
    case ReadOfNullish(property) => Success(Message(ReadErrorMessage(property)))
    case ErrorObject(data, message) =>
      if data.Some? && data.value != "" then Success(ApiError(data.value))
      else if message != "" then Success(Message(message))
      else Success(Unknown)
  }

  /** Initialisation attempted with each outcome in turn, as by consecutive operations. */
  function InitializeAll(s: Session, starts: seq<StartOutcome>): Session
    decreases |starts|
  {
    if starts == [] then s else InitializeAll(InitializeMoralis(s, starts[0]).session, starts[1..])
  }

  /**
   * From a fresh session, consecutive initialisations call `Moralis.start`
   * up to and including the first success and never after it: there is
   * exactly one handshake when some attempt succeeds, none otherwise.
   */
  lemma {:induction false} InitializeAllStartsUntilSuccess(s: Session, starts: seq<StartOutcome>)
    requires Valid(s) && !s.initialized
    ensures var r := InitializeAll(s, starts);
      && Valid(r)
      && (r.initialized <==> Started in starts)
      && (Started in starts ==> r.startCalls == s.startCalls + FirstSuccess(starts) + 1)
      && (Started !in starts ==> r.startCalls == s.startCalls + |starts|)
    decreases |starts|
  {
    if starts != [] {
      var s' := InitializeMoralis(s, starts[0]).session;
      if starts[0] == Started {
        InitializedStaysPut(s', starts[1..]);
      } else {
        InitializeAllStartsUntilSuccess(s', starts[1..]);
        assert Started in starts <==> Started in starts[1..];
      }
    }
  }

  /** Once the flag is set, further initialisations change nothing. */
  lemma {:induction false} InitializedStaysPut(s: Session, starts: seq<StartOutcome>)
    requires s.initialized
    ensures InitializeAll(s, starts) == s
    decreases |starts|
  {
    if starts != [] {
      InitializedStaysPut(InitializeMoralis(s, starts[0]).session, starts[1..]);
    }
  }

  /** The position of the first successful handshake. */
  function FirstSuccess(starts: seq<StartOutcome>): (k: nat)
    requires Started in starts
    ensures k < |starts| && starts[k] == Started
    ensures forall j :: 0 <= j < k ==> starts[j] != Started
  {
    if starts[0] == Started then 0 else 1 + FirstSuccess(starts[1..])
  }
}

=== FILE: per_address.dfy ===
/**
 * The per-address work both indexers share: the four operations for one
 * address, each with its own provider call, normaliser and fallback,
 * awaited in order inside the per-address `try` of `indexAll`. A family
 * supplies its payload and record types and its four normalisers.
 */
module PerAddress {
  import opened Wrappers
  import opened MoralisClient
  import opened Pipeline

  /** The environment's behaviour for the four operations of one address. */
  datatype Calls<+A, +B, +C, +D> = Calls(
    transactions: Call<Payload<A>>, tokenBalances: Call<Payload<B>>, nfts: Call<Payload<C>>, native: Call<D>)

  /** How a family turns each of the four payloads into its records; each may throw. */
  datatype Normalisers<-A, -B, -C, -D, +T, +U, +N> = Normalisers(
    transactions: Payload<A> -> Result<seq<T>, Thrown>, tokenBalances: Payload<B> -> Result<seq<U>, Thrown>,
    nfts: Payload<C> -> Result<seq<N>, Thrown>, native: D -> Result<string, Thrown>)

  /** What the operations of an address have gathered so far; it starts from the operations' fallbacks. */
  datatype Gathered<+T, +U, +N> = Gathered(transactions: seq<T>, tokenBalances: seq<U>, nfts: seq<N>, nativeBalance: string)

  function Nothing<T, U, N>(): Gathered<T, U, N> {
    Gathered([], [], [], "0")
  }

  /** Operation `k` of an address, its value stored in what was gathered. */
  function Operation<A, B, C, D, T, U, N>(k: nat, s: Session, address: string, target: Target, calls: Calls<A, B, C, D>,
                                          norm: Normalisers<A, B, C, D, T, U, N>, g: Gathered<T, U, N>)
    : OpRun<Gathered<T, U, N>>
  {
    if k == 0 then
      Then(RunOp(s, Transactions, address, target, calls.transactions, norm.transactions, []),
           (v: seq<T>) => g.(transactions := v))
    else if k == 1 then
      Then(RunOp(s, TokenBalances, address, target, calls.tokenBalances, norm.tokenBalances, []),
           (v: seq<U>) => g.(tokenBalances := v))
    else if k == 2 then
      Then(RunOp(s, Nfts, address, target, calls.nfts, norm.nfts, []), (v: seq<N>) => g.(nfts := v))
    else
      Then(RunOp(s, NativeBalance, address, target, calls.native, norm.native, "0"),
           (v: string) => g.(nativeBalance := v))
  }

  /** The four operations for one address, in the order the per-address `try` awaits them. */
  function Stages<A, B, C, D, T, U, N>(address: string, target: Target, calls: Calls<A, B, C, D>,
                                       norm: Normalisers<A, B, C, D, T, U, N>): (r: seq<Stage<Gathered<T, U, N>>>)
    ensures |r| == 4
  {
    seq(4, (k: nat) => (s: Session, g: Gathered<T, U, N>) => Operation(k, s, address, target, calls, norm, g))
  }

  /** Stage `k` of an address is operation `k`. */
  lemma StageIs<A, B, C, D, T, U, N>(k: nat, s: Session, address: string, target: Target, calls: Calls<A, B, C, D>,
                                     norm: Normalisers<A, B, C, D, T, U, N>, g: Gathered<T, U, N>)
    requires k < 4
    ensures Stages(address, target, calls, norm)[k](s, g) == Operation(k, s, address, target, calls, norm, g)
  {
  }

  /**
   * The body of the per-address `try` in `indexAll`: the four operations in
   * order, stopping at the first exception that escapes an operation, and
   * the completion lines' values built by `report`.
   */
  function Run<A, B, C, D, T, U, N, Rep>(s: Session, address: string, target: Target, calls: Calls<A, B, C, D>,
                                         norm: Normalisers<A, B, C, D, T, U, N>, report: Gathered<T, U, N> -> Rep): StepRun<Rep> {
    Finish(RunStages(s, Stages(address, target, calls, norm), Nothing()), report)
  }

  /** The per-address step of `indexAll`; `oracle(i)` drives the address at position `i`. */
  function Step<A, B, C, D, T, U, N, Rep>(target: Target, norm: Normalisers<A, B, C, D, T, U, N>,
                                          report: Gathered<T, U, N> -> Rep, oracle: nat -> Calls<A, B, C, D>)
    : (Session, nat, string) -> StepRun<Rep>
  {
    (s: Session, i: nat, a: string) => Run(s, a, target, oracle(i), norm, report)
  }

  // ---------------------------------------------------------------------
  // The order of the operations, their entries and their provider calls

  /** The handshakes of the four operations, as far as `h` says. */
  predicate StartsAre<A, B, C, D>(calls: Calls<A, B, C, D>, h: Handshakes) {
    && Allows(h, calls.transactions.start) && Allows(h, calls.tokenBalances.start)
    && Allows(h, calls.nfts.start) && Allows(h, calls.native.start)
  }

  /** Stage `j` runs operation `j` of the address, whatever the session and what was gathered. */
  lemma StagesShaped<A, B, C, D, T(!new), U(!new), N(!new)>(address: string, target: Target, calls: Calls<A, B, C, D>,
                                                           norm: Normalisers<A, B, C, D, T, U, N>, h: Handshakes)
    requires StartsAre(calls, h)
    ensures forall j :: 0 <= j < 4 ==> StageShaped(Stages(address, target, calls, norm)[j], address, target, j, h)
  {
    var st := Stages(address, target, calls, norm);
    forall j | 0 <= j < 4
      ensures StageShaped(st[j], address, target, j, h)
    {
      if j == 0 {
        forall s, g
          ensures OpShaped(s, st[0](s, g), address, target, 0) && Settled(s, st[0](s, g).session, h)
        {
          RunOpShaped(s, Transactions, address, target, calls.transactions, norm.transactions, [], 0, h);
        }
      } else if j == 1 {
        forall s, g
          ensures OpShaped(s, st[1](s, g), address, target, 1) && Settled(s, st[1](s, g).session, h)
        {
          RunOpShaped(s, TokenBalances, address, target, calls.tokenBalances, norm.tokenBalances, [], 1, h);
        }
      } else if j == 2 {
        forall s, g
          ensures OpShaped(s, st[2](s, g), address, target, 2) && Settled(s, st[2](s, g).session, h)
        {
          RunOpShaped(s, Nfts, address, target, calls.nfts, norm.nfts, [], 2, h);
        }
      } else {
        forall s, g
          ensures OpShaped(s, st[3](s, g), address, target, 3) && Settled(s, st[3](s, g).session, h)
        {
          RunOpShaped(s, NativeBalance, address, target, calls.native, norm.native, "0", 3, h);
        }
      }
    }
  }

  /**
   * The per-address pipeline enters a prefix of the four operations in
   * order, all four when it completes, and calls the provider for those
   * entered from the first handshake that left the flag set.
   */
  lemma RunShapedFor<A, B, C, D, T(!new), U(!new), N(!new), Rep>(s: Session, address: string, target: Target,
      calls: Calls<A, B, C, D>, norm: Normalisers<A, B, C, D, T, U, N>, report: Gathered<T, U, N> -> Rep, h: Handshakes)
    requires StartsAre(calls, h)
    ensures Shaped(s, Run(s, address, target, calls, norm, report), address, target, h)
  {
    StagesShaped(address, target, calls, norm, h);
    RunStagesShaped(s, Stages(address, target, calls, norm), Nothing(), address, target, 0, h);
    FinishShaped(s, RunStages(s, Stages(address, target, calls, norm), Nothing()), report, address, target, h);
  }

  lemma StepIsShaped<A, B, C, D, T(!new), U(!new), N(!new), Rep>(target: Target, norm: Normalisers<A, B, C, D, T, U, N>,
      report: Gathered<T, U, N> -> Rep, oracle: nat -> Calls<A, B, C, D>, h: Handshakes)
    requires forall i :: StartsAre(oracle(i), h)
    ensures StepShaped(Step(target, norm, report, oracle), target, h)
  {
    forall s, i: nat, a
      ensures Shaped(s, Step(target, norm, report, oracle)(s, i, a), a, target, h)
    {
      RunShapedFor(s, a, target, oracle(i), norm, report, h);
    }
  }

  // ---------------------------------------------------------------------
  // Errors that can all be reported

  /** The error of a call, if any, has no property that throws when `handleApiError` reads it. */
  predicate TameCall<T>(c: Call<T>) {
    && (c.start.StartFailed? ==> !c.start.error.Hostile?)
    && (c.reply.Rejected? ==> !c.reply.error.Hostile?)
  }

  /** The normalised payload of a call that settled, should normalising it throw, can be reported. */
  predicate TameNormalised<P, R>(c: Call<P>, f: P -> Result<R, Thrown>) {
    c.reply.Ok? && f(c.reply.data).Failure? ==> !f(c.reply.data).error.Hostile?
  }

  /** Every error the environment raises in the four operations can be reported. */
  predicate TameCalls<A, B, C, D>(calls: Calls<A, B, C, D>) {
    TameCall(calls.transactions) && TameCall(calls.tokenBalances) && TameCall(calls.nfts) && TameCall(calls.native)
  }

  /** Every error of the four operations, whether raised by the environment or by a normaliser, can be reported. */
  predicate Tame<A, B, C, D, T, U, N>(calls: Calls<A, B, C, D>, norm: Normalisers<A, B, C, D, T, U, N>) {
    && TameCalls(calls)
    && TameNormalised(calls.transactions, norm.transactions) && TameNormalised(calls.tokenBalances, norm.tokenBalances)
    && TameNormalised(calls.nfts, norm.nfts) && TameNormalised(calls.native, norm.native)
  }

  /** Each operation whose provider call was rejected has left its fallback. */
  ghost predicate Defaulted<A, B, C, D, T, U, N>(calls: Calls<A, B, C, D>, g: Gathered<T, U, N>) {
    && (calls.transactions.reply.Rejected? ==> g.transactions == [])
    && (calls.tokenBalances.reply.Rejected? ==> g.tokenBalances == [])
    && (calls.nfts.reply.Rejected? ==> g.nfts == [])
    && (calls.native.reply.Rejected? ==> g.nativeBalance == "0")
  }

  /** `h` differs from `g` at most in the value of operation `k`. */
  ghost predicate SameExcept<T, U, N>(g: Gathered<T, U, N>, h: Gathered<T, U, N>, k: nat) {
    && (k != 0 ==> h.transactions == g.transactions)
    && (k != 1 ==> h.tokenBalances == g.tokenBalances)
    && (k != 2 ==> h.nfts == g.nfts)
    && (k != 3 ==> h.nativeBalance == g.nativeBalance)
  }

  /** A stage in a tame environment completes, stores only its own operation's value, and keeps the fallbacks. */
  ghost predicate StageTame<A, B, C, D, T, U, N>(st: Stage<Gathered<T, U, N>>, calls: Calls<A, B, C, D>, k: nat,
                                           s: Session, g: Gathered<T, U, N>) {
    && st(s, g).outcome.Success?
    && SameExcept(g, st(s, g).outcome.value, k)
    && (Defaulted(calls, g) ==> Defaulted(calls, st(s, g).outcome.value))
  }

  lemma Stage0Tame<A, B, C, D, T, U, N>(address: string, target: Target, calls: Calls<A, B, C, D>,
                                        norm: Normalisers<A, B, C, D, T, U, N>, s: Session, g: Gathered<T, U, N>)
    requires Tame(calls, norm)
    ensures StageTame(Stages(address, target, calls, norm)[0], calls, 0, s, g)
  {
    RunOpTame(s, Transactions, address, target, calls.transactions, norm.transactions, []);
  }

  lemma Stage1Tame<A, B, C, D, T, U, N>(address: string, target: Target, calls: Calls<A, B, C, D>,
                                        norm: Normalisers<A, B, C, D, T, U, N>, s: Session, g: Gathered<T, U, N>)
    requires Tame(calls, norm)
    ensures StageTame(Stages(address, target, calls, norm)[1], calls, 1, s, g)
  {
    RunOpTame(s, TokenBalances, address, target, calls.tokenBalances, norm.tokenBalances, []);
  }

  lemma Stage2Tame<A, B, C, D, T, U, N>(address: string, target: Target, calls: Calls<A, B, C, D>,
                                        norm: Normalisers<A, B, C, D, T, U, N>, s: Session, g: Gathered<T, U, N>)
    requires Tame(calls, norm)
    ensures StageTame(Stages(address, target, calls, norm)[2], calls, 2, s, g)
  {
    RunOpTame(s, Nfts, address, target, calls.nfts, norm.nfts, []);
  }

  lemma Stage3Tame<A, B, C, D, T, U, N>(address: string, target: Target, calls: Calls<A, B, C, D>,
                                        norm: Normalisers<A, B, C, D, T, U, N>, s: Session, g: Gathered<T, U, N>)
    requires Tame(calls, norm)
    ensures StageTame(Stages(address, target, calls, norm)[3], calls, 3, s, g)
  {
    RunOpTame(s, NativeBalance, address, target, calls.native, norm.native, "0");
  }

  /** In a tame environment every stage completes, storing only its own value and keeping the fallbacks. */
  lemma StagesTame<A, B, C, D, T, U, N>(address: string, target: Target, calls: Calls<A, B, C, D>,
                                        norm: Normalisers<A, B, C, D, T, U, N>)
    requires Tame(calls, norm)
    ensures forall j, s, g :: 0 <= j < 4 ==> StageTame(Stages(address, target, calls, norm)[j], calls, j, s, g)
  {
    var st := Stages(address, target, calls, norm);
    forall j, s, g | 0 <= j < 4
      ensures StageTame(st[j], calls, j, s, g)
    {
      if j == 0 {
        Stage0Tame(address, target, calls, norm, s, g);
      } else if j == 1 {
        Stage1Tame(address, target, calls, norm, s, g);
      } else if j == 2 {
        Stage2Tame(address, target, calls, norm, s, g);
      } else {
        Stage3Tame(address, target, calls, norm, s, g);
      }
    }
  }

  /**
   * Unless reporting an error itself throws, the pipeline for an address
   * always completes, and each operation whose provider call was rejected
   * contributes its fallback.
   */
  lemma TameCompletes<A, B, C, D, T(!new), U(!new), N(!new)>(s: Session, address: string, target: Target,
      calls: Calls<A, B, C, D>, norm: Normalisers<A, B, C, D, T, U, N>)
    requires Tame(calls, norm)
    ensures RunStages(s, Stages(address, target, calls, norm), Nothing()).outcome.Success?
    ensures Defaulted(calls, RunStages(s, Stages(address, target, calls, norm), Nothing()).outcome.value)
  {
    var st := Stages(address, target, calls, norm);
    var keep := (g: Gathered<T, U, N>) => Defaulted(calls, g);
    StagesTame(address, target, calls, norm);
    forall j, s': Session, a: Gathered<T, U, N> | 0 <= j < |st| && keep(a)
      ensures st[j](s', a).outcome.Success? && keep(st[j](s', a).outcome.value)
    {
      assert StageTame(st[j], calls, j, s', a);
    }
    RunStagesKeep(s, st, Nothing(), keep);
  }

  /** In a tame environment the operations after the first complete and leave the gathered transactions alone. */
  lemma LaterStagesKeepTransactions<A, B, C, D, T, U, N>(address: string, target: Target, calls: Calls<A, B, C, D>,
                                                         norm: Normalisers<A, B, C, D, T, U, N>, delivered: seq<T>)
    requires Tame(calls, norm)
    ensures forall j, s': Session, a: Gathered<T, U, N> :: 0 <= j < 3 && a.transactions == delivered ==>
      && Stages(address, target, calls, norm)[1..][j](s', a).outcome.Success?
      && Stages(address, target, calls, norm)[1..][j](s', a).outcome.value.transactions == delivered
  {
    var st := Stages(address, target, calls, norm);
    StagesTame(address, target, calls, norm);
    forall j, s': Session, a: Gathered<T, U, N> | 0 <= j < 3 && a.transactions == delivered
      ensures st[1..][j](s', a).outcome.Success? && st[1..][j](s', a).outcome.value.transactions == delivered
    {
      assert st[1..][j] == st[j + 1];
      assert StageTame(st[j + 1], calls, j + 1, s', a);
    }
  }

  /**
   * Once the handshake is behind it, a transactions call whose payload
   * normalises stores the normalised records, and the later operations of
   * a tame environment leave them as they are.
   */
  lemma DeliveredTransactions<A, B, C, D, T(!new), U(!new), N(!new)>(s: Session, address: string, target: Target,
      calls: Calls<A, B, C, D>, norm: Normalisers<A, B, C, D, T, U, N>)
    requires s.initialized || calls.transactions.start.Started?
    requires Tame(calls, norm)
    requires calls.transactions.reply.Ok? && norm.transactions(calls.transactions.reply.data).Success?
    ensures var r := RunStages(s, Stages(address, target, calls, norm), Nothing());
      && r.outcome.Success?
      && r.outcome.value.transactions == norm.transactions(calls.transactions.reply.data).value
  {
    var st := Stages(address, target, calls, norm);
    RunOpOutcome(s, Transactions, address, target, calls.transactions, norm.transactions, []);
    var o := st[0](s, Nothing());
    var delivered := o.outcome.value.transactions;
    LaterStagesKeepTransactions(address, target, calls, norm, delivered);
    RunStagesKeep(o.session, st[1..], o.outcome.value, (g: Gathered<T, U, N>) => g.transactions == delivered);
    assert RunStages(s, st, Nothing()) == Prepend(o.events, RunStages(o.session, st[1..], o.outcome.value));
  }

  /**
   * In a tame environment `indexAll` enters the four operations of every
   * address, in order, address by address; on a session already
   * initialised, or when every handshake succeeds, it makes the 4 * N
   * matching provider calls, and when every handshake fails on a fresh
   * session it makes none.
   */
  lemma TameInvocations<A, B, C, D, T(!new), U(!new), N(!new), Rep>(family: Family, s: Session, addresses: seq<string>,
      target: Target, norm: Normalisers<A, B, C, D, T, U, N>, report: Gathered<T, U, N> -> Rep,
      oracle: nat -> Calls<A, B, C, D>, h: Handshakes)
    requires forall i :: Tame(oracle(i), norm) && StartsAre(oracle(i), h)
    ensures var r := Pipeline.IndexAll(family, s, addresses, Step(target, norm, report, oracle));
      && Entries(r.events) == Expected(addresses, target, Entering)
      && (s.initialized || h.AllSucceed? ==> Invocations(r.events) == Expected(addresses, target, Calling))
      && (!s.initialized && h.AllFail? ==> Invocations(r.events) == [])
  {
    var step := Step(target, norm, report, oracle);
    StepIsShaped(target, norm, report, oracle, h);
    forall s', i: nat, a
      ensures step(s', i, a).outcome.Success?
    {
      TameCompletes(s', a, target, oracle(i), norm);
    }
    Pipeline.IndexAllCompletes(family, s, addresses, step);
    Pipeline.IndexAllInvocations(family, s, addresses, step, target, h);
    Pipeline.IndexAllCalls(family, s, addresses, step, target, h);
  }
}

=== FILE: pipeline.dfy ===
/**
 * The indexing pipeline both chain families share: one failure-isolated
 * provider operation, the per-address sweep over the configured list with
 * its per-address catch, and the trace of events a pass leaves behind.
 */
module Pipeline {
  import opened Wrappers
  import opened MoralisClient
  import Selectors

  /** The four operations run for every address, in this order. */
  datatype Op = Transactions | TokenBalances | Nfts | NativeBalance

  /** The network every provider call of a family is made against. */
  datatype Target = EvmTarget(chain: Selectors.EvmChain) | SolTarget(network: Selectors.SolNetwork)

  function FamilyOf(t: Target): Family {
    match t
    case EvmTarget(_) => Evm
    case SolTarget(_) => Solana
  }

  /** How the provider settles one call: with a payload or by rejecting. */
  datatype Reply<+T> = Ok(data: T) | Rejected(error: Thrown)

  /**
   * The environment's behaviour for one operation: how `Moralis.start`
   * settles should the operation have to await it, and the provider's reply
   * should the call be made.
   */
  datatype Call<+T> = Call(start: StartOutcome, reply: Reply<T>)

  /** A list payload after `toJSON()`: an array (elements may be null) or anything else. */
  datatype Payload<+T> = Records(items: seq<Option<T>>) | NotArray

  /**
   * What a pass does, in order. `Entered` is the indexer awaiting one of
   * its operations for an address; `Invoked` is that operation's provider
   * call (with the "Indexing ... for address" line before it, where the
   * operation has one), made only once `initializeMoralis` has settled
   * with the flag set; `StartAwaited` is a `Moralis.start` handshake;
   * `Reported` is the line `handleApiError` prints for an operation's
   * error, under the context string `Context(reporter, failed)` of the
   * operation that failed.
   */
  datatype Event =
    | PassBegun
    | FamilyDisabled(family: Family)
    | NothingToIndex(family: Family)
    | FamilyBegun(family: Family, count: nat)
    | Entered(op: Op, address: string, target: Target)
    | StartAwaited(succeeded: bool)
    | Invoked(op: Op, address: string, target: Target)
    | Reported(reporter: Family, failed: Op, report: Report)
    | AddressFailed(family: Family, address: string)
    | PassCompleted

  /** The two per-operation events: the operation entered, and its provider call made. */
  datatype Marker = Entering | Calling

  function Mark(m: Marker, op: Op, address: string, target: Target): Event {
    match m
    case Entering => Entered(op, address, target)
    case Calling => Invoked(op, address, target)
  }

  predicate IsMark(e: Event, m: Marker) {
    match m
    case Entering => e.Entered?
    case Calling => e.Invoked?
  }

  /** The class name that begins every context string of `family`'s operations. */
  function Owner(family: Family): string {
    match family
    case Solana => "SolanaIndexer."
    case Evm => "EVMIndexer."
  }

  /** The context string each operation hands to `handleApiError`. */
  function Context(family: Family, op: Op): string {
    Owner(family) + match op
      case Transactions => "indexTransactions"
      case TokenBalances => "indexTokenBalances"
      case Nfts => "indexNFTs"
      case NativeBalance => "getNativeBalance"
  }

  /** The context strings tell the operations apart: each names its class (by the first letter) and its method (by its length). */
  lemma ContextNamesOperation(family: Family, op: Op, other: Family, op': Op)
    requires Context(family, op) == Context(other, op')
    ensures family == other && op == op'
  {
    assert Context(family, op)[0] == Owner(family)[0];
    assert Context(other, op')[0] == Owner(other)[0];
  }

  /** The events a single operation of `family` may leave: its reports carry that family's context. */
  predicate OpEvent(e: Event, family: Family) {
    || e.Entered? || e.StartAwaited? || e.Invoked?
    || (e.Reported? && e.reporter == family)
  }

  /** The events an `indexAll` of `family` may leave. */
  predicate FamilyEvent(e: Event, family: Family) {
    || ((e.Entered? || e.Invoked?) && FamilyOf(e.target) == family)
    || e.StartAwaited?
    || (e.Reported? && e.reporter == family)
    || e == NothingToIndex(family)
    || (e.FamilyBegun? && e.family == family)
    || (e.AddressFailed? && e.family == family)
  }

  /** The events of one kind in a trace, in order. */
  function Marks(events: seq<Event>, m: Marker): (r: seq<Event>)
    ensures |r| <= |events|
  {
    if events == [] then []
    else (if IsMark(events[0], m) then [events[0]] else []) + Marks(events[1..], m)
  }

  /** The operations a trace entered, in order. */
  function Entries(events: seq<Event>): seq<Event> {
    Marks(events, Entering)
  }

  /** The provider calls of a trace, in order. */
  function Invocations(events: seq<Event>): seq<Event> {
    Marks(events, Calling)
  }

  /** A trace without events of a kind has none to list. */
  lemma {:induction false} NoMarks(events: seq<Event>, m: Marker)
    requires forall e :: e in events ==> !IsMark(e, m)
    ensures Marks(events, m) == []
    decreases |events|
  {
    if events != [] {
      NoMarks(events[1..], m);
    }
  }

  lemma {:induction false} MarksAppend(a: seq<Event>, b: seq<Event>, m: Marker)
    ensures Marks(a + b, m) == Marks(a, m) + Marks(b, m)
    decreases |a|
  {
    if a == [] {
      assert a + b == b;
    } else {
      assert (a + b)[0] == a[0];
      assert (a + b)[1..] == a[1..] + b;
      MarksAppend(a[1..], b, m);
    }
  }

  /** An event is listed among a trace's events of a kind exactly when it is of that kind and in the trace. */
  lemma {:induction false} MarkMember(events: seq<Event>, e: Event, m: Marker)
    ensures e in Marks(events, m) <==> e in events && IsMark(e, m)
    decreases |events|
  {
    if events != [] {
      MarkMember(events[1..], e, m);
      assert events == [events[0]] + events[1..];
    }
  }

  /** A list normaliser: a non-array yields no records; a null element throws on its first field. */
  function NormaliseAll<T, R>(p: Payload<T>, f: T -> R, firstField: string): (r: Result<seq<R>, Thrown>)
    ensures p.NotArray? ==> r == Success([])
    ensures p.Records? && (exists i :: 0 <= i < |p.items| && p.items[i].None?) ==>
      r == Failure(ReadOfNullish(firstField))
    ensures p.Records? && (forall i :: 0 <= i < |p.items| ==> p.items[i].Some?) ==>
      && r.Success?
      && |r.value| == |p.items|
      && forall i :: 0 <= i < |p.items| ==> r.value[i] == f(p.items[i].value)
  {
    match p
    case NotArray => Success([])
    case Records(items) =>
      if exists i :: 0 <= i < |items| && items[i].None? then Failure(ReadOfNullish(firstField))
      else Success(seq(|items|, i requires 0 <= i < |items| => f(items[i].value)))
  }

  /** The result of one operation: its events, its value or escaping exception, and the session after it. */
  datatype OpRun<+R> = OpRun(events: seq<Event>, outcome: Result<R, Thrown>, session: Session)

  /**
   * What the try block of an operation throws, stated directly from the
   * environment: a failed handshake (only awaited while the flag is clear),
   * a rejected call, or a normaliser that throws.
   */
  function Raised<T, R>(s: Session, call: Call<T>, normalise: T -> Result<R, Thrown>): Option<Thrown> {
    if !s.initialized && call.start.StartFailed? then Some(call.start.error)
    else if call.reply.Rejected? then Some(call.reply.error)
    else match normalise(call.reply.data)
      case Failure(e) => Some(e)
      case Success(_) => None
  }

  /** The try block after the handshake: fetch the API surface, call the provider, normalise. */
  function TryBody<T, R>(init: InitRun, family: Family, call: Call<T>, normalise: T -> Result<R, Thrown>): Result<R, Thrown> {
    if init.failure.Some? then Failure(init.failure.value)
    else match GetApi(init.session, family)
      case Failure(e) => Failure(e)
      case Success(_) =>
        match call.reply
        case Rejected(e) => Failure(e)
        case Ok(data) => normalise(data)
  }

  /** The catch block: report the error and return the fallback, unless reporting itself throws. */
  function Catch<R>(events: seq<Event>, family: Family, op: Op, e: Thrown, fallback: R, s: Session): (r: OpRun<R>)
    ensures r.outcome.Failure? <==> e.Hostile?
    ensures r.outcome.Success? ==> r.events == events + [Reported(family, op, HandleApiError(e).value)]
    ensures r.outcome.Failure? ==> r.events == events
  {
    match HandleApiError(e)
    case Success(report) => OpRun(events + [Reported(family, op, report)], Success(fallback), s)
    case Failure(x) => OpRun(events, Failure(x), s)
  }

  /** An operation's trace: entered once, the handshake if awaited, the call if made, the report if any. */
  lemma OpTrace(op: Op, address: string, target: Target, awaited: seq<Event>, called: seq<Event>, reported: seq<Event>)
    requires forall e :: e in awaited ==> e.StartAwaited?
    requires called == [] || called == [Invoked(op, address, target)]
    requires forall e :: e in reported ==> e.Reported? && e.reporter == FamilyOf(target) && e.failed == op
    ensures var events := [Entered(op, address, target)] + awaited + called + reported;
      && Entries(events) == [Entered(op, address, target)]
      && Invocations(events) == called
      && forall e :: e in events ==> OpEvent(e, FamilyOf(target))
  {
    var head := [Entered(op, address, target)];
    NoMarks(awaited, Entering);
    NoMarks(awaited, Calling);
    NoMarks(reported, Entering);
    NoMarks(reported, Calling);
    NoMarks(called, Entering);
    assert Marks(head, Entering) == head;
    assert Marks(head, Calling) == [];
    assert Marks(called, Calling) == called;
    forall m: Marker
      ensures Marks(head + awaited + called + reported, m) ==
        Marks(head, m) + Marks(awaited, m) + Marks(called, m) + Marks(reported, m)
    {
      MarksAppend(head, awaited, m);
      MarksAppend(head + awaited, called, m);
      MarksAppend(head + awaited + called, reported, m);
    }
  }

  /**
   * One operation for one address: it is entered, awaits
   * `initializeMoralis`, and only with the flag set fetches the API surface
   * and calls the provider (`TryBody`); an exception goes to `Catch`.
   */
  function RunOp<T, R>(s: Session, op: Op, address: string, target: Target, call: Call<T>,
                       normalise: T -> Result<R, Thrown>, fallback: R): (r: OpRun<R>)
    ensures |r.events| >= 1 && r.events[0] == Entered(op, address, target)
    ensures Entries(r.events) == [Entered(op, address, target)]
    ensures Invocations(r.events) ==
      if s.initialized || call.start.Started? then [Invoked(op, address, target)] else []
    ensures forall e :: e in r.events ==> OpEvent(e, FamilyOf(target))
    ensures r.session == InitializeMoralis(s, call.start).session
  {
    var init := InitializeMoralis(s, call.start);
    var awaited := if init.attempted then [StartAwaited(init.failure.None?)] else [];
    var called := if init.failure.None? then [Invoked(op, address, target)] else [];
    var before := [Entered(op, address, target)] + awaited + called;
    match TryBody(init, FamilyOf(target), call, normalise)
    case Success(v) =>
      OpTrace(op, address, target, awaited, called, []);
      assert before + [] == before;
      OpRun(before, Success(v), init.session)
    case Failure(e) =>
      var r := Catch(before, FamilyOf(target), op, e, fallback, init.session);
      var reported := if r.outcome.Success? then [Reported(FamilyOf(target), op, HandleApiError(e).value)] else [];
      OpTrace(op, address, target, awaited, called, reported);
      assert r.events == before + reported;
      r
  }

  /**
   * An operation returns the normalised payload when nothing was raised,
   * the fallback (after reporting) when something was raised, and lets an
   * exception escape only when reporting it threw.
   */
  lemma RunOpOutcome<T, R>(s: Session, op: Op, address: string, target: Target, call: Call<T>,
                           normalise: T -> Result<R, Thrown>, fallback: R)
    ensures var r := RunOp(s, op, address, target, call, normalise, fallback);
      var raised := Raised(s, call, normalise);
      && (raised.None? ==> r.outcome.Success? && Success(r.outcome.value) == normalise(call.reply.data))
      && (raised.Some? && !raised.value.Hostile? ==>
            && r.outcome == Success(fallback)
            && r.events[|r.events| - 1] == Reported(FamilyOf(target), op, HandleApiError(raised.value).value))
      && (r.outcome.Failure? <==> raised.Some? && raised.value.Hostile?)
      && (r.outcome.Failure? ==> r.outcome.error == raised.value.raises)
  {
  }

  /**
   * An operation whose errors can all be reported never lets an exception
   * escape, and a rejected provider call yields the fallback.
   */
  lemma RunOpTame<T, R>(s: Session, op: Op, address: string, target: Target, call: Call<T>,
                        normalise: T -> Result<R, Thrown>, fallback: R)
    requires call.start.StartFailed? ==> !call.start.error.Hostile?
    requires call.reply.Rejected? ==> !call.reply.error.Hostile?
    requires call.reply.Ok? && normalise(call.reply.data).Failure? ==> !normalise(call.reply.data).error.Hostile?
    ensures RunOp(s, op, address, target, call, normalise, fallback).outcome.Success?
    ensures call.reply.Rejected? ==> RunOp(s, op, address, target, call, normalise, fallback).outcome.value == fallback
  {
    RunOpOutcome(s, op, address, target, call, normalise, fallback);
  }

  /** The four operations of an address, in order, as entries or as provider calls. */
  function OpsFor(address: string, target: Target, m: Marker): seq<Event> {
    [Mark(m, Transactions, address, target), Mark(m, TokenBalances, address, target),
     Mark(m, Nfts, address, target), Mark(m, NativeBalance, address, target)]
  }

  /**
   * What the environment's handshakes do for a stretch of operations:
   * every awaited `Moralis.start` succeeds, every one fails, or either.
   */
  datatype Handshakes = AllSucceed | AllFail | Mixed

  predicate Allows(h: Handshakes, start: StartOutcome) {
    match h
    case AllSucceed => start.Started?
    case AllFail => start.StartFailed?
    case Mixed => true
  }

  /** An operation run from an uninitialised session settles the flag as `h` says. */
  predicate Settled(s: Session, after: Session, h: Handshakes) {
    !s.initialized ==> (h.AllSucceed? ==> after.initialized) && (h.AllFail? ==> !after.initialized)
  }

  /** The per-address pipeline of a family: its events, its report or escaping exception, the session after. */
  datatype StepRun<+Rep> = StepRun(events: seq<Event>, outcome: Result<Rep, Thrown>, session: Session)

  /**
   * What a per-address pipeline guarantees from operation `k` on: it
   * enters a non-empty prefix of the remaining operations in order, all of
   * them when it completes, and leaves only operation events.
   */
  predicate EntriesFrom<Rep>(run: StepRun<Rep>, address: string, target: Target, k: nat)
    requires k < 4
  {
    && 1 <= |Entries(run.events)| <= 4 - k
    && Entries(run.events) == OpsFor(address, target, Entering)[k..k + |Entries(run.events)|]
    && (run.outcome.Success? ==> |Entries(run.events)| == 4 - k)
    && (forall e :: e in run.events ==> OpEvent(e, FamilyOf(target)))
  }

  /**
   * Its provider calls: those of the last operations entered, from the
   * first whose handshake left the flag set (all of them on a session
   * already initialised or when every handshake succeeds, none when every
   * handshake fails on a fresh session); the flag ends set exactly when a
   * call was made.
   */
  predicate CallsFrom<Rep>(s: Session, run: StepRun<Rep>, address: string, target: Target, k: nat, h: Handshakes)
    requires k < 4
  {
    var n := |Entries(run.events)|;
    var m := |Invocations(run.events)|;
    && m <= n <= 4 - k
    && Invocations(run.events) == OpsFor(address, target, Calling)[k + n - m..k + n]
    && (run.session.initialized <==> m > 0)
    && (s.initialized || h.AllSucceed? ==> m == n)
    && (!s.initialized && h.AllFail? ==> m == 0)
    && (Valid(s) ==> Valid(run.session))
  }

  predicate ShapedFrom<Rep>(s: Session, run: StepRun<Rep>, address: string, target: Target, k: nat, h: Handshakes)
    requires k < 4
  {
    EntriesFrom(run, address, target, k) && CallsFrom(s, run, address, target, k, h)
  }

  /** What each family's per-address pipeline guarantees. */
  predicate Shaped<Rep>(s: Session, run: StepRun<Rep>, address: string, target: Target, h: Handshakes) {
    ShapedFrom(s, run, address, target, 0, h)
  }

  /** Operation `k` of an address, run on its own: entered once, and called exactly when the flag ends set. */
  predicate OpShaped<R>(s: Session, o: OpRun<R>, address: string, target: Target, k: nat)
    requires k < 4
  {
    && Entries(o.events) == [OpsFor(address, target, Entering)[k]]
    && Invocations(o.events) == (if o.session.initialized then [OpsFor(address, target, Calling)[k]] else [])
    && (s.initialized ==> o.session.initialized)
    && (forall e :: e in o.events ==> OpEvent(e, FamilyOf(target)))
    && (Valid(s) ==> Valid(o.session))
  }

  lemma RunOpShaped<T, R>(s: Session, op: Op, address: string, target: Target, call: Call<T>,
                          normalise: T -> Result<R, Thrown>, fallback: R, k: nat, h: Handshakes)
    requires k < 4 && OpsFor(address, target, Entering)[k] == Entered(op, address, target)
    requires Allows(h, call.start)
    ensures OpShaped(s, RunOp(s, op, address, target, call, normalise, fallback), address, target, k)
    ensures Settled(s, RunOp(s, op, address, target, call, normalise, fallback).session, h)
  {
    assert OpsFor(address, target, Calling)[k] == Invoked(op, address, target);
  }

  /** The pipeline of an address whose operation threw: it ends with that operation. */
  function Abort<R, Rep>(o: OpRun<R>): (r: StepRun<Rep>)
    requires o.outcome.Failure?
    ensures r.outcome.Failure? && r.events == o.events
  {
    StepRun(o.events, Failure(o.outcome.error), o.session)
  }

  /** An operation that succeeded, followed by the rest of the pipeline. */
  function Prepend<Rep>(events: seq<Event>, rest: StepRun<Rep>): (r: StepRun<Rep>)
    ensures r.events == events + rest.events && r.outcome == rest.outcome
  {
    StepRun(events + rest.events, rest.outcome, rest.session)
  }

  /** A pipeline made of operation `k` alone, whether it threw or was the last. */
  lemma SingleShaped<R, Rep>(s: Session, o: OpRun<R>, r: StepRun<Rep>, address: string, target: Target, k: nat, h: Handshakes)
    requires k < 4 && OpShaped(s, o, address, target, k) && Settled(s, o.session, h)
    requires r.events == o.events && r.session == o.session
    requires r.outcome.Success? ==> k == 3
    ensures ShapedFrom(s, r, address, target, k, h)
  {
  }

  lemma PrependEntries<R, Rep>(s: Session, o: OpRun<R>, rest: StepRun<Rep>, address: string, target: Target, k: nat)
    requires k < 3 && OpShaped(s, o, address, target, k)
    requires EntriesFrom(rest, address, target, k + 1)
    ensures EntriesFrom(Prepend(o.events, rest), address, target, k)
  {
    var ops := OpsFor(address, target, Entering);
    var r := Prepend(o.events, rest);
    var n := |Entries(rest.events)|;
    assert Entries(r.events) == [ops[k]] + ops[k + 1..k + 1 + n] by {
      MarksAppend(o.events, rest.events, Entering);
    }
    assert Entries(r.events) == ops[k..k + 1 + n] by {
      SliceCons(ops, k, k + 1 + n);
    }
    assert forall e :: e in r.events ==> OpEvent(e, FamilyOf(target)) by {
      EventsOfConcat(o.events, rest.events, FamilyOf(target));
    }
  }

  lemma PrependCalls<R, Rep>(s: Session, o: OpRun<R>, rest: StepRun<Rep>, address: string, target: Target, k: nat, h: Handshakes)
    requires k < 3 && OpShaped(s, o, address, target, k) && Settled(s, o.session, h)
    requires EntriesFrom(rest, address, target, k + 1)
    requires CallsFrom(o.session, rest, address, target, k + 1, h)
    ensures CallsFrom(s, Prepend(o.events, rest), address, target, k, h)
  {
    MarksAppend(o.events, rest.events, Entering);
    MarksAppend(o.events, rest.events, Calling);
    if o.session.initialized {
      PrependCallsSet(s, o, rest, address, target, k, h);
    } else {
      PrependCallsClear(s, o, rest, address, target, k, h);
    }
  }

  /** An operation that left the flag set calls the provider, and so does every operation after it. */
  lemma PrependCallsSet<R, Rep>(s: Session, o: OpRun<R>, rest: StepRun<Rep>, address: string, target: Target, k: nat,
                                h: Handshakes)
    requires k < 3 && OpShaped(s, o, address, target, k) && Settled(s, o.session, h) && o.session.initialized
    requires EntriesFrom(rest, address, target, k + 1)
    requires CallsFrom(o.session, rest, address, target, k + 1, h)
    requires Entries(o.events + rest.events) == Entries(o.events) + Entries(rest.events)
    requires Invocations(o.events + rest.events) == Invocations(o.events) + Invocations(rest.events)
    requires Valid(s) ==> Valid(o.session)
    ensures CallsFrom(s, Prepend(o.events, rest), address, target, k, h)
  {
    var calls := OpsFor(address, target, Calling);
    var n := |Entries(rest.events)|;
    assert |Invocations(rest.events)| == n;
    assert Invocations(o.events + rest.events) == [calls[k]] + calls[k + 1..k + 1 + n];
    SliceCons(calls, k, k + 1 + n);
  }

  /** An operation that left the flag clear calls nothing, so the calls are those of the operations after it. */
  lemma PrependCallsClear<R, Rep>(s: Session, o: OpRun<R>, rest: StepRun<Rep>, address: string, target: Target, k: nat,
                                  h: Handshakes)
    requires k < 3 && !o.session.initialized && !s.initialized && !h.AllSucceed?
    requires |Entries(o.events)| == 1 && Invocations(o.events) == []
    requires Valid(s) ==> Valid(o.session)
    requires CallsFrom(o.session, rest, address, target, k + 1, h)
    requires Entries(o.events + rest.events) == Entries(o.events) + Entries(rest.events)
    requires Invocations(o.events + rest.events) == Invocations(o.events) + Invocations(rest.events)
    ensures CallsFrom(s, Prepend(o.events, rest), address, target, k, h)
  {
    assert Invocations(o.events + rest.events) == Invocations(rest.events);
    assert |Entries(o.events + rest.events)| == |Entries(rest.events)| + 1;
  }

  /** An element followed by the slice after it is the slice from that element. */
  lemma SliceCons(ops: seq<Event>, k: nat, j: nat)
    requires k < j <= |ops|
    ensures [ops[k]] + ops[k + 1..j] == ops[k..j]
  {
  }

  lemma EventsOfConcat(a: seq<Event>, b: seq<Event>, family: Family)
    requires forall e :: e in a ==> OpEvent(e, family)
    requires forall e :: e in b ==> OpEvent(e, family)
    ensures forall e :: e in a + b ==> OpEvent(e, family)
  {
  }

  /** One operation of a per-address pipeline, storing its value into what the earlier ones gathered. */
  type Stage<!D> = (Session, D) -> OpRun<D>

  /** An operation's run with its value stored by `put`. */
  function Then<R, D>(o: OpRun<R>, put: R -> D): (r: OpRun<D>)
    ensures r.events == o.events && r.session == o.session
    ensures r.outcome.Success? <==> o.outcome.Success?
    ensures r.outcome.Success? ==> r.outcome.value == put(o.outcome.value)
  {
    match o.outcome
    case Success(v) => OpRun(o.events, Success(put(v)), o.session)
    case Failure(e) => OpRun(o.events, Failure(e), o.session)
  }

  /**
   * The body of the per-address `try`: the stages in order, each on the
   * session the previous one left, stopping at the first exception that
   * escapes a stage.
   */
  function RunStages<D>(s: Session, stages: seq<Stage<D>>, acc: D): StepRun<D>
    decreases |stages|
  {
    if stages == [] then StepRun([], Success(acc), s)
    else
      var o := stages[0](s, acc);
      if o.outcome.Failure? then Abort(o) else Prepend(o.events, RunStages(o.session, stages[1..], o.outcome.value))
  }

  /** A completed pipeline's gathered value turned into the family's report. */
  function Finish<D, Rep>(r: StepRun<D>, report: D -> Rep): (f: StepRun<Rep>)
    ensures f.events == r.events && f.session == r.session
    ensures f.outcome.Success? <==> r.outcome.Success?
    ensures f.outcome.Success? ==> f.outcome.value == report(r.outcome.value)
  {
    match r.outcome
    case Success(v) => StepRun(r.events, Success(report(v)), r.session)
    case Failure(e) => StepRun(r.events, Failure(e), r.session)
  }

  /** Finishing a pipeline keeps its shape. */
  lemma FinishShaped<D, Rep>(s: Session, r: StepRun<D>, report: D -> Rep, address: string, target: Target, h: Handshakes)
    requires Shaped(s, r, address, target, h)
    ensures Shaped(s, Finish(r, report), address, target, h)
  {
  }

  /** A stage that runs operation `k` of the address, whatever the session and the gathered value. */
  ghost predicate StageShaped<D(!new)>(st: Stage<D>, address: string, target: Target, k: nat, h: Handshakes)
    requires k < 4
  {
    forall s, acc :: OpShaped(s, st(s, acc), address, target, k) && Settled(s, st(s, acc).session, h)
  }

  /**
   * Stages that run operations `k`, `k + 1`, ... 3 enter a non-empty
   * prefix of those operations in order, all of them when they complete,
   * and call the provider for those entered from the first handshake that
   * left the flag set.
   */
  lemma {:induction false} RunStagesShaped<D(!new)>(s: Session, stages: seq<Stage<D>>, acc: D,
                                              address: string, target: Target, k: nat, h: Handshakes)
    requires k < 4 && k + |stages| == 4
    requires forall j :: 0 <= j < |stages| ==> StageShaped(stages[j], address, target, k + j, h)
    ensures ShapedFrom(s, RunStages(s, stages, acc), address, target, k, h)
    decreases |stages|
  {
    var o := stages[0](s, acc);
    assert StageShaped(stages[0], address, target, k + 0, h);
    assert OpShaped(s, o, address, target, k) && Settled(s, o.session, h);
    if o.outcome.Failure? {
      SingleShaped<D, D>(s, o, Abort(o), address, target, k, h);
    } else if k == 3 {
      assert stages[1..] == [];
      assert o.events + [] == o.events;
      assert RunStages(o.session, stages[1..], o.outcome.value) == StepRun([], Success(o.outcome.value), o.session);
      assert RunStages(s, stages, acc) == Prepend(o.events, RunStages(o.session, stages[1..], o.outcome.value));
      SingleShaped(s, o, RunStages(s, stages, acc), address, target, k, h);
    } else {
      var rest := stages[1..];
      forall j | 0 <= j < |rest|
        ensures StageShaped(rest[j], address, target, k + 1 + j, h)
      {
        assert rest[j] == stages[j + 1];
      }
      RunStagesShaped(o.session, rest, o.outcome.value, address, target, k + 1, h);
      var tail := RunStages(o.session, rest, o.outcome.value);
      PrependEntries(s, o, tail, address, target, k);
      PrependCalls(s, o, tail, address, target, k, h);
    }
  }

  /**
   * When every stage completes on every gathered value satisfying `keep`
   * and gives one satisfying it again, the pipeline completes with a value
   * satisfying `keep`.
   */
  lemma {:induction false} RunStagesKeep<D(!new)>(s: Session, stages: seq<Stage<D>>, acc: D, keep: D -> bool)
    requires keep(acc)
    requires forall j, s', a :: 0 <= j < |stages| && keep(a) ==>
      stages[j](s', a).outcome.Success? && keep(stages[j](s', a).outcome.value)
    ensures RunStages(s, stages, acc).outcome.Success?
    ensures keep(RunStages(s, stages, acc).outcome.value)
    decreases |stages|
  {
    if stages != [] {
      var o := stages[0](s, acc);
      assert o.outcome.Success? && keep(o.outcome.value);
      var rest := stages[1..];
      forall j, s', a | 0 <= j < |rest| && keep(a)
        ensures rest[j](s', a).outcome.Success? && keep(rest[j](s', a).outcome.value)
      {
        assert rest[j] == stages[j + 1];
      }
      RunStagesKeep(o.session, rest, o.outcome.value, keep);
    }
  }

  /** One address of a sweep: the events it left (including the per-address catch's line) and its outcome. */
  datatype AddressRun<+Rep> = AddressRun(address: string, events: seq<Event>, outcome: Result<Rep, Thrown>)

  /**
   * The sweep's view of an address run that came from a shaped step: a
   * prefix of the four operations entered, the calls of the last of them,
   * and the per-address catch's line after a pipeline that threw.
   */
  predicate RunShaped<Rep>(run: AddressRun<Rep>, target: Target, family: Family) {
    var n := |Entries(run.events)|;
    var m := |Invocations(run.events)|;
    && 1 <= n <= 4
    && Entries(run.events) == OpsFor(run.address, target, Entering)[..n]
    && (run.outcome.Success? ==> n == 4)
    && m <= n
    && Invocations(run.events) == OpsFor(run.address, target, Calling)[n - m..n]
    && (run.outcome.Failure? ==> run.events[|run.events| - 1] == AddressFailed(family, run.address))
    && (forall e :: e in run.events ==> OpEvent(e, FamilyOf(target)) || e == AddressFailed(family, run.address))
  }

  /**
   * The loop of `indexAll`: every address in order, whatever happened to
   * the previous ones. `offset` is the position of `addresses[0]` in the
   * configured list, which the step uses to pick that address's replies.
   */
  function Sweep<Rep>(family: Family, s: Session, addresses: seq<string>, offset: nat,
                      step: (Session, nat, string) -> StepRun<Rep>): (r: (seq<AddressRun<Rep>>, Session))
    ensures |r.0| == |addresses|
    ensures forall i :: 0 <= i < |addresses| ==> r.0[i].address == addresses[i]
    decreases |addresses|
  {
    if addresses == [] then ([], s)
    else
      var first := step(s, offset, addresses[0]);
      var caught := if first.outcome.Failure? then [AddressFailed(family, addresses[0])] else [];
      var run := AddressRun(addresses[0], first.events + caught, first.outcome);
      var rest := Sweep(family, first.session, addresses[1..], offset + 1, step);
      ([run] + rest.0, rest.1)
  }

  /** The events of a sequence of address runs, concatenated in order. */
  function Flatten<Rep>(runs: seq<AddressRun<Rep>>): seq<Event> {
    if runs == [] then [] else runs[0].events + Flatten(runs[1..])
  }

  /** The result of one family's `indexAll`. */
  datatype PassRun<+Rep> = PassRun(events: seq<Event>, runs: seq<AddressRun<Rep>>, session: Session)

  /**
   * `indexAll`: an empty list only logs; otherwise it announces the count
   * and sweeps the addresses, one address run per configured address.
   */
  function IndexAll<Rep>(family: Family, s: Session, addresses: seq<string>,
                         step: (Session, nat, string) -> StepRun<Rep>): (r: PassRun<Rep>)
    ensures addresses == [] ==> r == PassRun([NothingToIndex(family)], [], s)
    ensures |r.runs| == |addresses|
    ensures forall i :: 0 <= i < |addresses| ==> r.runs[i].address == addresses[i]
    ensures addresses != [] ==> r.events == [FamilyBegun(family, |addresses|)] + Flatten(r.runs)
  {
    if |addresses| == 0 then PassRun([NothingToIndex(family)], [], s)
    else
      var swept := Sweep(family, s, addresses, 0, step);
      PassRun([FamilyBegun(family, |addresses|)] + Flatten(swept.0), swept.0, swept.1)
  }

  /** A step that keeps its shape for every session, position and address. */
  ghost predicate StepShaped<Rep>(step: (Session, nat, string) -> StepRun<Rep>, target: Target, h: Handshakes) {
    forall s, i, a :: Shaped(s, step(s, i, a), a, target, h)
  }

  /** The catch line of the sweep is neither an entry nor a call. */
  lemma CaughtMarks(events: seq<Event>, caught: seq<Event>, family: Family, address: string, m: Marker)
    requires caught == [] || caught == [AddressFailed(family, address)]
    ensures Marks(events + caught, m) == Marks(events, m)
  {
    MarksAppend(events, caught, m);
    NoMarks(caught, m);
  }

  /** The address run the sweep builds from one shaped step. */
  lemma AddressRunShaped<Rep>(family: Family, s: Session, first: StepRun<Rep>, address: string, target: Target, h: Handshakes)
    requires Shaped(s, first, address, target, h)
    ensures var caught := if first.outcome.Failure? then [AddressFailed(family, address)] else [];
      RunShaped(AddressRun(address, first.events + caught, first.outcome), target, family)
  {
    var caught := if first.outcome.Failure? then [AddressFailed(family, address)] else [];
    CaughtMarks(first.events, caught, family, address, Entering);
    CaughtMarks(first.events, caught, family, address, Calling);
    var n := |Entries(first.events)|;
    assert OpsFor(address, target, Entering)[0..n] == OpsFor(address, target, Entering)[..n];
  }

  lemma {:induction false} SweepShaped<Rep>(family: Family, s: Session, addresses: seq<string>, offset: nat,
                                            step: (Session, nat, string) -> StepRun<Rep>, target: Target, h: Handshakes)
    requires StepShaped(step, target, h)
    ensures forall i :: 0 <= i < |addresses| ==> RunShaped(Sweep(family, s, addresses, offset, step).0[i], target, family)
    ensures Valid(s) ==> Valid(Sweep(family, s, addresses, offset, step).1)
    decreases |addresses|
  {
    if addresses != [] {
      var first := step(s, offset, addresses[0]);
      assert Shaped(s, first, addresses[0], target, h);
      AddressRunShaped(family, s, first, addresses[0], target, h);
      SweepShaped(family, first.session, addresses[1..], offset + 1, step, target, h);
      var r := Sweep(family, s, addresses, offset, step);
      var rest := Sweep(family, first.session, addresses[1..], offset + 1, step);
      assert r.0 == [r.0[0]] + rest.0;
      forall i | 1 <= i < |addresses|
        ensures RunShaped(r.0[i], target, family)
      {
        assert r.0[i] == rest.0[i - 1];
        assert RunShaped(rest.0[i - 1], target, family);
      }
    }
  }

  /** Every address run calls the provider for each operation it entered. */
  predicate AllCalled<Rep>(runs: seq<AddressRun<Rep>>) {
    forall i :: 0 <= i < |runs| ==> |Invocations(runs[i].events)| == |Entries(runs[i].events)|
  }

  /** Not one address run calls the provider. */
  predicate NoneCalled<Rep>(runs: seq<AddressRun<Rep>>) {
    forall i :: 0 <= i < |runs| ==> Invocations(runs[i].events) == []
  }

  /** The calls of the address run the sweep builds from one shaped step, and the flag it leaves. */
  lemma FirstCalls<Rep>(family: Family, s: Session, first: StepRun<Rep>, address: string, target: Target, h: Handshakes)
    requires Shaped(s, first, address, target, h)
    ensures var caught := if first.outcome.Failure? then [AddressFailed(family, address)] else [];
      var events := first.events + caught;
      && (s.initialized || h.AllSucceed? ==> |Invocations(events)| == |Entries(events)| && first.session.initialized)
      && (!s.initialized && h.AllFail? ==> Invocations(events) == [] && !first.session.initialized)
  {
    var caught := if first.outcome.Failure? then [AddressFailed(family, address)] else [];
    CaughtMarks(first.events, caught, family, address, Entering);
    CaughtMarks(first.events, caught, family, address, Calling);
  }

  /** `FirstCalls` for the step a shaped sweep takes at one address. */
  lemma StepCalls<Rep>(family: Family, s: Session, offset: nat, address: string,
                       step: (Session, nat, string) -> StepRun<Rep>, target: Target, h: Handshakes)
    requires StepShaped(step, target, h)
    ensures var first := step(s, offset, address);
      var caught := if first.outcome.Failure? then [AddressFailed(family, address)] else [];
      var events := first.events + caught;
      && (s.initialized || h.AllSucceed? ==> |Invocations(events)| == |Entries(events)| && first.session.initialized)
      && (!s.initialized && h.AllFail? ==> Invocations(events) == [] && !first.session.initialized)
  {
    assert Shaped(s, step(s, offset, address), address, target, h);
    FirstCalls(family, s, step(s, offset, address), address, target, h);
  }

  /**
   * Along the sweep, once the flag is set (or when every handshake
   * succeeds) every operation entered calls the provider; when every
   * handshake fails on a fresh session, none does and the flag stays clear.
   */
  lemma {:induction false} SweepCalls<Rep>(family: Family, s: Session, addresses: seq<string>, offset: nat,
                                           step: (Session, nat, string) -> StepRun<Rep>, target: Target, h: Handshakes)
    requires StepShaped(step, target, h)
    ensures var r := Sweep(family, s, addresses, offset, step);
      && (s.initialized || h.AllSucceed? ==> AllCalled(r.0))
      && (s.initialized ==> r.1.initialized)
      && (h.AllSucceed? && addresses != [] ==> r.1.initialized)
      && (!s.initialized && h.AllFail? ==> NoneCalled(r.0) && !r.1.initialized)
    decreases |addresses|
  {
    if addresses != [] {
      var first := step(s, offset, addresses[0]);
      StepCalls(family, s, offset, addresses[0], step, target, h);
      SweepCalls(family, first.session, addresses[1..], offset + 1, step, target, h);
      var r := Sweep(family, s, addresses, offset, step);
      var rest := Sweep(family, first.session, addresses[1..], offset + 1, step);
      JoinCalls(s, r.0[0], first.session, rest.0, rest.1, h);
      assert r.0 == [r.0[0]] + rest.0;
    }
  }

  /** The calls of a sweep from those of its first address run and of the sweep after it. */
  lemma JoinCalls<Rep>(s: Session, run: AddressRun<Rep>, mid: Session, rest: seq<AddressRun<Rep>>, after: Session, h: Handshakes)
    requires s.initialized || h.AllSucceed? ==> |Invocations(run.events)| == |Entries(run.events)| && mid.initialized
    requires !s.initialized && h.AllFail? ==> Invocations(run.events) == [] && !mid.initialized
    requires mid.initialized || h.AllSucceed? ==> AllCalled(rest)
    requires mid.initialized ==> after.initialized
    requires h.AllSucceed? && rest != [] ==> after.initialized
    requires !mid.initialized && h.AllFail? ==> NoneCalled(rest) && !after.initialized
    ensures s.initialized || h.AllSucceed? ==> AllCalled([run] + rest)
    ensures s.initialized ==> after.initialized
    ensures h.AllSucceed? ==> after.initialized
    ensures !s.initialized && h.AllFail? ==> NoneCalled([run] + rest) && !after.initialized
  {
    var runs := [run] + rest;
    assert forall i :: 1 <= i < |runs| ==> runs[i] == rest[i - 1];
  }

  /**
   * Every address is processed, in list order, by a pipeline that enters a
   * non-empty prefix of the four operations in order, the transactions
   * operation first (all four when it completes), and calls the provider
   * for the last of those it entered; an address whose pipeline threw ends
   * with the per-address catch's line and the sweep moves on.
   */
  lemma IndexAllShaped<Rep>(family: Family, s: Session, addresses: seq<string>,
                            step: (Session, nat, string) -> StepRun<Rep>, target: Target, h: Handshakes)
    requires StepShaped(step, target, h)
    ensures var r := IndexAll(family, s, addresses, step);
      && |r.runs| == |addresses|
      && (forall i :: 0 <= i < |addresses| ==>
            && r.runs[i].address == addresses[i]
            && RunShaped(r.runs[i], target, family)
            && Entries(r.runs[i].events)[0] == Entered(Transactions, addresses[i], target))
      && (Valid(s) ==> Valid(r.session))
  {
    if addresses != [] {
      SweepShaped(family, s, addresses, 0, step, target, h);
      var r := IndexAll(family, s, addresses, step);
      assert r.runs == Sweep(family, s, addresses, 0, step).0;
      forall i | 0 <= i < |addresses|
        ensures RunShaped(r.runs[i], target, family)
        ensures Entries(r.runs[i].events)[0] == Entered(Transactions, addresses[i], target)
      {
        assert RunShaped(r.runs[i], target, family);
      }
    }
  }

  /**
   * How the handshakes decide the calls of `indexAll`: on a session already
   * initialised, or when every handshake succeeds, every operation entered
   * calls the provider; when every handshake fails on a fresh session, no
   * provider is called at all and the flag stays clear.
   */
  lemma IndexAllCalls<Rep>(family: Family, s: Session, addresses: seq<string>,
                           step: (Session, nat, string) -> StepRun<Rep>, target: Target, h: Handshakes)
    requires StepShaped(step, target, h)
    ensures var r := IndexAll(family, s, addresses, step);
      && (s.initialized || h.AllSucceed? ==> AllCalled(r.runs))
      && (s.initialized ==> r.session.initialized)
      && (!s.initialized && h.AllFail? ==> Invocations(r.events) == [] && !r.session.initialized)
  {
    var r := IndexAll(family, s, addresses, step);
    if addresses != [] {
      SweepCalls(family, s, addresses, 0, step, target, h);
      if !s.initialized && h.AllFail? {
        FlattenNoCalls(r.runs);
        MarksAppend([FamilyBegun(family, |addresses|)], Flatten(r.runs), Calling);
      }
    }
  }

  lemma {:induction false} FlattenNoCalls<Rep>(runs: seq<AddressRun<Rep>>)
    requires NoneCalled(runs)
    ensures Invocations(Flatten(runs)) == []
    decreases |runs|
  {
    if runs != [] {
      MarksAppend(runs[0].events, Flatten(runs[1..]), Calling);
      assert Invocations(runs[0].events) == [];
      FlattenNoCalls(runs[1..]);
    }
  }

  /**
   * A non-empty sweep enters the transactions operation of the first
   * address, and calls the provider for it when the session was already
   * initialised or every handshake succeeds.
   */
  lemma IndexAllInvokesFirst<Rep>(family: Family, s: Session, addresses: seq<string>,
                                  step: (Session, nat, string) -> StepRun<Rep>, target: Target, h: Handshakes)
    requires StepShaped(step, target, h) && addresses != []
    ensures Entered(Transactions, addresses[0], target) in IndexAll(family, s, addresses, step).events
    ensures s.initialized || h.AllSucceed? ==>
      Invoked(Transactions, addresses[0], target) in IndexAll(family, s, addresses, step).events
  {
    FirstRunMarks(family, s, addresses, step, target, h);
    var r := IndexAll(family, s, addresses, step);
    var events := r.runs[0].events;
    assert Flatten(r.runs) == events + Flatten(r.runs[1..]);
    assert r.events == [FamilyBegun(family, |addresses|)] + Flatten(r.runs);
  }

  /** The first address's run enters its transactions operation, and calls it where every entry is called. */
  lemma FirstRunMarks<Rep>(family: Family, s: Session, addresses: seq<string>,
                           step: (Session, nat, string) -> StepRun<Rep>, target: Target, h: Handshakes)
    requires StepShaped(step, target, h) && addresses != []
    ensures var r := IndexAll(family, s, addresses, step);
      && |r.runs| == |addresses|
      && Entered(Transactions, addresses[0], target) in r.runs[0].events
      && (s.initialized || h.AllSucceed? ==> Invoked(Transactions, addresses[0], target) in r.runs[0].events)
  {
    IndexAllShaped(family, s, addresses, step, target, h);
    IndexAllCalls(family, s, addresses, step, target, h);
    var r := IndexAll(family, s, addresses, step);
    var events := r.runs[0].events;
    MarkMember(events, Entries(events)[0], Entering);
    if s.initialized || h.AllSucceed? {
      var n := |Entries(events)|;
      assert Invocations(events) == OpsFor(addresses[0], target, Calling)[0..n];
      MarkMember(events, Invocations(events)[0], Calling);
    }
  }

  /** The events of one kind a list of addresses leaves when all complete: four per address, in order. */
  function Expected(addresses: seq<string>, target: Target, m: Marker): (r: seq<Event>)
    ensures |r| == 4 * |addresses|
  {
    if addresses == [] then [] else OpsFor(addresses[0], target, m) + Expected(addresses[1..], target, m)
  }

  predicate AllCompleted<Rep>(runs: seq<AddressRun<Rep>>) {
    forall i :: 0 <= i < |runs| ==> runs[i].outcome.Success?
  }

  /** A step that never lets an exception escape. */
  ghost predicate StepCompletes<Rep>(step: (Session, nat, string) -> StepRun<Rep>) {
    forall s, i, a :: step(s, i, a).outcome.Success?
  }

  lemma {:induction false} SweepCompletes<Rep>(family: Family, s: Session, addresses: seq<string>, offset: nat,
                                               step: (Session, nat, string) -> StepRun<Rep>)
    requires StepCompletes(step)
    ensures AllCompleted(Sweep(family, s, addresses, offset, step).0)
    decreases |addresses|
  {
    if addresses != [] {
      var first := step(s, offset, addresses[0]);
      assert first.outcome.Success?;
      SweepCompletes(family, first.session, addresses[1..], offset + 1, step);
      var r := Sweep(family, s, addresses, offset, step);
      var rest := Sweep(family, first.session, addresses[1..], offset + 1, step);
      assert r.0 == [r.0[0]] + rest.0;
      forall i | 0 <= i < |r.0|
        ensures r.0[i].outcome.Success?
      {
        if i > 0 {
          assert r.0[i] == rest.0[i - 1];
        }
      }
    }
  }

  lemma IndexAllCompletes<Rep>(family: Family, s: Session, addresses: seq<string>,
                               step: (Session, nat, string) -> StepRun<Rep>)
    requires StepCompletes(step)
    ensures AllCompleted(IndexAll(family, s, addresses, step).runs)
  {
    if addresses != [] {
      SweepCompletes(family, s, addresses, 0, step);
    }
  }

  /** A completed address run entered all four operations, and called all four when it called for each. */
  lemma CompletedRunMarks<Rep>(run: AddressRun<Rep>, target: Target, family: Family, m: Marker)
    requires RunShaped(run, target, family) && run.outcome.Success?
    requires m == Calling ==> |Invocations(run.events)| == |Entries(run.events)|
    ensures Marks(run.events, m) == OpsFor(run.address, target, m)
  {
    assert OpsFor(run.address, target, m)[..4] == OpsFor(run.address, target, m);
    assert OpsFor(run.address, target, m)[0..4] == OpsFor(run.address, target, m);
  }

  lemma {:induction false} FlattenMarks<Rep>(runs: seq<AddressRun<Rep>>, addresses: seq<string>, target: Target,
                                             family: Family, m: Marker)
    requires |runs| == |addresses|
    requires forall i :: 0 <= i < |runs| ==> runs[i].address == addresses[i] && RunShaped(runs[i], target, family)
    requires AllCompleted(runs)
    requires m == Calling ==> AllCalled(runs)
    ensures Marks(Flatten(runs), m) == Expected(addresses, target, m)
    decreases |runs|
  {
    if runs != [] {
      MarksAppend(runs[0].events, Flatten(runs[1..]), m);
      CompletedRunMarks(runs[0], target, family, m);
      FlattenMarks(runs[1..], addresses[1..], target, family, m);
    }
  }

  /**
   * When no address's pipeline throws, `indexAll` enters exactly the four
   * operations per address, address by address in list order; on a session
   * already initialised, or when every handshake succeeds, it makes exactly
   * the matching 4 * N provider calls.
   */
  lemma IndexAllInvocations<Rep>(family: Family, s: Session, addresses: seq<string>,
                                 step: (Session, nat, string) -> StepRun<Rep>, target: Target, h: Handshakes)
    requires StepShaped(step, target, h)
    requires AllCompleted(IndexAll(family, s, addresses, step).runs)
    ensures Entries(IndexAll(family, s, addresses, step).events) == Expected(addresses, target, Entering)
    ensures s.initialized || h.AllSucceed? ==>
      && Invocations(IndexAll(family, s, addresses, step).events) == Expected(addresses, target, Calling)
      && |Invocations(IndexAll(family, s, addresses, step).events)| == 4 * |addresses|
  {
    var r := IndexAll(family, s, addresses, step);
    if addresses != [] {
      IndexAllShaped(family, s, addresses, step, target, h);
      IndexAllCalls(family, s, addresses, step, target, h);
      FlattenMarks(r.runs, addresses, target, family, Entering);
      MarksAppend([FamilyBegun(family, |addresses|)], Flatten(r.runs), Entering);
      if s.initialized || h.AllSucceed? {
        FlattenMarks(r.runs, addresses, target, family, Calling);
        MarksAppend([FamilyBegun(family, |addresses|)], Flatten(r.runs), Calling);
      }
    }
  }

  lemma {:induction false} FlattenFamilyEvents<Rep>(runs: seq<AddressRun<Rep>>, target: Target, family: Family)
    requires FamilyOf(target) == family
    requires forall i :: 0 <= i < |runs| ==> RunShaped(runs[i], target, family)
    ensures forall e :: e in Flatten(runs) ==> FamilyEvent(e, family)
    decreases |runs|
  {
    if runs != [] {
      FlattenFamilyEvents(runs[1..], target, family);
      forall e | e in runs[0].events
        ensures FamilyEvent(e, family)
      {
        if e.Entered? {
          MarkMember(runs[0].events, e, Entering);
          assert e in OpsFor(runs[0].address, target, Entering);
        } else if e.Invoked? {
          MarkMember(runs[0].events, e, Calling);
          assert e in OpsFor(runs[0].address, target, Calling);
        }
      }
    }
  }

  /** Everything `indexAll` leaves belongs to its own family. */
  lemma IndexAllFamilyEvents<Rep>(family: Family, s: Session, addresses: seq<string>,
                                  step: (Session, nat, string) -> StepRun<Rep>, target: Target, h: Handshakes)
    requires StepShaped(step, target, h) && FamilyOf(target) == family
    ensures forall e :: e in IndexAll(family, s, addresses, step).events ==> FamilyEvent(e, family)
  {
    if addresses != [] {
      IndexAllShaped(family, s, addresses, step, target, h);
      FlattenFamilyEvents(IndexAll(family, s, addresses, step).runs, target, family);
    }
  }
}

=== FILE: selectors.dfy ===
/**
 * Resolution of the configured network selectors: the EVM chain and its
 * native-currency symbol, and the Solana network. Each lookup lower-cases
 * the selector, reads a table, and falls back to a default when the table
 * has nothing for it.
 *
 * The tables in the indexers are object literals, so a read also sees the
 * members of `Object.prototype`. The `...AsWritten` functions model that
 * read; `GetChain`, `GetChainSymbol` and `GetNetwork` model the intended
 * own-key lookup and are what the rest of the model uses.
 */
module Selectors {
  import opened Js

  datatype EvmChain = Ethereum | Bsc | Polygon | Avalanche | Fantom | Cronos

  datatype SolNetwork = Mainnet | Devnet | Testnet

  const ChainTable: map<string, EvmChain> := map[
    "eth" := Ethereum, "ethereum" := Ethereum, "bsc" := Bsc, "polygon" := Polygon,
    "avax" := Avalanche, "avalanche" := Avalanche, "fantom" := Fantom, "cronos" := Cronos]

  const SymbolTable: map<string, string> := map[
    "eth" := "ETH", "bsc" := "BNB", "polygon" := "MATIC",
    "avax" := "AVAX", "fantom" := "FTM", "cronos" := "CRO"]

  const NetworkTable: map<string, SolNetwork> := map[
    "mainnet" := Mainnet, "devnet" := Devnet, "testnet" := Testnet]

  /** The chain passed to every EVM provider call. */
  function GetChain(selector: string): (c: EvmChain)
    ensures Lower(selector) in ChainTable ==> c == ChainTable[Lower(selector)]
    ensures Lower(selector) !in ChainTable ==> c == Ethereum
  {
    var key := Lower(selector);
    if key in ChainTable then ChainTable[key] else Ethereum
  }

  /** The currency name printed after the native balance. */
  function GetChainSymbol(selector: string): (sym: string)
    ensures Lower(selector) in SymbolTable ==> sym == SymbolTable[Lower(selector)]
    ensures Lower(selector) !in SymbolTable ==> sym == Upper(selector)
  {
    var key := Lower(selector);
    if key in SymbolTable then SymbolTable[key] else Upper(selector)
  }

  /** The network passed to every Solana provider call. */
  function GetNetwork(selector: string): (n: SolNetwork)
    ensures Lower(selector) in NetworkTable ==> n == NetworkTable[Lower(selector)]
    ensures Lower(selector) !in NetworkTable ==> n == Mainnet
  {
    var key := Lower(selector);
    if key in NetworkTable then NetworkTable[key] else Mainnet
  }

  /** Any selector the table does not know resolves to Ethereum; resolution never fails. */
  lemma GetChainFallback(selector: string)
    requires Lower(selector) !in ChainTable
    ensures GetChain(selector) == Ethereum
  {
  }

  /** Exactly which selectors give each chain: the aliases coincide and unknown keys join Ethereum. */
  lemma GetChainCharacterised(selector: string)
    ensures GetChain(selector) == Ethereum <==>
      Lower(selector) in {"eth", "ethereum"} || Lower(selector) !in ChainTable
    ensures GetChain(selector) == Avalanche <==> Lower(selector) in {"avax", "avalanche"}
    ensures GetChain(selector) == Bsc <==> Lower(selector) == "bsc"
    ensures GetChain(selector) == Polygon <==> Lower(selector) == "polygon"
    ensures GetChain(selector) == Fantom <==> Lower(selector) == "fantom"
    ensures GetChain(selector) == Cronos <==> Lower(selector) == "cronos"
  {
  }

  /** Two selectors that agree up to ASCII case resolve to the same chain, symbol and network. */
  lemma CaseInsensitive(a: string, b: string)
    requires Lower(a) == Lower(b)
    ensures GetChain(a) == GetChain(b)
    ensures GetNetwork(a) == GetNetwork(b)
    ensures Lower(a) in SymbolTable ==> GetChainSymbol(a) == GetChainSymbol(b)
  {
  }

  lemma AliasesAgree()
    ensures GetChain("eth") == GetChain("ethereum") == Ethereum
    ensures GetChain("avax") == GetChain("avalanche") == Avalanche
    ensures GetChain("POLYGON") == GetChain("polygon") == Polygon
  {
    assert Lower("POLYGON") == "polygon";
    assert Lower("polygon") == "polygon";
    assert Lower("eth") == "eth";
    assert Lower("ethereum") == "ethereum";
    assert Lower("avax") == "avax";
    assert Lower("avalanche") == "avalanche";
  }

  /**
   * The symbol table has no long-form aliases: "ethereum" and "avalanche"
   * print as their upper-cased selector although they resolve to the same
   * chain as "eth" and "avax".
   */
  lemma SymbolOfLongAliases()
    ensures GetChainSymbol("ethereum") == "ETHEREUM"
    ensures GetChainSymbol("avalanche") == "AVALANCHE"
    ensures GetChainSymbol("eth") == "ETH"
  {
    assert Lower("ethereum") == "ethereum";
    assert Lower("avalanche") == "avalanche";
    assert Lower("eth") == "eth";
  }

  lemma GetNetworkCharacterised(selector: string)
    ensures GetNetwork(selector) == Devnet <==> Lower(selector) == "devnet"
    ensures GetNetwork(selector) == Testnet <==> Lower(selector) == "testnet"
    ensures GetNetwork(selector) == Mainnet <==>
      Lower(selector) == "mainnet" || Lower(selector) !in NetworkTable
  {
  }

  // ---------------------------------------------------------------------
  // The lookups as written: reads on an object literal.

  /** A chain-table read yields a chain or an inherited prototype member (truthy, returned as is). */
  datatype ChainValue = Chain(chain: EvmChain) | PrototypeMember(name: string)

  datatype SymbolValue = Symbol(text: string) | PrototypeSymbol(name: string)

  datatype NetworkValue = Network(network: SolNetwork) | PrototypeNetwork(name: string)

  function GetChainAsWritten(selector: string): (v: ChainValue)
    ensures Lower(selector) !in PrototypeKeys ==> v == Chain(GetChain(selector))
  {
    match LiteralGet(ChainTable, Lower(selector))
    case Own(c) => Chain(c)
    case Inherited(name) => PrototypeMember(name)
    case Missing => Chain(Ethereum)
  }

  function GetChainSymbolAsWritten(selector: string): (v: SymbolValue)
    ensures Lower(selector) !in PrototypeKeys ==> v == Symbol(GetChainSymbol(selector))
  {
    match LiteralGet(SymbolTable, Lower(selector))
    case Own(s) => Symbol(s)
    case Inherited(name) => PrototypeSymbol(name)
    case Missing => Symbol(Upper(selector))
  }

  function GetNetworkAsWritten(selector: string): (v: NetworkValue)
    ensures Lower(selector) !in PrototypeKeys ==> v == Network(GetNetwork(selector))
  {
    match LiteralGet(NetworkTable, Lower(selector))
    case Own(n) => Network(n)
    case Inherited(name) => PrototypeNetwork(name)
    case Missing => Network(Mainnet)
  }

  /** "Constructor" is not a chain key, yet as written it does not fall back to Ethereum. */
  lemma GetChainAsWrittenMissesFallback()
    ensures Lower("Constructor") !in ChainTable
    ensures GetChainAsWritten("Constructor") == PrototypeMember("constructor")
    ensures GetChainAsWritten("__PROTO__") == PrototypeMember("__proto__")
  {
    assert Lower("Constructor") == "constructor";
    assert Lower("__PROTO__") == "__proto__";
  }

  /** As written, "constructor" prints the Object function instead of "CONSTRUCTOR". */
  lemma GetChainSymbolAsWrittenMissesFallback()
    ensures Lower("constructor") !in SymbolTable
    ensures GetChainSymbolAsWritten("constructor") == PrototypeSymbol("constructor")
    ensures GetChainSymbol("constructor") == "CONSTRUCTOR"
  {
    assert Lower("constructor") == "constructor";
    assert Upper("constructor") == "CONSTRUCTOR";
  }

  /** As written, "constructor" is handed to the Solana provider instead of the mainnet default. */
  lemma GetNetworkAsWrittenMissesFallback()
    ensures Lower("constructor") !in NetworkTable
    ensures GetNetworkAsWritten("constructor") == PrototypeNetwork("constructor")
    ensures GetNetwork("constructor") == Mainnet
  {
    assert Lower("constructor") == "constructor";
  }
}

=== FILE: solana_indexer.dfy ===
/**
 * The Solana indexer: the normalisation of each provider payload into
 * typed records with `||` defaults, the four failure-isolated operations
 * for one address, and `indexAll` over the configured addresses.
 */
module SolanaIndexer {
  import opened Wrappers
  import opened Js
  import opened MoralisClient
  import opened Pipeline
  import opened Selectors
  import PerAddress

  // ---------------------------------------------------------------------
  // Transactions

  datatype RawTransaction = RawTransaction(
    signature: Option<string>, blockTime: Option<int>, slot: Option<int>,
    source: Option<string>, destination: Option<string>, amount: Option<string>,
    fee: Option<string>, status: Option<string>)

  /** `amount` and `fee` are the texts `parseFloat` would read. */
  datatype Transaction = Transaction(
    signature: string, blockTime: int, slot: int, from: string, to: string,
    amount: string, fee: string, status: string)

  predicate WellFormedTransaction(t: Transaction) {
    t.amount != "" && t.fee != "" && t.status != ""
  }

  function NormaliseTransaction(raw: RawTransaction): (t: Transaction)
    ensures WellFormedTransaction(t)
    ensures Keeps(raw.signature, "", t.signature)
    ensures Keeps(raw.source, "", t.from) && Keeps(raw.destination, "", t.to)
    ensures Keeps(raw.amount, "0", t.amount) && Keeps(raw.fee, "0", t.fee)
    ensures Keeps(raw.status, "unknown", t.status)
    ensures t.blockTime == (if raw.blockTime.Some? then raw.blockTime.value else 0)
    ensures t.slot == (if raw.slot.Some? then raw.slot.value else 0)
  {
    Transaction(
      Or(raw.signature, ""), OrNum(raw.blockTime, 0), OrNum(raw.slot, 0),
      Or(raw.source, ""), Or(raw.destination, ""), Or(raw.amount, "0"), Or(raw.fee, "0"),
      Or(raw.status, "unknown"))
  }

  function TransactionToRaw(t: Transaction): RawTransaction {
    RawTransaction(Some(t.signature), Some(t.blockTime), Some(t.slot), Some(t.from), Some(t.to),
                   Some(t.amount), Some(t.fee), Some(t.status))
  }

  /** Normalisation produces exactly the well-formed transactions, and is the identity on them. */
  lemma TransactionImage(t: Transaction)
    ensures WellFormedTransaction(t) ==> NormaliseTransaction(TransactionToRaw(t)) == t
    ensures WellFormedTransaction(t) <==> exists raw :: NormaliseTransaction(raw) == t
  {
    if WellFormedTransaction(t) {
      assert NormaliseTransaction(TransactionToRaw(t)) == t;
    }
  }

  function NormaliseTransactions(p: Payload<RawTransaction>): (r: Result<seq<Transaction>, Thrown>)
    ensures p.NotArray? ==> r == Success([])
    ensures r.Failure? ==> r.error == ReadOfNullish("signature")
    ensures r.Success? && p.Records? ==> |r.value| == |p.items|
    ensures r.Success? ==> forall i :: 0 <= i < |r.value| ==> WellFormedTransaction(r.value[i])
  {
    NormaliseAll(p, NormaliseTransaction, "signature")
  }

  // ---------------------------------------------------------------------
  // Token accounts

  datatype RawTokenAccount = RawTokenAccount(
    address: Option<string>, name: Option<string>, symbol: Option<string>, decimals: Option<int>,
    mint: Option<string>, balance: Option<string>, balanceUsd: Option<string>)

  datatype TokenInfo = TokenInfo(name: string, symbol: string, decimals: int, mint: string)

  /** `balanceUsd` is the text `parseFloat` would read, kept only when truthy. */
  datatype TokenBalance = TokenBalance(address: string, token: TokenInfo, balance: string, balanceUsd: Option<string>)

  predicate WellFormedTokenBalance(b: TokenBalance) {
    && b.token.name != "" && b.token.symbol != "" && b.balance != ""
    && (b.balanceUsd.Some? ==> b.balanceUsd.value != "")
  }

  function NormaliseTokenAccount(raw: RawTokenAccount): (b: TokenBalance)
    ensures WellFormedTokenBalance(b)
    ensures Keeps(raw.address, "", b.address) && Keeps(raw.mint, "", b.token.mint)
    ensures Keeps(raw.name, "Unknown", b.token.name) && Keeps(raw.symbol, "UNKNOWN", b.token.symbol)
    ensures Keeps(raw.balance, "0", b.balance)
    ensures b.token.decimals == (if raw.decimals.Some? then raw.decimals.value else 0)
    ensures b.balanceUsd.Some? <==> Truthy(raw.balanceUsd)
    ensures Truthy(raw.balanceUsd) ==> b.balanceUsd == raw.balanceUsd
  {
    TokenBalance(
      Or(raw.address, ""),
      TokenInfo(Or(raw.name, "Unknown"), Or(raw.symbol, "UNKNOWN"), OrNum(raw.decimals, 0), Or(raw.mint, "")),
      Or(raw.balance, "0"), OrUndefined(raw.balanceUsd))
  }

  function TokenBalanceToRaw(b: TokenBalance): RawTokenAccount {
    RawTokenAccount(Some(b.address), Some(b.token.name), Some(b.token.symbol), Some(b.token.decimals),
                    Some(b.token.mint), Some(b.balance), b.balanceUsd)
  }

  /** Missing decimals are reported as 0 here, not as the 18 the EVM indexer uses. */
  lemma MissingDecimalsBecomeZero(raw: RawTokenAccount)
    requires raw.decimals.None?
    ensures NormaliseTokenAccount(raw).token.decimals == 0
  {
  }

  lemma TokenBalanceImage(b: TokenBalance)
    ensures WellFormedTokenBalance(b) ==> NormaliseTokenAccount(TokenBalanceToRaw(b)) == b
    ensures WellFormedTokenBalance(b) <==> exists raw :: NormaliseTokenAccount(raw) == b
  {
    if WellFormedTokenBalance(b) {
      assert NormaliseTokenAccount(TokenBalanceToRaw(b)) == b;
    }
  }

  function NormaliseTokenAccounts(p: Payload<RawTokenAccount>): (r: Result<seq<TokenBalance>, Thrown>)
    ensures p.NotArray? ==> r == Success([])
    ensures r.Failure? ==> r.error == ReadOfNullish("address")
    ensures r.Success? && p.Records? ==> |r.value| == |p.items|
    ensures r.Success? ==> forall i :: 0 <= i < |r.value| ==> WellFormedTokenBalance(r.value[i])
  {
    NormaliseAll(p, NormaliseTokenAccount, "address")
  }

  // ---------------------------------------------------------------------
  // NFTs

  datatype RawNft = RawNft(
    address: Option<string>, name: Option<string>, symbol: Option<string>, tokenId: Option<string>,
    tokenUri: Option<string>, metadata: Option<Opaque>)

  /** Unlike the EVM record, the token URI and the metadata are always present. */
  datatype Nft = Nft(address: string, name: string, symbol: string, tokenId: string, tokenUri: string, metadata: Opaque)

  predicate WellFormedNft(n: Nft) {
    TruthyOpaque(Some(n.metadata))
  }

  function NormaliseNft(raw: RawNft): (n: Nft)
    ensures WellFormedNft(n)
    ensures Keeps(raw.address, "", n.address) && Keeps(raw.name, "", n.name)
    ensures Keeps(raw.symbol, "", n.symbol) && Keeps(raw.tokenId, "", n.tokenId)
    ensures Keeps(raw.tokenUri, "", n.tokenUri)
    ensures TruthyOpaque(raw.metadata) ==> n.metadata == raw.metadata.value
    ensures !TruthyOpaque(raw.metadata) ==> n.metadata == EmptyObject
  {
    Nft(Or(raw.address, ""), Or(raw.name, ""), Or(raw.symbol, ""), Or(raw.tokenId, ""),
        Or(raw.tokenUri, ""), OrOpaque(raw.metadata, EmptyObject))
  }

  function NftToRaw(n: Nft): RawNft {
    RawNft(Some(n.address), Some(n.name), Some(n.symbol), Some(n.tokenId), Some(n.tokenUri), Some(n.metadata))
  }

  lemma NftImage(n: Nft)
    ensures WellFormedNft(n) ==> NormaliseNft(NftToRaw(n)) == n
    ensures WellFormedNft(n) <==> exists raw :: NormaliseNft(raw) == n
  {
    if WellFormedNft(n) {
      assert NormaliseNft(NftToRaw(n)) == n;
    }
  }

  function NormaliseNfts(p: Payload<RawNft>): (r: Result<seq<Nft>, Thrown>)
    ensures p.NotArray? ==> r == Success([])
    ensures r.Failure? ==> r.error == ReadOfNullish("address")
    ensures r.Success? && p.Records? ==> |r.value| == |p.items|
    ensures r.Success? ==> forall i :: 0 <= i < |r.value| ==> WellFormedNft(r.value[i])
  {
    NormaliseAll(p, NormaliseNft, "address")
  }

  // ---------------------------------------------------------------------
  // Native balance

  /** The balance payload: `null`, or an object with an optional `lamports` text. */
  datatype BalanceJson = NullData | BalanceData(lamports: Option<string>)

  /**
   * `parseFloat(data.lamports || '0') / 1e9`, kept as the text handed to
   * `parseFloat`; reading `lamports` of null data throws.
   */
  function NormaliseBalance(data: BalanceJson): (r: Result<string, Thrown>)
    ensures data.NullData? <==> r.Failure?
    ensures r.Failure? ==> r.error == ReadOfNullish("lamports")
    ensures r.Success? ==> r.value != ""
    ensures data.BalanceData? && !Truthy(data.lamports) ==> r == Success("0")
    ensures data.BalanceData? && Truthy(data.lamports) ==> r == Success(data.lamports.value)
  {
    match data
    case NullData => Failure(ReadOfNullish("lamports"))
    case BalanceData(lamports) => Success(Or(lamports, "0"))
  }

  // One address

  /** The environment's behaviour for the four operations of one address. */
  type Calls = PerAddress.Calls<RawTransaction, RawTokenAccount, RawNft, BalanceJson>

  type Gathered = PerAddress.Gathered<Transaction, TokenBalance, Nft>

  /** This family's normalisers; none of them throws anything but a read of a missing element. */
  const Norm: PerAddress.Normalisers<RawTransaction, RawTokenAccount, RawNft, BalanceJson, Transaction, TokenBalance, Nft> :=
    PerAddress.Normalisers(NormaliseTransactions, NormaliseTokenAccounts, NormaliseNfts, NormaliseBalance)

  /** What the per-address log line reports; the native balance is in lamports. */
  datatype Summary = Summary(
    transactions: seq<Transaction>, tokenBalances: seq<TokenBalance>, nfts: seq<Nft>, nativeBalance: string)

  /** The indexer's configuration, fixed at construction. */
  datatype Indexer = Indexer(addresses: seq<string>, network: string)

  function TargetOf(ix: Indexer): Target {
    SolTarget(GetNetwork(ix.network))
  }

  /** The per-address log line's values. */
  function Report(ix: Indexer, g: Gathered): Summary {
    Summary(g.transactions, g.tokenBalances, g.nfts, g.nativeBalance)
  }

  function Summarise(ix: Indexer): Gathered -> Summary {
    (g: Gathered) => Report(ix, g)
  }

  /**
   * The body of the per-address `try` in `indexAll`: the four operations in
   * order, stopping at the first exception that escapes an operation.
   */
  function IndexAddress(ix: Indexer, s: Session, address: string, calls: Calls): StepRun<Summary> {
    PerAddress.Run(s, address, TargetOf(ix), calls, Norm, Summarise(ix))
  }

  /** `indexAll`: the shared sweep with this family's per-address pipeline; `oracle(i)` drives address `i`. */
  function IndexAll(ix: Indexer, s: Session, oracle: nat -> Calls): PassRun<Summary> {
    Pipeline.IndexAll(Solana, s, ix.addresses, PerAddress.Step(TargetOf(ix), Norm, Summarise(ix), oracle))
  }

  // ---------------------------------------------------------------------
  // Properties of the per-address pipeline and of `indexAll`

  /**
   * `indexAll`: with no addresses it only logs; otherwise every configured
   * address is processed in list order, each by a pipeline that enters the
   * transactions operation on the resolved network first, whatever happened to
   * the addresses before it. Once the session is initialised, or when every
   * handshake succeeds, each operation entered calls the provider; when
   * every handshake fails on a fresh session, the provider is never called
   * and the flag stays clear. The session stays valid.
   */
  lemma IndexAllContract(ix: Indexer, s: Session, oracle: nat -> Calls, h: Handshakes)
    requires forall i :: PerAddress.StartsAre(oracle(i), h)
    ensures var r := IndexAll(ix, s, oracle);
      && (ix.addresses == [] ==> r.events == [NothingToIndex(Solana)])
      && |r.runs| == |ix.addresses|
      && (forall i :: 0 <= i < |ix.addresses| ==>
            && r.runs[i].address == ix.addresses[i]
            && RunShaped(r.runs[i], TargetOf(ix), Solana)
            && Entries(r.runs[i].events)[0] == Entered(Transactions, ix.addresses[i], SolTarget(GetNetwork(ix.network))))
      && (Valid(s) ==> Valid(r.session))
      && (forall e :: e in r.events ==> FamilyEvent(e, Solana))
      && (ix.addresses != [] ==> Entered(Transactions, ix.addresses[0], TargetOf(ix)) in r.events)
      && (ix.addresses != [] && (s.initialized || h.AllSucceed?) ==>
            Invoked(Transactions, ix.addresses[0], TargetOf(ix)) in r.events)
      && (s.initialized || h.AllSucceed? ==> AllCalled(r.runs))
      && (s.initialized ==> r.session.initialized)
      && (!s.initialized && h.AllFail? ==> Invocations(r.events) == [] && !r.session.initialized)
  {
    var step := PerAddress.Step(TargetOf(ix), Norm, Summarise(ix), oracle);
    PerAddress.StepIsShaped(TargetOf(ix), Norm, Summarise(ix), oracle, h);
    Pipeline.IndexAllShaped(Solana, s, ix.addresses, step, TargetOf(ix), h);
    Pipeline.IndexAllFamilyEvents(Solana, s, ix.addresses, step, TargetOf(ix), h);
    Pipeline.IndexAllCalls(Solana, s, ix.addresses, step, TargetOf(ix), h);
    if ix.addresses != [] {
      Pipeline.IndexAllInvokesFirst(Solana, s, ix.addresses, step, TargetOf(ix), h);
    }
  }

  /** This family's normalisers only throw on a missing element, which `handleApiError` can report. */
  lemma NormalisersTame(calls: Calls)
    requires PerAddress.TameCalls(calls)
    ensures PerAddress.Tame(calls, Norm)
  {
  }

  /**
   * Unless reporting an error itself throws, the pipeline for an address
   * always completes, and each operation whose provider call was rejected
   * contributes its default: no records, or a balance of "0".
   */
  lemma TameAddressCompletes(ix: Indexer, s: Session, address: string, calls: Calls)
    requires PerAddress.TameCalls(calls)
    ensures var r := IndexAddress(ix, s, address, calls);
      && r.outcome.Success?
      && (calls.transactions.reply.Rejected? ==> r.outcome.value.transactions == [])
      && (calls.tokenBalances.reply.Rejected? ==> r.outcome.value.tokenBalances == [])
      && (calls.nfts.reply.Rejected? ==> r.outcome.value.nfts == [])
      && (calls.native.reply.Rejected? ==> r.outcome.value.nativeBalance == "0")
  {
    NormalisersTame(calls);
    PerAddress.TameCompletes(s, address, TargetOf(ix), calls, Norm);
  }

  /**
   * Once the handshake is behind it, a transactions call whose payload is
   * an array without null elements yields one normalised record per
   * element, and the later operations leave them as they are.
   */
  lemma DeliveredTransactions(ix: Indexer, s: Session, address: string, calls: Calls, items: seq<RawTransaction>)
    requires s.initialized || calls.transactions.start.Started?
    requires PerAddress.TameCalls(calls)
    requires calls.transactions.reply == Ok(Records(seq(|items|, i requires 0 <= i < |items| => Some(items[i]))))
    ensures var r := IndexAddress(ix, s, address, calls);
      && r.outcome.Success?
      && |r.outcome.value.transactions| == |items|
      && forall i :: 0 <= i < |items| ==> r.outcome.value.transactions[i] == NormaliseTransaction(items[i])
  {
    NormalisersTame(calls);
    PerAddress.DeliveredTransactions(s, address, TargetOf(ix), calls, Norm);
  }

  /**
   * In a tame environment `indexAll` over N addresses enters the four
   * operations, in order, address by address in list order, all against the
   * resolved network. Once the session is initialised, or when every
   * handshake succeeds, it makes exactly those 4 * N provider calls; when
   * every handshake fails on a fresh session it makes none.
   */
  lemma TameIndexAllInvocations(ix: Indexer, s: Session, oracle: nat -> Calls, h: Handshakes)
    requires forall i :: PerAddress.TameCalls(oracle(i)) && PerAddress.StartsAre(oracle(i), h)
    ensures var r := IndexAll(ix, s, oracle);
      && Entries(r.events) == Expected(ix.addresses, TargetOf(ix), Entering)
      && |Entries(r.events)| == 4 * |ix.addresses|
      && (s.initialized || h.AllSucceed? ==> Invocations(r.events) == Expected(ix.addresses, TargetOf(ix), Calling))
      && (!s.initialized && h.AllFail? ==> Invocations(r.events) == [])
  {
    forall i
      ensures PerAddress.Tame(oracle(i), Norm)
    {
      NormalisersTame(oracle(i));
    }
    PerAddress.TameInvocations(Solana, s, ix.addresses, TargetOf(ix), Norm, Summarise(ix), oracle, h);
  }
}

=== FILE: wrappers.dfy ===
/** Failure-compatible datatypes shared by the whole model. */
module Wrappers {

  /** An optional value: `None` stands for JavaScript's `undefined` or a missing field. */
  datatype Option<+T> = None | Some(value: T)

  /** The result of a computation that may throw: `Failure` carries what was thrown. */
  datatype Result<+R, +E> = Success(value: R) | Failure(error: E)
}
